=== FILE: README.md ===
# PlayRadarHub front end: a Dafny model of its data logic

PlayRadarHub is a React front end that lists upcoming video-game releases. This project models
the logic behind its pages, leaving the rendering out:

- the home page's paging state machine and its merge of fetched pages;
- the home carousel: today's releases, padded with the soonest future ones, else the next five
  future or the last five past releases. The grid shows every other record;
- the platform list and the platform filter;
- the "All Games" page's deduplication of the response, and the `useGameFilters` hook;
- the IGDB image helpers;
- the two game-list components: release-date reading, IGDB id and URL normalisation, thumbnail
  choice, platform icons and selection highlight;
- the carousel's icon and slide data, and the two `platformIcons` resolvers;
- `apiUrl` and the capability parser of `run-agent.js`.

Every operation is a pure function over immutable data. Loops in the source are also written
as methods whose invariants tie them to the functions. JavaScript behaviour is spelled out
where it matters:

- truthiness, `||`, `??` and `===` on absent ids;
- `trim` and `\s` with the ECMAScript white-space set;
- greedy regular expressions, written as scanners;
- the `$$`, `$&`, `` $` `` and `$'` patterns that `String.prototype.replace` expands in a replacement string;
- stable `Array.prototype.sort`, as a stable insertion sort of positions.

Modules, one per concern:

| module | file | models |
|---|---|---|
| `Wrappers` | wrappers.dfy | `Option` |
| `JsText` | jstext.dfy | string built-ins: `toLowerCase`, `includes`, `startsWith`, `trim`, `join`, integer printing |
| `GameModel` | game.dfy | a parsed game record; `filter`, `slice` |
| `StableSort` | stablesort.dfy | `Array.prototype.sort` with a comparator; `localeCompare` order |
| `FirstSeen` | firstseen.dfy | "keep the first element of each key" loops |
| `Paging` | paging.dfy | `fetchGames` and the infinite scroll of src/pages/App.jsx |
| `Curation` | curation.dfy | carousel and rest selection of src/App.jsx and src/pages/App.jsx; `filterGamesByDate` |
| `Platforms` | platforms.dfy | `extractPlatforms`, the platform lists and filters |
| `GamesPage` | gamespage.dfy | response handling of src/pages/Games.jsx |
| `Filters` | filters.dfy | `useGameFilters` |
| `IgdbImage` | igdb.dfy | src/utils/igdbImage.js and `buildSrcSet` |
| `IconText` | icontext.dfy | slug rules and keyed icon lookup |
| `PlatformIcons` | platformicons.dfy | src/utils/platformIcons.js and src/utils/platformIcons.jsx |
| `GameList` | gamelist.dfy | src/components/GameList.jsx and src/components/GameList.js |
| `Carousel` | carousel.dfy | src/components/Carousel.jsx |
| `Api` | api.dfy | src/utils/api.js |
| `Capabilities` | capabilities.dfy | `parseCapabilities` of run-agent.js |

Where the code and its evident intent differ, the model follows the code. The corrected
definition sits next to it, and the two are related by lemmas (see "## Findings").

## Model

| member | source | states |
|---|---|---|
| Api.SelectBase | src/utils/api.js:8-16 | A set `VITE_API_BASE` wins. Otherwise a page whose host is not `localhost`/`127.0.0.1` gets the production backend. The base is empty exactly when there is no override and no remote page. |
| Api.DropTrailingSlash | src/utils/api.js:19 | `/\/$/` removes one trailing slash: either the input is the result plus `/`, or it is unchanged and ends without `/`. |
| Api.DropsOneSlash | src/utils/api.js:19 | Only the last of two trailing slashes is removed. |
| Api.ApiUrl | src/utils/api.js:6-27 | With no base the path comes back unchanged. Otherwise the result starts with the base minus its trailing slash. |
| Api.ApiPrefixStripped | src/utils/api.js:23-25 | `/api` + rest gives base + rest: the prefix is cut exactly once. |
| Api.ApiPrefixNotSegment | src/utils/api.js:23-25 | `/apifoo` gives base + `foo`. The prefix test is textual, not per segment. |
| Api.RootedPathAppended | src/utils/api.js:26 | A path starting with `/` but not `/api` is appended unchanged and can be read back after the base. |
| Api.BarePathGetsSlash | src/utils/api.js:26 | A path without a leading slash is joined to the base with one `/`. |
| Api.RemotePageUsesBackend | src/utils/api.js:4-12 | On a deployed page with no override, `/api/x` maps to the production backend's `/api/x`. |
| Capabilities.LineEnd | run-agent.js:12 | The first `\n` or the end of the text: no line feed before it. |
| Capabilities.DropCr | run-agent.js:12 | The `\r?` of the separator: a line loses at most one trailing `\r`. |
| Capabilities.SplitLines | run-agent.js:12 | `split(/\r?\n/)` yields at least one line, and no line holds a `\n`. |
| Capabilities.SplitLinesCount | run-agent.js:12 | There is one more line than there are line feeds. |
| Capabilities.SplitLinesJoin | run-agent.js:12 | Without `\r`, joining the lines with `\n` gives the text back. |
| Capabilities.SplitLinesStep | run-agent.js:12 | Without `\r`, the first line is the text up to the first `\n`, unchanged. |
| Capabilities.FirstIndex | run-agent.js:15-17 | The index of the first element satisfying a test. It is absent exactly when none does, and nothing before it satisfies the test. |
| Capabilities.FirstIndexAt | run-agent.js:15-17 | An element that satisfies the test, with none before it, is the first. |
| Capabilities.ItemMatch | run-agent.js:22 | When `/^-\s+(.*)$/` matches, the line starts with `-` and a white-space character. The capture is a line-terminator-free suffix of the line. |
| Capabilities.ItemMatchIsGreedy | run-agent.js:22 | The scanner matches exactly when some split of the line satisfies the regular expression. The capture is the longest such, because `\s+` is greedy. |
| Capabilities.ReadItems | run-agent.js:19-25 | At most one item per line. |
| Capabilities.ReadItemsTrimmed | run-agent.js:23 | Every item read is its own trim. |
| Capabilities.Classify | run-agent.js:21-24 | A line stops the loop exactly when it is empty, starts with `#` or is blank. It gives an item exactly when it does not stop the loop and matches the bullet pattern. |
| Capabilities.ClassifyAt | run-agent.js:21-24 | A stop line reads nothing more. An item line puts its item ahead of what the next line reads. A skipped line reads what the next line reads. |
| Capabilities.LoopStep | run-agent.js:19-25 | One pass of the second loop keeps the collected items plus what remains to be read equal to the full answer. |
| Capabilities.ParseLines | run-agent.js:14-18 | With no header line the result is empty. Otherwise there is at most one item per line after the header. |
| Capabilities.ParseCapabilities | run-agent.js:11-27 | There are fewer capabilities than lines. |
| Capabilities.NoHeaderNoItems | run-agent.js:18 | A text with no `capabilities:` line gives `[]`. |
| Capabilities.OnlyAfterHeader | run-agent.js:15-19 | Only the lines after the first header are read. Nothing before it matters, including later headers. |
| Capabilities.StopsAtFirstStop | run-agent.js:21-24 | An empty line, a `#` line or a blank line ends the list. Nothing after it is read. |
| Capabilities.BulletMatches | run-agent.js:22 | A dash, one white-space character and a one-line text capture that text without its leading white space. |
| Capabilities.ItemLineRead | run-agent.js:22-23 | Such a line contributes the trimmed text as the next item. |
| Capabilities.IndentedLineSkipped | run-agent.js:22-24 | A non-blank line with a white-space indent, such as an indented bullet, is skipped rather than ending the list. |
| Capabilities.UnmatchedLineSkipped | run-agent.js:21-24 | A non-blank line that does not start with `#` and does not match the bullet pattern is skipped. |
| Capabilities.PlainLineSkipped | run-agent.js:21-24 | A line whose first character is not `-`, `#` or white space is skipped. |
| Capabilities.DashWordSkipped | run-agent.js:22-24 | `-` followed directly by a non-space character (`-foo`) is no bullet and is skipped. |
| Capabilities.CommentLineStops | run-agent.js:21 | A line starting with `#` ends the list. |
| Capabilities.ParseCapabilitiesLoop | run-agent.js:11-27 | The two loops, including the `start` index and both `break`s, compute `ParseCapabilities`. |
| Capabilities.ParseLinesFromStart | run-agent.js:14-25 | `start === -1` means no items; otherwise the items are exactly those read from `start`. |
| Capabilities.FindStart | run-agent.js:14-17 | `start` is `-1` exactly when there is no header line, else one past the first header. |
| Capabilities.ReadFrom | run-agent.js:19-25 | The second loop collects exactly the items read from `start` on. |
| Paging.Fresh | src/pages/App.jsx:58-60 | The page records whose id no held record `===`-matches, and every such record. |
| Paging.Merge | src/pages/App.jsx:57-62 | The held records stay as the prefix, followed by exactly the fresh page records. The length grows by at most the page size. |
| Paging.MergeCoversPage | src/pages/App.jsx:57-62 | After a merge, every page record has an equal id somewhere in the list. |
| Paging.MergeIdempotent | src/pages/App.jsx:57-62 | Merging the same page twice is merging it once. |
| Paging.FreshSplits | src/pages/App.jsx:58-60 | Records are judged only against the held list, so a page split in two merges piecewise. |
| Paging.IdlessDroppedAfterIdless | src/pages/App.jsx:59 | An id-less record is dropped once an id-less record is held, because `undefined === undefined`. |
| Paging.PageDuplicatesKept | src/pages/App.jsx:58-61 | Two fresh records with the same id in one page are both appended. |
| Paging.SecondCopyAcrossPagesDropped | src/pages/App.jsx:57-62 | Id 42 on two pages keeps the first page's copy and drops the second's. |
| Paging.Begin | src/pages/App.jsx:46-48 | While loading, or with no more pages, nothing changes. Otherwise only `loading` is set. |
| Paging.Complete | src/pages/App.jsx:56-72 | A completed request always ends with `loading` off. |
| Paging.Fetch | src/pages/App.jsx:45-73 | A guarded call is a no-op. A page merges its records, sets `hasMore` to "the page was non-empty", adds 20 to the offset only for a non-empty page, and keeps the error. A failure changes only `error`. |
| Paging.Advance | src/pages/App.jsx:83-87 | The scroll handler adds one page to the offset while more pages remain, and does nothing otherwise. |
| Paging.RunInvariant | src/pages/App.jsx:45-104 | Along any sequence of fetches and scrolls: never loading between events, and the offset stays a multiple of 20 and never decreases. The held records are only extended, and once `hasMore` is false the state never changes. |
| Paging.EmptyPageEndsPaging | src/pages/App.jsx:63-66 | From the initial state, an empty page ends paging for good, and the offset is a multiple of 20. |
| Paging.RunAppend | src/pages/App.jsx:75-104 | Running two event sequences one after the other is running their concatenation. |
| GamesPage.Unwrap | src/pages/Games.jsx:27 | A bare array is used as is. Otherwise `games` is used when present, even if empty, else `results`, else `[]`. |
| GamesPage.IdentityKey | src/pages/Games.jsx:31-32 | `id ?? _id`, kept only when truthy: `_id` is consulted only when `id` is absent, and a falsy key gives none. |
| GamesPage.UniqueGames | src/pages/Games.jsx:27-36 | No more records than the response holds. |
| GamesPage.UniqueGamesSpec | src/pages/Games.jsx:28-36 | The kept records are a subsequence of the response with pairwise distinct truthy keys and the response's key set. Each one is the first record of its key. |
| GamesPage.UniqueGamesIdempotent | src/pages/Games.jsx:28-36 | Deduplicating the kept records again changes nothing. |
| GamesPage.ZeroIdDropped | src/pages/Games.jsx:31-32 | A record with `id: 0` is dropped even with a truthy `_id`, since `0 ?? _id` is `0`. |
| GamesPage.Settle | src/pages/Games.jsx:16-46 | After unmount nothing changes. Otherwise loading ends; a body replaces the list by its unique records, and an error keeps the list. |
| FirstSeen.Dedup | src/pages/Games.jsx:28-36 | At most as many elements as the input. |
| FirstSeen.DedupWithSet | src/pages/Games.jsx:28-36 | The loop with a set of seen keys computes `Dedup`. |
| FirstSeen.DedupIsSubsequence | src/pages/Games.jsx:28-36 | The kept elements are the input with some left out, order kept. |
| FirstSeen.DedupKeepsFirsts | src/pages/Games.jsx:32-35 | Every kept element is the first of its key in the input. |
| FirstSeen.DedupKeys | src/pages/Games.jsx:32-35 | Every kept element has a key, and the kept keys are exactly the input's keys. |
| FirstSeen.DedupDistinctKeys | src/pages/Games.jsx:32-35 | No two kept elements share a key. |
| FirstSeen.DedupOfDistinct | src/pages/Games.jsx:32-35 | An input whose keys are all present and distinct is kept whole. |
| FirstSeen.DedupIdempotent | src/pages/Games.jsx:28-36 | Deduplicating twice is deduplicating once. |
| Curation.Positions | src/pages/App.jsx:108-113 | The positions satisfying a filter, in input order, and every such position: what `filter` keeps, as indices. |
| Curation.ReleaseKeys | src/pages/App.jsx:128 | One sort key per record: its `first_release_date`, with a missing date read as `0`. |
| Curation.FutureMembership | src/pages/App.jsx:136-140 | A position is a future candidate exactly when its record has a truthy release date later than `now`. |
| Curation.PastMembership | src/pages/App.jsx:147-151 | A position is a past candidate exactly when its record has a truthy release date no later than `now`. |
| Curation.PaddingMembership | src/pages/App.jsx:121-126 | A position pads today's releases exactly when it is a future release and no chosen record has its `id`. |
| Curation.TodayBranch | src/pages/App.jsx:117-132 | Today's releases plus padding: at most six distinct positions, each with a release date. |
| Curation.PaddingFacts | src/pages/App.jsx:121-131 | The padding holds future releases only, and joined after today's releases no position repeats. |
| Curation.PaddingDrawnFromCandidates | src/pages/App.jsx:121-129 | The padding repeats no position and takes only future records whose id no chosen record has. |
| Curation.TopReleases | src/pages/App.jsx:127-128 | Sort-then-slice gives at most `n` distinct positions, all drawn from the candidates. |
| Curation.TopReleasesSpec | src/pages/App.jsx:127-128 | The taken positions are in release order, with ties in input order because the sort is stable. No candidate left out ranks ahead of a taken one, and one is left out only when `n` were taken. |
| Curation.CarouselPositions | src/pages/App.jsx:116-156 | At most six distinct positions, at most five when nothing is released today, each holding a record with a release date. |
| Curation.CarouselOpensWithToday | src/pages/App.jsx:117-118 | With a release today, the carousel opens with the first five of today's releases in input order, and no release of today's before them is skipped. |
| Curation.TodayFull | src/pages/App.jsx:117-120 | With five or more releases today, the carousel is exactly the first five of them and nothing pads it. |
| Curation.CarouselPadsWithFuture | src/pages/App.jsx:119-131 | With one to four releases today, the carousel is those releases followed by padding. The padding holds future releases whose `id` none of today's has, soonest first. No unused candidate is sooner, and one is left unused only when the carousel holds six. |
| Curation.CarouselSoonestFuture | src/pages/App.jsx:133-144 | With no release today and some future release, the carousel holds the five (or all) soonest future releases, in ascending release order. No future release left out is sooner. |
| Curation.CarouselLatestPast | src/pages/App.jsx:145-155 | With no release today or ahead, the carousel holds the five (or all) latest past releases, newest first. No past release left out is newer. |
| Curation.FutureTier | src/pages/App.jsx:134-143 | The first five of the ascending future candidates, stated as facts about future releases. |
| Curation.PastTier | src/pages/App.jsx:146-153 | The first five of the descending past candidates, stated as facts about past releases. |
| Curation.TierSpec | src/pages/App.jsx:134-153 | One tier's first five: as many as the tier allows, drawn from it, in release order, with nothing left out ranking ahead. |
| Curation.RestMembership | src/pages/App.jsx:158 | A position is in the grid exactly when it is not in the carousel. |
| Curation.CarouselAndRestPartition | src/pages/App.jsx:116-158 | The carousel and the grid split the list: every record lands in exactly one of them, and the grid keeps input order. |
| Curation.TodayPaddedExample | src/pages/App.jsx:116-158 | A record released today is padded with the upcoming release, and yesterday's release goes to the grid. |
| Curation.WeekSplit | src/utils/gameUtils.js:58-74 | `filterGamesByDate`: a record is in the carousel exactly when its date falls in the coming week, and in the rest exactly when its date is later. No record is in both, undated and past records are in neither, and nothing is duplicated. |
| Platforms.Names | src/utils/gameUtils.js:34-38 | `map`: one name per descriptor, in order. |
| Platforms.FieldNames | src/utils/gameUtils.js:43-51 | The singular `platform` property gives one name per array entry, one name for an object, and none when absent. |
| Platforms.ExtractNames | src/utils/gameUtils.js:30-53 | No game gives no names. A non-empty `platforms` array gives at most one name per entry, and never an empty one. |
| Platforms.PlatformsBranch | src/utils/gameUtils.js:32-40 | With a non-empty `platforms` array, the names are exactly the non-empty descriptor names, in order. |
| Platforms.NamesBranch | src/utils/gameUtils.js:41-42 | Otherwise a non-empty `platforms_names` array is returned as a copy. |
| Platforms.FieldBranch | src/utils/gameUtils.js:43-52 | Otherwise `platform` decides. Array entries are never dropped, even when empty. A non-empty string is one name, an object is `name \|\| abbreviation \|\| ""`, and anything else gives no names. |
| Platforms.NamelessDroppedFromPlatforms | src/utils/gameUtils.js:32-40 | A nameless object in `platforms` is dropped. |
| Platforms.NamelessKeptInPlatformList | src/utils/gameUtils.js:44-46 | The same nameless object in a `platform` array stays as `""`. |
| Platforms.EmptyNameKeptOnlyInFieldBranch | src/utils/gameUtils.js:32-47 | The two branches treat one nameless descriptor differently. |
| Platforms.HookNamesAgainstExtract | src/hooks/useGameFilters.js:38-55 | Compared with `extractPlatforms`, the filter hook's platform names are equal up to empty names while `platforms` is non-empty, and equal on the other arrays. They are empty where `extractPlatforms` reads a lone `platform` object. |
| Platforms.EmptyPlatformsArrayHidesNames | src/hooks/useGameFilters.js:39-46 | An empty `platforms` array hides `platforms_names` from the hook but not from `extractPlatforms`. |
| Platforms.IdText | src/components/Carousel.jsx:30 | `String(p.id \|\| '')` is empty exactly when the id is falsy. |
| Platforms.CarouselEntries | src/components/Carousel.jsx:27-31 | Falsy entries are dropped, so at most one item per entry. |
| Platforms.CarouselPlatforms | src/components/Carousel.jsx:24-44 | No game gives no items, and a `platforms` array gives at most one item per entry. |
| Platforms.CarouselEntriesCount | src/components/Carousel.jsx:27-31 | Exactly the empty strings leave; every other entry yields one item. |
| Platforms.CarouselEntriesAgree | src/components/Carousel.jsx:27-31 | Unless an object falls back to its id, the carousel's non-empty names are exactly those of the shared `extractPlatforms`. |
| Platforms.IdFallbackExample | src/components/Carousel.jsx:30 | An object with nothing but the numeric id 48 is named "48". |
| Platforms.EntriesComplete | src/pages/App.jsx:166-167 | Every entry of every game's `platforms \|\| []` is visited. |
| Platforms.EntriesSound | src/pages/App.jsx:166-167 | Every visited entry is one of some game's platforms, at its slot. |
| Platforms.UniquePlatformKeysSpec | src/utils/gameUtils.js:77-85 | The set of `name \|\| platform` keys, in first-seen order: pairwise distinct, one for every platform of every game, and nothing else. |
| Platforms.UniqueListsAgree | src/pages/App.jsx:164-174 | The home page's list keeps, at each position, the descriptor that the helpers' key at that position names. Nameless objects are their own key. |
| Platforms.NamelessObjectsStay | src/pages/App.jsx:164-174 | Two copies of a string platform collapse to one. Two nameless objects never do, because a `Set` compares objects by identity. |
| Platforms.FilterByPlatformNameSpec | src/pages/App.jsx:176-182 | An empty selection keeps everything. Otherwise the filter keeps, in order, exactly the games with a platform that is the selected string or whose `name` is it. |
| Platforms.IncludesImpliesNamed | src/App.jsx:117-136 | Every game the `includes` filter keeps, the name filter keeps too. |
| Platforms.ObjectPlatformMissedByIncludes | src/App.jsx:117-119 | A game whose platforms are objects is found by name but never by `includes`. |
| Filters.NameKeys | src/hooks/useGameFilters.js:64-66 | One sort key per record: its `name \|\| ""`. |
| Filters.NameOrder | src/hooks/useGameFilters.js:63-67 | A permutation of the positions that a stable sort by name leaves in order. |
| Filters.FilteredGames | src/hooks/useGameFilters.js:11-70 | Never more games than the input. |
| Filters.KeepStep | src/hooks/useGameFilters.js:15-60 | A filter applied only when active, after earlier ones, is one filter by the conjunction. |
| Filters.NarrowIsConjunction | src/hooks/useGameFilters.js:15-60 | The three filters in sequence keep what one filter by "passes every active filter" keeps. |
| Filters.NarrowSpec | src/hooks/useGameFilters.js:15-60 | Before sorting, the result is a subsequence of the input, and a game is in it exactly when it passes every active filter. |
| Filters.NoFiltersIsIdentity | src/hooks/useGameFilters.js:11-70 | With every filter empty and no name ordering, the input comes back unchanged. |
| Filters.MissingFieldsDropped | src/hooks/useGameFilters.js:15-32 | An active search drops every game without a name. An active genre filter drops every game without a `genres` array. |
| Filters.LonePlatformObjectDropped | src/hooks/useGameFilters.js:36-59 | A game whose only platform information is one `platform` object never passes an active platform filter. |
| Filters.SearchIgnoresCase | src/hooks/useGameFilters.js:17 | The search matches a term exactly when it matches the term lowercased. |
| Filters.NameSortPermutes | src/hooks/useGameFilters.js:63-67 | Sorting by name rearranges the games and loses none. |
| Filters.NameSortOrdered | src/hooks/useGameFilters.js:63-67 | After sorting, `name \|\| ""` is non-decreasing (non-increasing for "-name"), and games with equal names keep their relative order. |
| Filters.OrderingSpec | src/hooks/useGameFilters.js:62-69 | With "name" or "-name", the result is a permutation of the filtered games, ordered by name, with stable ties. |
| Filters.OtherOrderingKeepsOrder | src/hooks/useGameFilters.js:62-69 | Any other ordering value keeps the filtered order. |
| IgdbImage.FindToken | src/utils/igdbImage.js:7 | The leftmost match of `/t_[^/]+/i` at or after a position, or none when no match starts there. |
| IgdbImage.RunEnd | src/utils/igdbImage.js:7 | The greedy `[^/]+` stops at the next `/` or at the end, and holds no `/`. |
| IgdbImage.GetHighResImage | src/utils/igdbImage.js:4-11 | An empty URL gives `""`. How the segment is replaced is stated by `IgdbImage.HighResReplacesFirstToken`. |
| IgdbImage.HighResWithoutToken | src/utils/igdbImage.js:7 | A URL without a size segment comes back unchanged. |
| IgdbImage.HighResReplacesFirstToken | src/utils/igdbImage.js:7 | Only the leftmost size segment is replaced, and all of it: the text before it is kept, what follows is kept from the next `/` on, and the size goes in with its `$` patterns expanded against the segment. |
| IgdbImage.HighResAt | src/utils/igdbImage.js:7 | Given the bounds of the first segment, the result is the text around it with the expanded size in between. |
| IgdbImage.HighResLiteral | src/utils/igdbImage.js:7 | A size without `$` is written in exactly as it is. |
| IgdbImage.HighResIdempotent | src/utils/igdbImage.js:4-11 | Raising the resolution twice with the same `$`-free size token is raising it once. |
| IgdbImage.HighResMatchPatternGrows | src/utils/igdbImage.js:4-11 | `t_$&` is a size token for which a second pass changes the URL again: `t_x` becomes `t_t_x`, then `t_t_t_x`. |
| IgdbImage.WholeSegmentMatchPattern | src/utils/igdbImage.js:7 | A URL that is one size segment, raised with `t_$&`, gets `t_` put in front of it. |
| IgdbImage.MatchPatternToken | src/utils/igdbImage.js:7 | `t_$&` expands to `t_` followed by the matched segment. |
| IgdbImage.SpliceFirstToken | src/utils/igdbImage.js:7 | After the replacement, the written-in token is the leftmost match. |
| IgdbImage.SpliceRunEnd | src/utils/igdbImage.js:7 | After the replacement, the greedy run after `t_` ends where the written-in token ends. |
| IgdbImage.BuildFromId | src/utils/igdbImage.js:13-21 | Empty exactly for an empty id. An http(s) URL comes back as is. |
| IgdbImage.BuildFromIdIdempotent | src/utils/igdbImage.js:13-21 | Every expanded id comes out as an http(s) URL, so expanding again changes nothing. |
| IgdbImage.UploadId | src/utils/igdbImage.js:18 | Reads back the image id of an upload URL of the given size. |
| IgdbImage.UploadIdRoundTrip | src/utils/igdbImage.js:17-18 | A bare image id is recovered from the URL built for it. |
| IgdbImage.NormalizeSize | src/utils/igdbImage.js:23-28 | Always a `t_` token, in either case. A non-empty name without the prefix gets `t_` in front. |
| IgdbImage.StripTokenPrefix | src/utils/igdbImage.js:27 | The case-sensitive strip leaves a string without a lower-case `t_` prefix unchanged. |
| IgdbImage.NormalizeSizeFixedPoints | src/utils/igdbImage.js:23-28 | A size is left as it is exactly when it starts with `t_` in either case. |
| IgdbImage.NormalizeSizeIdempotent | src/utils/igdbImage.js:23-28 | Normalising twice is normalising once. |
| IgdbImage.ReplaceThumbs | src/utils/igdbImage.js:49 | The global replacement never empties a non-empty string when the token starts with a character other than `$`. |
| IgdbImage.ReplaceThumbsAfter | src/utils/igdbImage.js:49 | Each match is replaced by the token expanded against that match and the text around it. A non-empty string is never emptied when the token starts with a character other than `$`. |
| IgdbImage.ReplaceThumbsLiteral | src/utils/igdbImage.js:49 | With a `$`-free token the result does not depend on the text before the part being scanned. |
| IgdbImage.ThumbAfterPatternEmpties | src/utils/igdbImage.js:49 | The token `$'` inserts the text after the match, so `t_thumb` alone becomes `""`. |
| IgdbImage.ReplaceThumbsNoMatch | src/utils/igdbImage.js:49 | A string without `t_thumb` in any case comes back unchanged. |
| IgdbImage.ThumbAtShift | src/utils/igdbImage.js:49 | A match in the tail is a match one position further on. |
| IgdbImage.ReplaceThumbsStep | src/utils/igdbImage.js:49 | Without a match at the front, the first character is copied and the scan goes on. |
| IgdbImage.ReplaceThumbsKeepsPrefix | src/utils/igdbImage.js:49 | Text in which no match starts is copied through unchanged. |
| IgdbImage.ReplaceThumbsKeepsHttps | src/utils/igdbImage.js:103 | A URL that starts with `https://` still does after the replacement. |
| IgdbImage.SizeToken | src/utils/igdbImage.js:33-35 | `options.size \|\| options.type \|\| "t_cover_big"`, normalised, is always a `t_` token. |
| IgdbImage.Resolve | src/utils/igdbImage.js:71-78 | The treatment of each string candidate never turns a non-empty string into `""`. |
| IgdbImage.Candidates | src/utils/igdbImage.js:56-66 | Always the seven candidate fields, in the source's order. |
| IgdbImage.GetIgdbImage | src/utils/igdbImage.js:30-109 | A falsy input, or a truthy value that is neither string nor object, gives `""`. |
| IgdbImage.CoverTakesPrecedence | src/utils/igdbImage.js:40-53 | A deciding cover wins over every other field, and `cover.image_id` wins over `cover.url`. |
| IgdbImage.FirstUsableSpec | src/utils/igdbImage.js:68-93 | Without a deciding cover, the result is `""` exactly when no candidate offers text. Otherwise it is the first offered text, resolved. |
| IgdbImage.NoSourceNoImage | src/utils/igdbImage.js:37-93 | A record with no deciding cover and no image source has no image. |
| IgdbImage.TextUrlKeepsScheme | src/utils/igdbImage.js:97-106 | An https URL passed as a string keeps its scheme. |
| IgdbImage.SrcSetUrls | src/components/Carousel.jsx:12-19 | One image per carousel size, in order. |
| IgdbImage.Entries | src/components/Carousel.jsx:19 | One `${url} ${w}w` entry per size. |
| IgdbImage.BuildSrcSet | src/components/Carousel.jsx:10-22 | `buildSrcSet` as written: a falsy input gives `""`. |
| IgdbImage.SrcSetHasFourEntries | src/components/Carousel.jsx:18-21 | `filter(Boolean)` never drops an entry: a truthy input always gives all four widths, in order. |
| IgdbImage.SrcSetWithoutImage | src/components/Carousel.jsx:10-22 | A record with no image still gets a `srcset` of widths with no URL before them. |
| IgdbImage.UsableEntriesBounds | src/components/Carousel.jsx:18-21 | Leaving out entries without a URL gives nothing when no size has a URL, and every entry when all do. |
| IgdbImage.BuildSrcSetCorrected | src/components/Carousel.jsx:10-22 | `buildSrcSet` with entries lacking a URL left out, as the filter evidently means. A falsy input gives `""`. |
| IgdbImage.SrcSetCorrectedSpec | src/components/Carousel.jsx:18-21 | The corrected `srcset` is empty when no size has an image, and equals the written one when every size has one. |
| IgdbImage.SrcSetCorrectedWithoutImage | src/components/Carousel.jsx:10-22 | For a record with no image the corrected `srcset` is empty. |
| IconText.ReplaceRuns | src/utils/platformIcons.js:40 | Each maximal run of the given characters becomes one dash. No other character is added. Characters outside the runs at either end stay, and with dashes in the class no two dashes end up together. |
| IconText.ReplaceRunsAfterRun | src/utils/platformIcons.js:40 | A run boundary makes no difference in front of a character outside the runs. |
| IconText.ReplaceRunsNone | src/utils/platformIcons.js:40 | Text with no run character is left as it is. |
| IconText.CollapseDashesNone | src/utils/platformIcons.js:42 | Collapsing dash runs leaves text without a double dash as it is. |
| IconText.StripOneDash | src/components/Carousel.jsx:82 | `replace(/^-\|-$/g, '')` never lengthens the text. |
| IconText.DropLeadingDash | src/components/Carousel.jsx:82 | The `^-` alternative removes at most one leading dash. |
| IconText.DropTrailingDash | src/components/Carousel.jsx:82 | The `-$` alternative removes at most one trailing dash. |
| IconText.SlugSpec | src/components/Carousel.jsx:82 | A slug holds only `[a-z0-9-]`, never two dashes together, and no dash at either end. |
| IconText.StripOneDashSpec | src/components/Carousel.jsx:82 | On `[a-z0-9-]` text without a double dash, removing one dash at each end leaves no edge dash. |
| IconText.SlugIdempotent | src/components/Carousel.jsx:82 | Slugging a slug changes nothing. |
| IconText.ReplaceRunsOnDashed | src/components/Carousel.jsx:82 | On `[a-z0-9-]` text without a double dash, replacing non-slug runs changes nothing. |
| IconText.TrimDashes | src/utils/platformIcons.js:41 | `replace(/^-+\|-+$/g, '')` leaves no dash at either end and adds no character. |
| IconText.SanitizeSpec | src/utils/platformIcons.js:37-42 | The output uses only `[a-z0-9._-]`, has no dash at either end, and has no two dashes together. |
| IconText.SanitizeIdempotent | src/utils/platformIcons.js:37-42 | Sanitizing a sanitized name changes nothing. |
| IconText.SanitizeFixed | src/utils/platformIcons.js:37-42 | A name already in sanitized form is its own sanitization. |
| IconText.FirstKeyIn | src/utils/platformIcons.js:54-56 | The first table key, in declared order, that the text contains. None when no key is contained. |
| IconText.FirstKeyInUnique | src/utils/platformIcons.js:54-56 | Any index that meets those two conditions is the one found. |
| PlatformIcons.ExactIndex | src/utils/platformIcons.js:51 | The table entry whose own key is exactly the text, or none. |
| PlatformIcons.Lookup | src/utils/platformIcons.js:51-56 | A found file is one of the table's files. |
| PlatformIcons.FileFallback | src/utils/platformIcons.js:59-66 | Without a key match, the input comes back as is or as a path under `/icons/`. |
| PlatformIcons.Resolve | src/utils/platformIcons.js:45-66 | The decision chain returns the input or a path under `/icons/`, and always a text holding a `/`. |
| PlatformIcons.PlatformIcon | src/utils/platformIcons.js:3-67 | `null` exactly for a falsy argument. Otherwise a path holding a `/`. |
| PlatformIcons.UrlUnchanged | src/utils/platformIcons.js:45 | An http(s) URL comes back trimmed and otherwise unchanged. |
| PlatformIcons.IconsPathUnchanged | src/utils/platformIcons.js:48 | A path under `/icons/` comes back trimmed and otherwise unchanged. |
| PlatformIcons.ExactKeyWins | src/utils/platformIcons.js:51 | Past those two tests, an exact key gives its file, even when an earlier key is contained in it. |
| PlatformIcons.ExactIndexAt | src/utils/platformIcons.js:51 | An entry with the key, with no earlier entry of that key, is the one found. |
| PlatformIcons.ResolveExact | src/utils/platformIcons.js:51 | In the chain, an exact key gives `/icons/` plus its file. |
| PlatformIcons.ContainedKeyWins | src/utils/platformIcons.js:54-56 | Without an exact key, the first key in declared order that the lowercased input contains gives its file. |
| PlatformIcons.ExactKeyIsContained | src/utils/platformIcons.js:51-56 | An exact key is also a contained key, so the contains-based scan would find it or an earlier key. |
| PlatformIcons.FileNameAndFallback | src/utils/platformIcons.js:59-66 | With no key matching, an image file name is kept when it holds a path and is otherwise sanitized under `/icons/`. Anything else becomes `/icons/<sanitized>.svg`. |
| PlatformIcons.NoKeyNoLookup | src/utils/platformIcons.js:51-56 | Text that contains no key has no lookup result. |
| PlatformIcons.ObjectNameUnwrapped | src/utils/platformIcons.js:7-9 | An object with a truthy `name` is looked up as that name. |
| PlatformIcons.PaddingIgnored | src/utils/platformIcons.js:11 | Surrounding white space makes no difference once the argument is truthy. |
| PlatformIcons.IconOfText | src/utils/platformIcons.js:4-12 | A non-empty string argument goes through the chain trimmed. |
| PlatformIcons.TablesDiffer | src/utils/platformIcons.jsx:16-36 | The two copies declare the same 19 keys in the same order. Their files differ for `android`, `ios`, `mac` and `linux` alone. |
| PlatformIcons.LookupAsWritten | src/utils/platformIcons.js:51 | `ICON_MAP[lower]` as written: an own key gives its file. |
| PlatformIcons.ResolveAsWritten | src/utils/platformIcons.js:45-66 | The chain as written returns the input or a path under `/icons/`, and always a text holding a `/`. |
| PlatformIcons.PlatformIconAsWritten | src/utils/platformIcons.js:3-67 | As written: `null` exactly for a falsy argument, otherwise a path holding a `/`. |
| PlatformIcons.AsWrittenAgreesOffInherited | src/utils/platformIcons.js:51 | Apart from the inherited member names, the code as written and the own-key lookup agree. |
| PlatformIcons.InheritedNamesHoldNoKey | src/utils/platformIcons.js:15-35 | Neither `constructor` nor `__proto__` contains a table key. |
| PlatformIcons.NameMissesTable | src/utils/platformIcons.js:51-56 | A name that holds no key of a table matches none of its entries. |
| PlatformIcons.PlainNameShape | src/utils/platformIcons.js:11-66 | A plain lowercase file name passes the trim, lowercase, URL, path, extension and sanitize steps unchanged. |
| PlatformIcons.ResolveFallsBack | src/utils/platformIcons.js:58-66 | Past the URL and `/icons/` tests, with no key found, the chain ends in the file-name fallback. |
| PlatformIcons.PlainNameFallsBack | src/utils/platformIcons.js:66 | A plain lowercase name that matches no key falls back to `/icons/<name>.svg`. |
| PlatformIcons.AsWrittenLooksUp | src/utils/platformIcons.js:51 | Past the URL and `/icons/` tests, the code as written answers from its lookup first. |
| PlatformIcons.InheritedAsWritten | src/utils/platformIcons.js:51 | As written, a lowercase inherited member name missing from the table is answered by the inherited member. |
| PlatformIcons.InheritedKeys | src/utils/platformIcons.js:51 | In both copies, `constructor` and `__proto__` give the printed inherited member under `/icons/` as written. Corrected, they give `/icons/<name>.svg`. |
| GameList.SegmentEnd | src/components/GameList.jsx:12 | The greedy `[^\/?#]+` stops at the first `/`, `?` or `#`, or at the end. |
| GameList.SegmentEndUnique | src/components/GameList.jsx:12 | Any position that meets those conditions is where the run stops. |
| GameList.FindSegment | src/components/GameList.jsx:12 | The leftmost position at which the URL pattern matches, or none. |
| GameList.StripImageExt | src/components/GameList.jsx:13 | Removing a trailing `.jpg`/`.jpeg`/`.png` leaves a prefix of the segment. |
| GameList.BareId | src/components/GameList.jsx:14-15 | A captured id is a word id and a prefix of the text. |
| GameList.SegmentId | src/components/GameList.jsx:12-13 | The captured segment holds no `/`, `?` or `#`. |
| GameList.NormalizeIgdbId | src/components/GameList.jsx:8-17 | Empty input gives `""`. Any result holds no `/`, `?` or `#`. |
| GameList.WithScheme | src/components/GameList.jsx:11 | Only text starting with `//` is changed. |
| GameList.IdOfUrl | src/components/GameList.jsx:12-16 | The id read from trimmed text holds no `/`, `?` or `#`. |
| GameList.LastSegment | src/components/GameList.jsx:12 | The pattern matches at the last slash when only segment characters follow it and no `?` or `#` comes before it. |
| GameList.NormalizeWithoutSlash | src/components/GameList.jsx:12-15 | Trimmed text without a slash is read as a bare id. |
| GameList.NoSlashNoSegment | src/components/GameList.jsx:12 | Without a slash the URL pattern cannot match. |
| GameList.NormalizeTrimmed | src/components/GameList.jsx:10-16 | On trimmed text that does not start with a slash, the leading `//` rule does not apply. |
| GameList.BareIdOfExt | src/components/GameList.jsx:14-15 | The id part of an id followed by `.jpg`, `.jpeg` or `.png` is the id. |
| GameList.DottedNotWordId | src/components/GameList.jsx:14 | An id followed by an extension is not itself an id. |
| GameList.FindSizeSegment | src/components/GameList.jsx:23 | The leftmost `/t_…/` size segment, or none. |
| GameList.FindText | src/components/GameList.jsx:24 | The first occurrence of a text, or none. |
| GameList.IgdbUrl | src/components/GameList.jsx:19-30 | Empty exactly for empty input. Text that is neither an upload URL nor a bare id comes back unchanged. |
| GameList.NotUploadUrl | src/components/GameList.jsx:22 | Text without a slash at its seventh character is not an upload URL. |
| GameList.IgdbUrlOfId | src/components/GameList.jsx:26-27 | A bare id becomes the canonical upload URL of the size. |
| GameList.SizeSegmentAfterPrefix | src/components/GameList.jsx:23 | In an upload URL built with a size token, the leftmost size segment is that token. |
| GameList.IgdbUrlResize | src/components/GameList.jsx:19-30 | Resizing the upload URL of an id replaces its size segment, not a second one, with the new size expanded against it. With a `$`-free size this is building the URL at the new size. |
| GameList.ResizeBuiltUrl | src/components/GameList.jsx:22-23 | In the URL built for an id, the segment after the upload directory is the first size segment, and it is the one replaced. |
| GameList.LiteralResize | src/components/GameList.jsx:23 | A `$`-free size is written in as it is, right after the upload directory. |
| GameList.LastSegmentOfUrl | src/components/GameList.jsx:12 | In a built upload URL, the match is the slash before the id. |
| GameList.NormalizeAtMatch | src/components/GameList.jsx:12-13 | On trimmed text, the id is what the leftmost match captures. |
| GameList.StripJpg | src/components/GameList.jsx:13 | `.jpg` is removed from an id. |
| GameList.NormalizeAfterPrefix | src/components/GameList.jsx:8-17 | The id is recovered from `prefix + size + "/" + id + ".jpg"`. |
| GameList.NormalizeUploadUrl | src/components/GameList.jsx:8-17 | The id is recovered from the upload URL built for it, whatever size token was used. |
| GameList.NormalizeIgdbUrl | src/components/GameList.jsx:8-30 | Round trip: normalising the URL `igdbUrl` builds for an id gives back the id. |
| GameList.ReleaseValue | src/components/GameList.jsx:58-63 | The `??` chain never yields a nullish value. |
| GameList.NumberOf | src/components/GameList.jsx:69 | White-space-only text reads as zero. |
| GameList.DigitsOfNat | src/components/GameList.jsx:69 | The decimal text of a natural number is digits that read back as it. |
| GameList.IntToStringShape | src/components/GameList.jsx:69 | The decimal text of an integer has no padding: digits, after a minus sign when negative. |
| GameList.NegativeIntToString | src/components/GameList.jsx:69 | A negative integer is written as a minus sign followed by the digits of its magnitude. |
| GameList.NumberOfIntToString | src/components/GameList.jsx:69-71 | Round trip: the decimal text of an integer reads back as that integer. |
| GameList.IntToStringInjective | src/components/GameList.jsx:69 | Different integers have different decimal texts. |
| GameList.UnitRule | src/components/GameList.jsx:66-71 | A number, or its decimal text, above 1e12 is milliseconds, and anything else is seconds. |
| GameList.ReleaseStampCases | src/components/GameList.jsx:57-80 | The first present field decides. No field gives no date. A `first_release_date` of 0 names the epoch. White-space-only text reads as zero, and any other type gives no date. |
| GameList.PlatformIconSrc | src/components/GameList.jsx:100-110 | An empty name gets `/icons/default.svg`. |
| GameList.ListIconsShape | src/components/GameList.jsx:82-98 | Every mapped file is a safe icon file name. |
| GameList.ListIconAt | src/components/GameList.jsx:82-98 | The file of any one entry is a safe icon file name. |
| GameList.SlugFileShape | src/components/GameList.jsx:107-108 | A non-empty slug with `.svg` is a safe icon file name. |
| GameList.IconPathShape | src/components/GameList.jsx:100-110 | The icon path is always `/icons/` followed by a file name that cannot leave the directory. |
| GameList.ListedIconPath | src/components/GameList.jsx:104-106 | A name containing a table key is sent to that entry's `/icons/` file. |
| GameList.UnlistedIconPath | src/components/GameList.jsx:101-109 | An empty name, or one matching no key, is sent to its slug's `.svg` file under `/icons/`, or to the default icon. |
| GameList.IconIgnoresCase | src/components/GameList.jsx:103 | The icon ignores letter case. |
| GameList.MacosNeverChosen | src/components/GameList.jsx:95-96 | The `macos` entry is never chosen, because every name containing it contains `mac`, listed earlier. |
| GameList.RenderKey | src/components/GameList.jsx:144 | A record with neither id nor name is keyed by its position. |
| GameList.NumericIdKeysDistinct | src/components/GameList.jsx:144 | Records with pairwise different numeric ids get pairwise different keys. |
| GameList.IndexKeysDistinct | src/components/GameList.jsx:144 | Records with neither id nor name get pairwise different keys. |
| GameList.FirstRaw | src/components/GameList.jsx:148-157 | The first truthy operand of the `\|\|` chain, or `""` when none is. |
| GameList.RawCandidates | src/components/GameList.jsx:148-157 | Always the seven candidate fields, in the source's order. |
| GameList.CardThumb | src/components/GameList.jsx:159-165 | Corrected thumbnail: `""` or an http(s) URL, and an http(s) URL outside IGDB's uploads is kept. |
| GameList.IdUrlIsUpload | src/components/GameList.jsx:26-27 | The URL built from a bare id is an upload URL. |
| GameList.IgdbThumbAt720 | src/components/GameList.jsx:159-161 | An IGDB upload URL of any size is shown at 720p, as written and corrected. |
| GameList.AsWrittenThumbOfUrl | src/components/GameList.jsx:159-161 | As written, an upload URL is shown at 720p. |
| GameList.ThumbOfUrl | src/components/GameList.jsx:159-161 | Corrected, an upload URL is shown at 720p. |
| GameList.NormalizeForeignUrl | src/components/GameList.jsx:12-13 | `https://host/name` normalises to its last segment when that has no image extension. |
| GameList.AsWrittenForeign | src/components/GameList.jsx:159-161 | As written, such a URL whose last segment is not a bare id is shown as that segment alone. |
| GameList.CorrectedForeign | src/components/GameList.jsx:159-165 | Corrected, a URL outside IGDB's uploads is shown as it is. |
| GameList.ThumbDropsHost | src/components/GameList.jsx:159-165 | As written, such a URL loses its host and becomes a relative path. Corrected, the URL is kept. |
| GameList.NothingSelectedHighlightsIdless | src/components/GameList.jsx:145 | As written, with nothing selected, every card without an id is highlighted. |
| GameList.AtMostOneHighlighted | src/components/GameList.jsx:145 | Corrected, with pairwise different ids at most one card is highlighted, and none when nothing is selected. |
| GameList.PictureOf | src/components/GameList.jsx:167 | `thumb \|\| PLACEHOLDER`: a thumbnail exactly when the thumbnail text is non-empty. |
| GameList.IconsFor | src/components/GameList.jsx:215-229 | One icon per platform name, titled by the name. |
| GameList.GameGridSpec | src/components/GameList.js:104-193 | "No games found" exactly when there is no array or it is empty. Otherwise one card per game, keyed `id ?? name ?? position`, with the first three platform names or a single "Unknown" pill. |
| GameList.GameListViewSpec | src/components/GameList.jsx:118-238 | "No games found" exactly when the filters leave nothing. Otherwise one card per filtered game, in filtered order, with at most four icons from the front of the platform names. |
| GameList.GridHighlightsIdless | src/components/GameList.js:113 | As written, with nothing selected, the grid highlights every card of a game without an id. |
| GameList.CorrectedGridHighlightsNothing | src/components/GameList.js:113 | Corrected, with nothing selected, no card is highlighted. |
| GameList.ListDropsHost | src/components/GameList.jsx:148-167 | As written, a list card whose first image candidate is such a foreign URL shows the last segment alone. Corrected, it shows the URL. |
| Carousel.NormalizeIconPath | src/components/Carousel.jsx:52-59 | An empty value gives the generic icon. A trimmed source path is kept, and anything else goes under `/icons/`. |
| Carousel.NormalizedIsSourcePath | src/components/Carousel.jsx:52-59 | Every result is a non-empty, trimmed source path. |
| Carousel.UnderIconsDir | src/components/Carousel.jsx:58 | Trimmed text under `/icons/` stays trimmed and is a rooted path. |
| Carousel.SourcePathKept | src/components/Carousel.jsx:56-57 | A trimmed source path is left as it is. |
| Carousel.NormalizeIconPathIdempotent | src/components/Carousel.jsx:52-59 | Normalising twice is normalising once. |
| Carousel.IconFileNameFromName | src/components/Carousel.jsx:61-83 | An empty name gets `platform-generic.svg`. |
| Carousel.PcBeforeWindows | src/components/Carousel.jsx:64-81 | Any name containing "pc", in any letter case, gets `computer.png`, even when it also names Windows. |
| Carousel.WindowsWithoutPc | src/components/Carousel.jsx:64-81 | A name with "windows" but without "pc" gets `pc.svg`. |
| Carousel.SlugFileName | src/components/Carousel.jsx:82 | With no key contained, the file is a slug of `[a-z0-9-]` with no edge or double dash, plus `.svg`. |
| Carousel.IconFileNameIgnoresCase | src/components/Carousel.jsx:63 | The file name ignores letter case. |
| Carousel.UtilIcon | src/components/Carousel.jsx:113-117 | `platformIcons` of `platformIcons.js` as written is `null` exactly for the empty name. |
| Carousel.FallbackSource | src/components/Carousel.jsx:113-120 | With the empty name, the fallback is the carousel's generic file. |
| Carousel.ResolveIconSource | src/components/Carousel.jsx:105-121 | A truthy answer from the prop wins, normalised. |
| Carousel.OwnTableUnreached | src/components/Carousel.jsx:113-120 | Without an answer from the prop, a non-empty name is always answered by `platformIcons`, so the carousel's own table is never consulted. |
| Carousel.EmptyNameGeneric | src/components/Carousel.jsx:105-121 | The empty name gets the generic icon. |
| Carousel.Pills | src/components/Carousel.jsx:237-248 | One pill per platform, or a single pill when there is none. |
| Carousel.Items | src/components/Carousel.jsx:196-256 | One button per game, in order. |
| Carousel.ItemsSpec | src/components/Carousel.jsx:196-248 | Each button is keyed `id ?? name ?? index`. It shows one pill per extracted platform, keyed `id ?? name ?? position`, or a single "Unknown" pill. |
| Carousel.AppPillsUseProp | src/components/Carousel.jsx:109-110 | With the prop the pages pass, every pill's icon is the prop's answer for the platform object. An object is never falsy, so neither fallback is reached. |
| JsText.LowerChar | src/utils/platformIcons.js:12 | Lowering leaves no upper-case ASCII letter, leaves other characters alone, and keeps word and space classes. |
| JsText.Lower | src/utils/platformIcons.js:12 | `toLowerCase` character by character, same length. |
| JsText.LowerIdempotent | src/utils/platformIcons.js:12 | Lowering twice is lowering once. |
| JsText.LowerAppend | src/utils/platformIcons.js:12 | Lowering distributes over concatenation. |
| JsText.ContainsEmpty | src/utils/platformIcons.js:55 | `includes("")` is always true. |
| JsText.ContainsNotLonger | src/utils/platformIcons.js:55 | A contained text is no longer than the text. |
| JsText.ContainsItself | src/utils/platformIcons.js:55 | Every text contains itself. |
| JsText.ContainsChar | src/utils/platformIcons.js:55 | A one-character text is contained exactly when the character occurs. |
| JsText.ContainsPrefix | src/utils/platformIcons.js:55 | A text containing `sub` contains every prefix of `sub`. |
| JsText.HttpSchemeHasSlash | src/utils/platformIcons.js:45 | An http(s) URL holds a slash. |
| JsText.NoSlashNoScheme | src/utils/platformIcons.js:45 | Text without a slash is not an http(s) URL. |
| JsText.MissingCharNotContained | src/utils/platformIcons.js:55 | Text lacking one of the characters of `sub` does not contain `sub`. |
| JsText.LeadingSpace | src/utils/platformIcons.js:11 | The length of the white space at the front, and no more. |
| JsText.TrailingSpace | src/utils/platformIcons.js:11 | The length of the white space at the end, and no more. |
| JsText.TrimStart | src/utils/platformIcons.js:11 | A suffix preceded only by white space, not starting with white space. |
| JsText.TrimEnd | src/utils/platformIcons.js:11 | A prefix followed only by white space, not ending with white space. |
| JsText.Trim | src/utils/platformIcons.js:11 | The result is no longer than the input and has no white space at either end. |
| JsText.TrimPads | src/utils/platformIcons.js:11 | The input is the result padded on both sides with white space only. |
| JsText.TrimPadding | src/utils/platformIcons.js:11 | The trimmed text sits right after the leading white space. |
| JsText.TrimNoPadding | src/utils/platformIcons.js:11 | Text without white space at either end is its own trim. |
| JsText.TrimIdempotent | src/utils/platformIcons.js:11 | Trimming twice is trimming once. |
| JsText.TrimEmptyIffAllSpace | src/utils/platformIcons.js:11 | Text trims to nothing exactly when it is all white space. |
| JsText.LeadingSpaceAppend | src/utils/platformIcons.js:11 | White space in front adds to the leading white space. |
| JsText.TrimStartDropsLeadingSpace | src/utils/platformIcons.js:11 | `trimStart` ignores white space put in front. |
| JsText.TrimOfTrimStart | src/utils/platformIcons.js:11 | `trim` after `trimStart` is `trim`. |
| JsText.TrimDropsLeadingSpace | src/utils/platformIcons.js:11 | `trim` ignores white space put in front. |
| JsText.Substitute | src/utils/igdbImage.js:7 | `$$`, `$&`, `` $` `` and `$'` are expanded and any other `$` is literal. A replacement without `$` is inserted as it is, and one that does not start with `$` keeps its first character. |
| JsText.SubstituteMatch | src/utils/igdbImage.js:7 | `$&` alone inserts the matched text. |
| JsText.SubstituteAfter | src/utils/igdbImage.js:49 | `$'` at the end of the text inserts nothing. |
| JsText.JoinCons | src/components/Carousel.jsx:21 | A part joined in front of a non-empty list is followed by exactly one separator. |
| JsText.JoinFour | src/components/Carousel.jsx:21 | Joining four parts puts the separator between each pair. |
| JsText.IntToString | src/components/Carousel.jsx:30 | `String(n)` of an integer is never empty. |
| StableSort.TextLessIrreflexive | src/hooks/useGameFilters.js:64 | No name sorts before itself. |
| StableSort.TextLessTransitive | src/hooks/useGameFilters.js:64 | The name order is transitive. |
| StableSort.TextLessTotal | src/hooks/useGameFilters.js:64 | Any two different names are ordered one way or the other. |
| StableSort.PrecedesIrreflexive | src/pages/App.jsx:128 | The comparator never puts a key before itself. |
| StableSort.LessTransitive | src/pages/App.jsx:128 | The key order is transitive. |
| StableSort.PrecedesTransitive | src/pages/App.jsx:128 | The comparator's verdict is transitive, ascending or descending. |
| StableSort.PrecedesTotal | src/pages/App.jsx:128 | Any two different keys are ordered one way or the other. |
| StableSort.BeforeTransitive | src/pages/App.jsx:128 | "Key first, then position" is transitive. |
| StableSort.Insert | src/pages/App.jsx:128 | Inserting adds exactly one position and keeps the rest. |
| StableSort.OrderedCons | src/pages/App.jsx:128 | A position that goes before every element of an ordered sequence may lead it. |
| StableSort.InsertOrdered | src/pages/App.jsx:128 | Inserting a position earlier than all the others keeps the sequence ordered. |
| StableSort.InsertOrderedDeep | src/pages/App.jsx:128 | The same, when the insertion goes past the head. |
| StableSort.HeadBelowPermutedTail | src/pages/App.jsx:128 | In an increasing sequence the head is below every element of any rearrangement of the tail. |
| StableSort.Sort | src/pages/App.jsx:128 | A stable sort: a permutation of the positions, ordered by key, with ties in input order. |
| StableSort.SortMembers | src/pages/App.jsx:128 | Sorting keeps exactly the same positions. |
| StableSort.OrderedKeysMonotone | src/pages/App.jsx:128 | A position placed earlier never has a key that comes strictly later. |
| StableSort.SortDistinct | src/pages/App.jsx:128 | Sorting distinct positions leaves no position twice. |
| StableSort.Pick | src/pages/App.jsx:128 | The records at the given positions, in order. |
| StableSort.Upto | src/pages/App.jsx:128 | The positions `0..n-1`, in order. |
| StableSort.PickAppend | src/pages/App.jsx:128 | Picking at joined position lists joins the picks. |
| StableSort.RemoveAt | src/pages/App.jsx:128 | Removing one position removes exactly it from the multiset. |
| StableSort.PickSplit | src/pages/App.jsx:128 | Picking at all positions but one leaves out exactly that one record. |
| StableSort.PickDrop | src/pages/App.jsx:128 | Dropping one position drops its record from the picked multiset. |
| StableSort.PickPermutation | src/pages/App.jsx:128 | Picking at two orderings of the same positions gives the same records. |
| GameModel.Or | src/utils/gameUtils.js:37 | `a \|\| b`: `a` when truthy, else `b`. |
| GameModel.OrEmpty | src/utils/gameUtils.js:37 | `a \|\| ""`: the text when truthy, else empty. |
| GameModel.Keep | src/pages/App.jsx:158 | `filter`: never longer than the input, and keeps exactly the elements that pass, with no extra copies. |
| GameModel.KeepAll | src/pages/App.jsx:158 | A filter that everything passes keeps everything. |
| GameModel.KeepNone | src/pages/App.jsx:158 | A filter that nothing passes keeps nothing. |
| GameModel.KeepAppend | src/pages/App.jsx:158 | Filtering distributes over concatenation. |
| GameModel.KeepKeep | src/hooks/useGameFilters.js:15-60 | Two filters in sequence are one filter by the conjunction. |
| GameModel.KeepSame | src/hooks/useGameFilters.js:15-60 | Filters that agree on every element give the same result. |
| GameModel.Take | src/pages/App.jsx:118 | `slice(0, n)`: the first `min(n, length)` elements. |
| FirstSeen.SubsequenceOfEmptyIsEmpty | src/pages/Games.jsx:28-36 | Only the empty sequence is a subsequence of the empty one. |
| FirstSeen.SubsequenceAppendRight | src/pages/Games.jsx:28-36 | A subsequence stays one when the sequence grows. |
| FirstSeen.SubsequenceDropLast | src/pages/Games.jsx:28-36 | Dropping the last element keeps a subsequence. |
| FirstSeen.SubsequenceExtend | src/pages/Games.jsx:28-36 | Appending the same element to both keeps a subsequence. |
| FirstSeen.KeysOfAppend | src/pages/Games.jsx:32-35 | The key set of a longer list adds the new element's key, if it has one. |
| Platforms.KeepIsSubsequence | src/pages/App.jsx:176-182 | A filter's result is a subsequence of its input. |
| Platforms.ItemNamesCons | src/components/Carousel.jsx:27-31 | The carousel's names of a list are the first entry's names followed by the rest's. |
| Platforms.EntryAgrees | src/components/Carousel.jsx:27-31 | One entry gives the same non-empty names in the carousel as in the shared helper, unless it falls back to its id. |
| Platforms.NoIdFallbackTail | src/components/Carousel.jsx:27-31 | The no-fallback condition holds for the tail and for the head. |
| Platforms.NamesCons | src/utils/gameUtils.js:34-38 | Names of a list are the first name followed by the rest's. |
| Platforms.Row | src/pages/App.jsx:167 | One entry per platform of a game, at its slot. |
| Platforms.Descriptors | src/pages/App.jsx:171 | One descriptor per kept entry. |
| Platforms.ItemNames | src/components/Carousel.jsx:242 | One name per item. |

## Left out

- Rendering, CSS, React state and effects, the scroll observer, `fetch`, JSON parsing of response text, `console` and `window.open` are not modelled. A fetch is a parameter: its outcome arrives as a value.
- The clock (`new Date()`, `Date.now()`, `setHours(0, 0, 0, 0)`) is a parameter: `now` in milliseconds and a `dayOf` function for local midnight. The three clock reads of one render are taken to return the same `now`.
- `Date` parsing of non-numeric release text is kept symbolic as the `Parsed` stamp. `toLocaleDateString` is not modelled: a release date stops at its stamp. Both depend on the engine's locale and time zone.
- `null` and `undefined` are both `None`. Truthiness, `||` and `??` treat the two alike. The source's `===` id comparisons do not: `undefined === null` is false. So the model differs from the source when one record has `id: null` and another has no `id`, at these sites:
  - the page merge (src/pages/App.jsx:59): `Paging.Fresh` and `Paging.IdlessDroppedAfterIdless` drop a page record with no `id` after a held record with `id: null`, which the source keeps;
  - the carousel padding (src/pages/App.jsx:126, src/App.jsx:61): `Curation.PaddingMembership` excludes a future record with no `id` once a chosen record has `id: null`, which the source pads with;
  - the selection highlight (src/components/GameList.jsx:145, src/components/GameList.js:113, src/components/Carousel.jsx:198): `GameList.HighlightedAsWritten` highlights a card with `id: null` when nothing is selected, which the source does not.
  With ids that are all present, or all absent the same way, the model and the source agree.
- Floating point is not modelled. Release instants are integer seconds, and widths and sizes are integers.
- `toLowerCase` is the ASCII mapping. Non-ASCII letters are left unchanged, whereas JavaScript folds them.
- Strings are sequences of Unicode scalar values, not of UTF-16 code units. A character above U+FFFF is one element here and two in JavaScript's `length`, and a lone surrogate cannot be written.
- `localeCompare` is ordering by code point, not by locale collation. Code-point order and UTF-16 code-unit order already differ between a character above U+FFFF and one in U+E000–U+FFFF. The sort lemmas depend only on the order being strict and total.
- Carousel identity: `carouselGames.includes(game)` compares objects by reference. The model compares positions in the input list, so a record that appears twice is two different games.
- `React.isValidElement` inputs to the icon helpers are not modelled. Every icon value is text.
- Components outside the data logic (SearchFilters, Sidebar, GameModal, Header, the static pages) and the build configuration are not part of this model.
- IgdbImage.GetIgdbImage: `cover.image_id`, the candidate fields and the fields of an object candidate are taken to be text. In the source a number there behaves differently. A numeric `cover.image_id` reaches `buildFromId`, where `id.startsWith` throws a TypeError (src/utils/igdbImage.js:16). An object candidate whose first truthy field is a numeric `id` throws at `u.startsWith` (src/utils/igdbImage.js:80-83). A numeric top-level candidate is skipped, because it is neither a string nor an object (src/utils/igdbImage.js:70-79). The model always returns text and has no throwing path.
- IgdbImage.HighResIdempotent: promises idempotence only for a size token without `$`. The source's `replace` expands `$&` in the size, so `t_$&` grows the URL on every pass (`IgdbImage.HighResMatchPatternGrows`). Every caller passes a constant size without `$`.
- IgdbImage.ReplaceThumbs: promises a non-empty result only when the token does not start with `$`. The token `$'` turns `t_thumb` into `""` (`IgdbImage.ThumbAfterPatternEmpties`). The token `getIgdbImage` builds always starts with `t_`, so `IgdbImage.Resolve` keeps its promise.
- GameList.IgdbUrlResize: equals the URL built at the new size only for a size without `$`. For any other size it states the expanded replacement instead.
- GameList.NumberOf: reads only blank text and optionally signed decimal integers. `Number()` also accepts fractions, exponents, hex, binary, octal and `Infinity`; the model reads these as NaN and passes them to the Date parser, because instants are integers and floating point is not modelled.
- A fetch is one step, `Begin` then `Complete`. Scroll events that arrive while a request is in flight are not interleaved with it.

## Findings

| source | as written | input that shows it | evidently intended | confidence | as-written member | corrected member |
|---|---|---|---|---|---|---|
| src/utils/platformIcons.js:51 | `ICON_MAP[lower]` also reads members inherited from `Object.prototype` | the platform name `constructor` gives `/icons/function Object() { [native code] }`; `__proto__` gives `/icons/[object Object]` | only the table's own keys are looked up, so the name falls through to `/icons/constructor.svg` | not executed | PlatformIcons.PlatformIconAsWritten (PlatformIcons.InheritedKeys) | PlatformIcons.PlatformIcon |
| src/components/GameList.jsx:145 | `selectedGame?.id === game?.id` is true when both sides are `undefined` | with nothing selected, every card whose game has no `id` is drawn as selected | a card is highlighted only when a game is selected and it is that game | not executed | GameList.HighlightedAsWritten (GameList.NothingSelectedHighlightsIdless, GameList.GridHighlightsIdless) | GameList.Highlighted (GameList.AtMostOneHighlighted, GameList.CorrectedGridHighlightsNothing) |
| src/components/GameList.jsx:159-165 | `normalizeIgdbId` keeps the last path segment of any URL, so a foreign URL is turned into a bare file name, and a foreign `.jpg` URL whose last segment is a word id is rewritten to an IGDB upload URL | `background_image` `https://cdn.example.com/art-1.webp` renders the relative `art-1.webp` | a full http(s) URL that is not an IGDB upload is used as it is | not executed | GameList.CardThumbAsWritten (GameList.ThumbDropsHost) | GameList.CardThumb |
| src/components/Carousel.jsx:18-21 | `.filter(Boolean)` runs on strings that always end in `w`, so it never drops an entry | a game with no image data gets the `srcset` ` 320w,  640w,  960w,  1280w` | entries without a URL are left out | not executed | IgdbImage.BuildSrcSet (IgdbImage.SrcSetHasFourEntries, IgdbImage.SrcSetWithoutImage) | IgdbImage.BuildSrcSetCorrected (IgdbImage.SrcSetCorrectedSpec) |

=== FILE: api.dfy ===
/**
 * `apiUrl` of `src/utils/api.js`: joins an endpoint path onto the backend base. The build's
 * `VITE_API_BASE` and the page's host name are parameters. An unset variable is the empty
 * string, which is falsy like `undefined`. A missing `window` is `None`.
 */
module Api {
  import opened Wrappers
  import opened JsText

  /** The production backend used when no override is set away from the dev machine. */
  const DefaultBackend: string := "https://playradarhub-backend-54816317792.us-central1.run.app/api"

  /** The host names on which the dev proxy answers `/api`. */
  predicate IsLocalHost(host: string) { host == "localhost" || host == "127.0.0.1" }

  /**
   * The base before trimming: the override when it is set, else the production backend on a
   * page that is not served from the dev machine, else nothing (relative URLs).
   */
  function SelectBase(envBase: string, window: Option<string>): (r: string)
    ensures envBase != [] ==> r == envBase
    ensures r == [] <==> envBase == [] && (window.None? || IsLocalHost(window.value))
    ensures r != [] ==> r == envBase || r == DefaultBackend
  {
    if envBase != [] then envBase
    else if window.Some? && !IsLocalHost(window.value) then DefaultBackend
    else []
  }

  /** `base.replace(/\/$/, '')`: `$` is the end of input, so at most one slash goes. */
  function DropTrailingSlash(base: string): (r: string)
    ensures base == r + "/" || (r == base && !EndsWith(base, "/"))
  {
    if base != [] && base[|base| - 1] == '/' then base[..|base| - 1] else base
  }

  /** Only the last of several trailing slashes is removed. */
  lemma DropsOneSlash(b: string)
    ensures DropTrailingSlash(b + "//") == b + "/"
  {
    assert (b + "//")[..|b| + 1] == b + "/";
  }

  /** `apiUrl(path)`. */
  function ApiUrl(envBase: string, window: Option<string>, path: string): (r: string)
    ensures SelectBase(envBase, window) == [] ==> r == path
    ensures SelectBase(envBase, window) != [] ==> StartsWith(r, DropTrailingSlash(SelectBase(envBase, window)))
  {
    var base := SelectBase(envBase, window);
    if base == [] then path
    else
      var b := DropTrailingSlash(base);
      if StartsWith(path, "/api") then b + path[4..]
      else b + (if path != [] && path[0] == '/' then path else "/" + path)
  }

  /** Both regular expressions are anchored, so `/api` is cut from the front exactly once. */
  lemma ApiPrefixStripped(envBase: string, window: Option<string>, rest: string)
    requires SelectBase(envBase, window) != []
    ensures ApiUrl(envBase, window, "/api" + rest) == DropTrailingSlash(SelectBase(envBase, window)) + rest
  {
    assert ("/api" + rest)[..4] == "/api";
    assert ("/api" + rest)[4..] == rest;
  }

  /** The prefix test is textual: `/apifoo` loses `/api` and is glued to the base without a slash. */
  lemma ApiPrefixNotSegment(envBase: string, window: Option<string>)
    requires SelectBase(envBase, window) != []
    ensures ApiUrl(envBase, window, "/apifoo") == DropTrailingSlash(SelectBase(envBase, window)) + "foo"
  {
    ApiPrefixStripped(envBase, window, "foo");
    assert "/api" + "foo" == "/apifoo";
  }

  /** A rooted path outside `/api` is appended unchanged, and can be read back after the base. */
  lemma RootedPathAppended(envBase: string, window: Option<string>, path: string)
    requires SelectBase(envBase, window) != []
    requires path != [] && path[0] == '/' && !StartsWith(path, "/api")
    ensures var b := DropTrailingSlash(SelectBase(envBase, window));
      var r := ApiUrl(envBase, window, path);
      r == b + path && r[|b|..] == path
  {
  }

  /** A path without a leading slash gets one between it and the base. */
  lemma BarePathGetsSlash(envBase: string, window: Option<string>, path: string)
    requires SelectBase(envBase, window) != []
    requires path == [] || path[0] != '/'
    ensures ApiUrl(envBase, window, path) == DropTrailingSlash(SelectBase(envBase, window)) + "/" + path
  {
    assert !StartsWith(path, "/api") by {
      if |path| >= 4 { assert path[..4][0] == path[0]; }
    }
  }

  /** On a deployed page with no override, `/api/...` paths go to the production backend's `/api`. */
  lemma RemotePageUsesBackend(host: string, rest: string)
    requires !IsLocalHost(host)
    ensures ApiUrl([], Some(host), "/api" + rest) == DefaultBackend + rest
  {
    ApiPrefixStripped([], Some(host), rest);
    assert DefaultBackend[|DefaultBackend| - 1] == 'i';
  }
}

=== FILE: capabilities.dfy ===
/**
 * `parseCapabilities` of `run-agent.js`: reads the bullet list under the first `capabilities:`
 * line of an agent descriptor. Reading the file and printing the list are left out; the text
 * is the input.
 */
module Capabilities {
  import opened Wrappers
  import opened JsText

  // ---------------------------------------------------------------- text.split(/\r?\n/)

  /** The index of the first `\n`, or `|s|` when there is none. */
  function LineEnd(s: string): (k: nat)
    ensures k <= |s|
    ensures forall i :: 0 <= i < k ==> s[i] != '\n'
    ensures k < |s| ==> s[k] == '\n'
  {
    if s == [] || s[0] == '\n' then 0 else 1 + LineEnd(s[1..])
  }

  /** A line ended by `\r\n` loses its `\r`: the separator `\r?\n` takes it. */
  function DropCr(line: string): (r: string)
    ensures line == r || line == r + "\r"
  {
    if line != [] && line[|line| - 1] == '\r' then line[..|line| - 1] else line
  }

  /**
   * `text.split(/\r?\n/)`. The leftmost match starts at the `\r` right before a `\n` when there
   * is one, else at the `\n`; a `\r` elsewhere stays in its line, and the last line keeps a
   * trailing `\r`.
   */
  function SplitLines(s: string): (r: seq<string>)
    ensures |r| >= 1
    ensures forall i :: 0 <= i < |r| ==> '\n' !in r[i]
    decreases |s|
  {
    var k := LineEnd(s);
    if k == |s| then [s]
    else
      var line := DropCr(s[..k]);
      assert '\n' !in line by {
        assert forall i :: 0 <= i < |line| ==> line[i] == s[i];
      }
      [line] + SplitLines(s[k + 1..])
  }

  /** The number of `\n` in a text. */
  function NewlineCount(s: string): nat {
    multiset(s)['\n']
  }

  /** There is one more line than there are line feeds. */
  lemma {:induction false} SplitLinesCount(s: string)
    ensures |SplitLines(s)| == NewlineCount(s) + 1
    decreases |s|
  {
    var k := LineEnd(s);
    if k == |s| {
      assert '\n' !in s by {
        assert forall i :: 0 <= i < |s| ==> s[i] != '\n';
      }
    } else {
      SplitLinesCount(s[k + 1..]);
      assert s == s[..k] + [s[k]] + s[k + 1..];
      assert '\n' !in s[..k] by {
        assert forall i :: 0 <= i < k ==> s[..k][i] == s[i];
      }
      assert multiset(s) == multiset(s[..k]) + multiset{'\n'} + multiset(s[k + 1..]);
    }
  }

  /** Without carriage returns, joining the lines with `\n` gives the text back. */
  lemma {:induction false} SplitLinesJoin(s: string)
    requires '\r' !in s
    ensures Join(SplitLines(s), "\n") == s
    decreases |s|
  {
    var k := LineEnd(s);
    if k < |s| {
      var rest := s[k + 1..];
      assert '\r' !in rest by {
        assert forall i :: 0 <= i < |rest| ==> rest[i] == s[k + 1 + i];
      }
      SplitLinesJoin(rest);
      SplitLinesStep(s);
      JoinCons(s[..k], SplitLines(rest), "\n");
      assert s == s[..k] + "\n" + rest;
    }
  }

  /** Without carriage returns, the first line is the text up to the first `\n`, unchanged. */
  lemma SplitLinesStep(s: string)
    requires '\r' !in s && LineEnd(s) < |s|
    ensures SplitLines(s) == [s[..LineEnd(s)]] + SplitLines(s[LineEnd(s) + 1..])
  {
    var k := LineEnd(s);
    var line := s[..k];
    if k > 0 {
      assert line[k - 1] == s[k - 1] && s[k - 1] in s;
    }
    assert DropCr(line) == line;
  }

  // ---------------------------------------------------------------- the header

  /** `line.trim().toLowerCase().startsWith('capabilities:')`. */
  predicate IsHeader(line: string) {
    StartsWith(Lower(Trim(line)), "capabilities:")
  }

  /** The index of the first element satisfying `p`, if any. */
  function FirstIndex<T>(xs: seq<T>, p: T -> bool): (r: Option<nat>)
    ensures r.None? <==> forall i :: 0 <= i < |xs| ==> !p(xs[i])
    ensures r.Some? ==> r.value < |xs| && p(xs[r.value])
    ensures r.Some? ==> forall i :: 0 <= i < r.value ==> !p(xs[i])
  {
    if xs == [] then None
    else if p(xs[0]) then Some(0)
    else
      match FirstIndex(xs[1..], p)
      case None => None
      case Some(i) => Some(i + 1)
  }

  /** An element satisfying `p` with none before it is the first. */
  lemma {:induction false} FirstIndexAt<T>(xs: seq<T>, p: T -> bool, k: nat)
    requires k < |xs| && p(xs[k])
    requires forall i :: 0 <= i < k ==> !p(xs[i])
    ensures FirstIndex(xs, p) == Some(k)
  {
    if k > 0 {
      assert forall i :: 0 <= i < k - 1 ==> xs[1..][i] == xs[i + 1];
      FirstIndexAt(xs[1..], p, k - 1);
    }
  }

  /** The first header line, if any. */
  function HeaderIndex(lines: seq<string>): Option<nat> {
    FirstIndex(lines, IsHeader)
  }

  // ---------------------------------------------------------------- the items

  /**
   * `/^-\s+(.*)$/` matches with the `\s+` ending at `k`: a dash in column 0, white space up to
   * `k`, then a rest without line terminators (`.` does not match them, and `$` is the end of
   * the line since there is no `m` flag).
   */
  predicate ItemRegexAt(line: string, k: int) {
    |line| >= 2 && line[0] == '-' && 2 <= k <= |line| && AllSpace(line[1..k]) && NoLineTerminator(line[k..])
  }

  /** The regex's capture, when the line matches: what follows the dash and its white space. */
  function ItemMatch(line: string): (r: Option<string>)
    ensures r.Some? ==> |line| >= 2 && line[0] == '-' && IsSpace(line[1])
    ensures r.Some? ==> NoLineTerminator(r.value) && EndsWith(line, r.value)
  {
    if |line| >= 2 && line[0] == '-' && IsSpace(line[1]) && NoLineTerminator(TrimStart(line[1..])) then
      Some(TrimStart(line[1..]))
    else None
  }

  /**
   * `ItemMatch` is the regex's greedy answer: it matches exactly when some split of the line
   * fits the pattern, and then captures after the longest run of white space that fits.
   */
  lemma ItemMatchIsGreedy(line: string)
    ensures ItemMatch(line).Some? <==> exists k :: ItemRegexAt(line, k)
    ensures ItemMatch(line).Some? ==>
      exists k :: ItemRegexAt(line, k) && ItemMatch(line).value == line[k..]
        && forall j :: ItemRegexAt(line, j) ==> j <= k
  {
    if |line| >= 2 && line[0] == '-' {
      var t := TrimStart(line[1..]);
      var big := |line| - |t|;
      assert line[big..] == t;
      assert line[1..big] == line[1..][..|line[1..]| - |t|];
      forall j | ItemRegexAt(line, j) ensures j <= big && NoLineTerminator(t) {
        if j > big {
          assert false;
        }
        assert forall i :: 0 <= i < |t| ==> t[i] == line[j..][big - j + i];
      }
      if IsSpace(line[1]) {
        assert big >= 2 by { assert t == [] || t != line[1..]; }
        if NoLineTerminator(t) {
          assert ItemRegexAt(line, big);
        }
      }
    }
  }

  /** A line that ends the list: empty, starting with `#`, or white space only. */
  predicate StopsList(line: string) {
    line == [] || line[0] == '#' || AllSpace(line)
  }

  /**
   * The second loop, from the line after the header: an empty or `#` line ends the list; a
   * matching line adds its trimmed capture; another line ends the list when it is white space
   * only and is skipped otherwise.
   */
  function ReadItems(lines: seq<string>): (r: seq<string>)
    ensures |r| <= |lines|
  {
    if lines == [] then []
    else
      var l := lines[0];
      if l == [] || l[0] == '#' then []
      else
        match ItemMatch(l)
        case Some(c) => [Trim(c)] + ReadItems(lines[1..])
        case None => if Trim(l) == [] then [] else ReadItems(lines[1..])
  }

  /** Every item read is already trimmed. */
  lemma {:induction false} ReadItemsTrimmed(lines: seq<string>)
    ensures forall i :: 0 <= i < |ReadItems(lines)| ==> Trim(ReadItems(lines)[i]) == ReadItems(lines)[i]
  {
    if lines != [] {
      var l := lines[0];
      if l != [] && l[0] != '#' {
        ReadItemsTrimmed(lines[1..]);
        var rest := ReadItems(lines[1..]);
        match ItemMatch(l)
        case Some(c) =>
          TrimIdempotent(c);
          var r := [Trim(c)] + rest;
          assert ReadItems(lines) == r;
          forall i | 0 <= i < |r| ensures Trim(r[i]) == r[i] {
            if i > 0 { assert r[i] == rest[i - 1]; }
          }
        case None =>
      }
    }
  }

  /** The lines' answer: nothing without a header, else the items after the first header. */
  function ParseLines(lines: seq<string>): (r: seq<string>)
    ensures HeaderIndex(lines).None? ==> r == []
    ensures HeaderIndex(lines).Some? ==> |r| < |lines| - HeaderIndex(lines).value
  {
    match HeaderIndex(lines)
    case None => []
    case Some(h) => ReadItems(lines[h + 1..])
  }

  /** `parseCapabilities(text)`. */
  function ParseCapabilities(text: string): (r: seq<string>)
    ensures |r| < |SplitLines(text)|
  {
    ParseLines(SplitLines(text))
  }

  // ---------------------------------------------------------------- what the parser promises

  /** A text without a header line has no capabilities. */
  lemma NoHeaderNoItems(text: string)
    requires forall i :: 0 <= i < |SplitLines(text)| ==> !IsHeader(SplitLines(text)[i])
    ensures ParseCapabilities(text) == []
  {
  }

  /** Only the lines after the first header are read: what comes before it does not matter. */
  lemma OnlyAfterHeader(before: seq<string>, header: string, after: seq<string>)
    requires forall i :: 0 <= i < |before| ==> !IsHeader(before[i])
    requires IsHeader(header)
    ensures ParseLines(before + [header] + after) == ReadItems(after)
  {
    var lines := before + [header] + after;
    assert lines[|before|] == header;
    assert forall i :: 0 <= i < |before| ==> lines[i] == before[i];
    FirstIndexAt(lines, IsHeader, |before|);
    assert lines[|before| + 1..] == after;
  }

  /** The first line that stops the list ends it: nothing after it is read. */
  lemma {:induction false} StopsAtFirstStop(body: seq<string>, stop: string, rest: seq<string>)
    requires forall i :: 0 <= i < |body| ==> !StopsList(body[i])
    requires StopsList(stop)
    ensures ReadItems(body + [stop] + rest) == ReadItems(body)
  {
    if body == [] {
      assert [stop] + rest == body + [stop] + rest;
      if stop != [] && stop[0] != '#' {
        assert IsSpace(stop[0]);
        assert ItemMatch(stop).None?;
        TrimEmptyIffAllSpace(stop);
      }
    } else {
      var l := body[0];
      assert (body + [stop] + rest)[0] == l;
      assert (body + [stop] + rest)[1..] == body[1..] + [stop] + rest;
      StopsAtFirstStop(body[1..], stop, rest);
      if ItemMatch(l).None? {
        TrimEmptyIffAllSpace(l);
      }
    }
  }

  /** A dash, one white-space character and a one-line text match, capturing the text without its leading white space. */
  lemma BulletMatches(space: char, text: string)
    requires IsSpace(space) && NoLineTerminator(text)
    ensures ItemMatch("-" + [space] + text) == Some(TrimStart(text))
  {
    var line := "-" + [space] + text;
    assert |line| >= 2 && line[0] == '-' && line[1] == space;
    assert line[1..] == [space] + text;
    TrimStartDropsLeadingSpace([space], text);
    TrimStartKeepsOneLine(text);
  }

  /** A suffix of a one-line text is one line. */
  lemma TrimStartKeepsOneLine(text: string)
    requires NoLineTerminator(text)
    ensures NoLineTerminator(TrimStart(text))
  {
    var t := TrimStart(text);
    forall i | 0 <= i < |t| ensures !IsLineTerminator(t[i]) {
      assert t[i] == text[|text| - |t| + i];
    }
  }

  /** A dash in column 0 and white space before a one-line text gives that text, trimmed. */
  lemma ItemLineRead(space: char, text: string, rest: seq<string>)
    requires IsSpace(space) && NoLineTerminator(text)
    ensures ReadItems(["-" + [space] + text] + rest) == [Trim(text)] + ReadItems(rest)
  {
    var lines := ["-" + [space] + text] + rest;
    BulletMatches(space, text);
    TrimOfTrimStart(text);
    ReadItemsAt(lines, 0);
    assert lines[0..] == lines && lines[1..] == rest;
  }

  /** An indented bullet, or any other non-blank line without a dash in column 0, is skipped. */
  lemma IndentedLineSkipped(indent: string, text: string, rest: seq<string>)
    requires indent != [] && AllSpace(indent) && !AllSpace(text)
    ensures ReadItems([indent + text] + rest) == ReadItems(rest)
  {
    var line := indent + text;
    assert line[0] == indent[0];
    assert !AllSpace(line) by {
      var i :| 0 <= i < |text| && !IsSpace(text[i]);
      assert line[|indent| + i] == text[i];
    }
    TrimEmptyIffAllSpace(line);
  }

  /** A non-blank line that neither starts with `#` nor matches the bullet pattern is skipped. */
  lemma UnmatchedLineSkipped(line: string, rest: seq<string>)
    requires line != [] && line[0] != '#' && !AllSpace(line) && ItemMatch(line).None?
    ensures ReadItems([line] + rest) == ReadItems(rest)
  {
    TrimEmptyIffAllSpace(line);
    assert ([line] + rest)[1..] == rest;
  }

  /** A line whose first character is not `-`, `#` or white space is skipped. */
  lemma PlainLineSkipped(line: string, rest: seq<string>)
    requires line != [] && line[0] != '-' && line[0] != '#' && !IsSpace(line[0])
    ensures ReadItems([line] + rest) == ReadItems(rest)
  {
    UnmatchedLineSkipped(line, rest);
  }

  /** A dash followed directly by a non-space character (`-foo`) is no bullet and is skipped. */
  lemma DashWordSkipped(text: string, rest: seq<string>)
    requires text != [] && !IsSpace(text[0])
    ensures ReadItems(["-" + text] + rest) == ReadItems(rest)
  {
    var line := "-" + text;
    assert line[1] == text[0];
    UnmatchedLineSkipped(line, rest);
  }

  /** A line starting with `#` ends the list, whatever follows it. */
  lemma CommentLineStops(text: string, rest: seq<string>)
    ensures ReadItems(["#" + text] + rest) == []
  {
    assert ("#" + text)[0] == '#';
  }

  // ---------------------------------------------------------------- the loops as written

  /** One step of the second loop, seen from `ReadItems`. */
  lemma ReadItemsAt(lines: seq<string>, k: nat)
    requires k < |lines|
    ensures var l := lines[k];
      ReadItems(lines[k..]) ==
        if l == [] || l[0] == '#' then []
        else if ItemMatch(l).Some? then [Trim(ItemMatch(l).value)] + ReadItems(lines[k + 1..])
        else if Trim(l) == [] then []
        else ReadItems(lines[k + 1..])
  {
    assert lines[k..][0] == lines[k] && lines[k..][1..] == lines[k + 1..];
  }

  /** What the second loop does with one line. */
  datatype LineKind = Stop | Item(text: string) | Skip

  /**
   * An empty or `#` line stops the loop; a bullet gives its trimmed capture; any other line
   * stops it when it is blank and is skipped otherwise.
   */
  function Classify(l: string): (r: LineKind)
    ensures r.Stop? <==> StopsList(l)
    ensures r.Item? <==> !StopsList(l) && ItemMatch(l).Some?
  {
    if l == [] || l[0] == '#' then Stop
    else
      match ItemMatch(l)
      case Some(c) => Item(Trim(c))
      case None => if Trim(l) == [] then Stop else Skip
  }

  /** One step of the second loop, seen from `ReadItems`. */
  lemma ClassifyAt(lines: seq<string>, k: nat)
    requires k < |lines|
    ensures Classify(lines[k]).Stop? ==> ReadItems(lines[k..]) == []
    ensures Classify(lines[k]).Item? ==> ReadItems(lines[k..]) == [Classify(lines[k]).text] + ReadItems(lines[k + 1..])
    ensures Classify(lines[k]).Skip? ==> ReadItems(lines[k..]) == ReadItems(lines[k + 1..])
  {
    ReadItemsAt(lines, k);
  }

  /** The second loop's invariant is kept by one more line, and a stop line closes it. */
  lemma LoopStep(lines: seq<string>, k: nat, caps: seq<string>, all: seq<string>)
    requires k < |lines| && caps + ReadItems(lines[k..]) == all
    ensures Classify(lines[k]).Stop? ==> caps == all
    ensures Classify(lines[k]).Item? ==> (caps + [Classify(lines[k]).text]) + ReadItems(lines[k + 1..]) == all
    ensures Classify(lines[k]).Skip? ==> caps + ReadItems(lines[k + 1..]) == all
  {
    ClassifyAt(lines, k);
    var rest := ReadItems(lines[k + 1..]);
    match Classify(lines[k])
    case Stop => assert caps + [] == caps;
    case Item(s) => AppendAssoc(caps, [s], rest);
    case Skip =>
  }

  lemma AppendAssoc(a: seq<string>, b: seq<string>, c: seq<string>)
    ensures a + (b + c) == (a + b) + c
  {
  }

  /** The two loops of `parseCapabilities`, with the `start` index and the `break`s. */
  method ParseCapabilitiesLoop(text: string) returns (caps: seq<string>)
    ensures caps == ParseCapabilities(text)
  {
    var lines := SplitLines(text);
    var start := FindStart(lines);
    ParseLinesFromStart(lines, start);
    if start == -1 {
      caps := [];
    } else {
      caps := ReadFrom(lines, start);
    }
  }

  /** What `start` tells about the lines: no items without a header, else the items read from it. */
  lemma ParseLinesFromStart(lines: seq<string>, start: int)
    requires start == -1 <==> HeaderIndex(lines).None?
    requires start != -1 ==> start == HeaderIndex(lines).value + 1
    ensures start == -1 ==> ParseLines(lines) == []
    ensures start != -1 ==> 0 < start <= |lines| && ParseLines(lines) == ReadItems(lines[start..])
  {
    match HeaderIndex(lines)
    case None =>
    case Some(h) => assert start == h + 1;
  }

  /** The first loop: `start` is one past the first header line, or `-1`. */
  method FindStart(lines: seq<string>) returns (start: int)
    ensures start == -1 <==> HeaderIndex(lines).None?
    ensures start != -1 ==> start == HeaderIndex(lines).value + 1
  {
    start := FindAfterFirst(lines, IsHeader);
  }

  /** One past the index of the first element satisfying `p`, or `-1` when there is none. */
  method FindAfterFirst<T>(xs: seq<T>, p: T -> bool) returns (start: int)
    ensures start == -1 <==> FirstIndex(xs, p).None?
    ensures start != -1 ==> start == FirstIndex(xs, p).value + 1
  {
    start := -1;
    var i := 0;
    while i < |xs|
      invariant 0 <= i <= |xs|
      invariant forall j :: 0 <= j < i ==> !p(xs[j])
    {
      if p(xs[i]) {
        start := i + 1;
        FirstIndexAt(xs, p, i);
        return;
      }
      i := i + 1;
    }
  }

  /** The second loop, from `start` on. */
  method ReadFrom(lines: seq<string>, start: nat) returns (caps: seq<string>)
    requires start <= |lines|
    ensures caps == ReadItems(lines[start..])
  {
    caps := [];
    var k := start;
    ghost var all := ReadItems(lines[start..]);
    while k < |lines|
      invariant start <= k <= |lines|
      invariant caps + ReadItems(lines[k..]) == all
    {
      var line := Classify(lines[k]);
      LoopStep(lines, k, caps, all);
      if line.Stop? {
        break;
      }
      if line.Item? {
        caps := caps + [line.text];
      }
      k := k + 1;
    }
    if k == |lines| {
      assert lines[k..] == [];
      assert caps + [] == caps;
    }
  }
}

=== FILE: carousel.dfy ===
/**
 * The carousel's own helpers: how an icon value becomes an image path, how a platform name
 * becomes an icon file name, where each pill's icon comes from, and what each item shows.
 */
module Carousel {
  import opened Wrappers
  import opened GameModel
  import JsText
  import IconText
  import Platforms
  import PlatformIcons
  import IgdbImage
  import GameList

  const IconsDir: string := "/icons/"

  const GenericFile: string := "platform-generic.svg"

  const GenericIcon: string := IconsDir + GenericFile

  // ---------------------------------------------------------------- normalizeIconPath

  /** Already a usable source: an http(s) URL, a data URI, a rooted path, or any path with a slash. */
  predicate IsSourcePath(t: string) {
    JsText.HasHttpScheme(t) || JsText.StartsWith(t, "data:") || (t != [] && t[0] == '/') || '/' in t
  }

  /** `normalizeIconPath(s)` on a string: trimmed, and put under `/icons/` unless it is already a path. */
  function NormalizeIconPath(s: string): (r: string)
    ensures s == [] ==> r == GenericIcon
    ensures s != [] && IsSourcePath(JsText.Trim(s)) ==> r == JsText.Trim(s)
    ensures s != [] && !IsSourcePath(JsText.Trim(s)) ==> r == IconsDir + JsText.Trim(s)
  {
    if s == [] then GenericIcon
    else
      var t := JsText.Trim(s);
      if JsText.HasHttpScheme(t) || JsText.StartsWith(t, "data:") || (t != [] && t[0] == '/') then t
      else if '/' in t then t
      else IconsDir + t
  }

  /** Every result of `NormalizeIconPath` is a trimmed source path. */
  lemma NormalizedIsSourcePath(s: string)
    ensures var r := NormalizeIconPath(s); r != [] && JsText.Trim(r) == r && IsSourcePath(r)
  {
    if s == [] {
      GenericIconShape();
    } else {
      var t := JsText.Trim(s);
      JsText.TrimIdempotent(s);
      if !IsSourcePath(t) {
        assert t == [] || !JsText.IsSpace(t[|t| - 1]);
        UnderIconsDir(t);
      } else {
        assert t != [];
      }
    }
  }

  lemma GenericIconShape()
    ensures JsText.Trim(GenericIcon) == GenericIcon && IsSourcePath(GenericIcon)
  {
    var r := GenericIcon;
    assert r[0] == '/' && r[|r| - 1] == 'g';
    JsText.TrimNoPadding(r);
  }

  /** A trimmed text under `/icons/` stays trimmed and is a rooted path. */
  lemma UnderIconsDir(t: string)
    requires t == [] || !JsText.IsSpace(t[|t| - 1])
    ensures var r := IconsDir + t; r != [] && JsText.Trim(r) == r && IsSourcePath(r)
  {
    var r := IconsDir + t;
    assert r[0] == '/';
    assert !JsText.IsSpace(r[|r| - 1]) by {
      if t == [] { assert r[|r| - 1] == '/'; } else { assert r[|r| - 1] == t[|t| - 1]; }
    }
    JsText.TrimNoPadding(r);
  }

  /** A trimmed source path is left as it is. */
  lemma SourcePathKept(r: string)
    requires r != [] && JsText.Trim(r) == r && IsSourcePath(r)
    ensures NormalizeIconPath(r) == r
  {
  }

  /** `normalizeIconPath` is idempotent on strings. */
  lemma NormalizeIconPathIdempotent(s: string)
    ensures NormalizeIconPath(NormalizeIconPath(s)) == NormalizeIconPath(s)
  {
    NormalizedIsSourcePath(s);
    SourcePathKept(NormalizeIconPath(s));
  }

  // ---------------------------------------------------------------- iconFileNameFromName

  /** The carousel's `ICON_MAP`, in declared order: "pc" is tried before "windows". */
  const CarouselIcons: IconText.IconTable := [
    ("pc", "computer.png"), ("windows", "pc.svg"), ("playstation", "playstation.svg"),
    ("ps5", "playstation.svg"), ("ps4", "playstation.svg"), ("xbox", "xbox.svg"), ("switch", "switch.svg"),
    ("android", "android.svg"), ("ios", "ios.svg"), ("stadia", "stadia.svg"), ("mac", "mac.svg"),
    ("linux", "linux.svg"), ("steamvr", "steamvr.svg")]

  /** `iconFileNameFromName(name)`: the first contained key's file, else the slug with `.svg`. */
  function IconFileNameFromName(name: string): (r: string)
    ensures name == [] ==> r == GenericFile
  {
    if name == [] then GenericFile
    else
      var lower := JsText.Lower(name);
      match IconText.FirstKeyIn(CarouselIcons, lower)
      case Some(k) => CarouselIcons[k].1
      case None => IconText.Slug(lower) + ".svg"
  }

  /** Any name containing "pc", in any letter case, gets `computer.png`, even when it also names Windows. */
  lemma PcBeforeWindows(name: string)
    requires JsText.Contains(JsText.Lower(name), "pc")
    ensures IconFileNameFromName(name) == "computer.png"
  {
    var lower := JsText.Lower(name);
    JsText.ContainsNotLonger(lower, "pc");
    IconText.FirstKeyInUnique(CarouselIcons, lower, 0);
  }

  /** A name with "windows" but without "pc" gets `pc.svg`. */
  lemma WindowsWithoutPc(name: string)
    requires !JsText.Contains(JsText.Lower(name), "pc") && JsText.Contains(JsText.Lower(name), "windows")
    ensures IconFileNameFromName(name) == "pc.svg"
  {
    var lower := JsText.Lower(name);
    JsText.ContainsNotLonger(lower, "windows");
    IconText.FirstKeyInUnique(CarouselIcons, lower, 1);
  }

  /** With no key contained, the file is the slug with `.svg`: a stem of `[a-z0-9-]` with no edge or double dash. */
  lemma SlugFileName(name: string)
    requires name != []
    requires forall j :: 0 <= j < |CarouselIcons| ==> !JsText.Contains(JsText.Lower(name), CarouselIcons[j].0)
    ensures var r := IconFileNameFromName(name); var stem := IconText.Slug(JsText.Lower(name));
      && r == stem + ".svg"
      && (forall i :: 0 <= i < |stem| ==> IconText.IsSlugChar(stem[i]) || stem[i] == '-')
      && IconText.NoEdgeDash(stem) && IconText.NoDoubleDash(stem)
  {
    IconText.SlugSpec(JsText.Lower(name));
  }

  /** The file name ignores letter case. */
  lemma IconFileNameIgnoresCase(name: string)
    ensures IconFileNameFromName(JsText.Lower(name)) == IconFileNameFromName(name)
  {
    JsText.LowerIdempotent(name);
  }

  // ---------------------------------------------------------------- resolveIconSource

  /**
   * The utility the carousel imports: `platformIcons` of `platformIcons.js` as written, so the
   * inherited members of its table answer `constructor` and `__proto__`.
   */
  function UtilIcon(name: string): (r: Option<string>)
    ensures r.None? <==> name == []
  {
    PlatformIcons.PlatformIconAsWritten(PlatformIcons.ScriptTable, PlatformIcons.TextArg(name))
  }

  /** The source to normalize when the prop gives nothing: the utility's answer, else the carousel's own file. */
  function FallbackSource(name: string): (r: string)
    ensures name == [] ==> r == IconsDir + GenericFile
  {
    match UtilIcon(name)
    case Some(u) => u
    case None => IconsDir + IconFileNameFromName(name)
  }

  /**
   * `resolveIconSource`: the `getPlatformIcon` prop's answer when truthy (`provided`, `None`
   * when it is null or throws), else the answer of `platformIcons` for the name, else the
   * carousel's own file name under `/icons/`; each normalized.
   */
  function ResolveIconSource(provided: Option<string>, name: string): (r: string)
    ensures provided.Some? && provided.value != [] ==> r == NormalizeIconPath(provided.value)
  {
    if provided.Some? && provided.value != [] then NormalizeIconPath(provided.value)
    else NormalizeIconPath(FallbackSource(name))
  }

  /**
   * Without an answer from the prop, a non-empty name is always answered by `platformIcons`,
   * so the carousel's own table is never consulted for it.
   */
  lemma OwnTableUnreached(name: string)
    requires name != []
    ensures ResolveIconSource(None, name)
      == NormalizeIconPath(PlatformIcons.PlatformIconAsWritten(PlatformIcons.ScriptTable, PlatformIcons.TextArg(name)).value)
  {
    assert UtilIcon(name).Some?;
  }

  /** The empty name, which `platformIcons` answers with null, gets the generic icon. */
  lemma EmptyNameGeneric(name: string)
    requires name == []
    ensures ResolveIconSource(None, name) == GenericIcon
  {
    assert UtilIcon(name).None?;
    assert FallbackSource(name) == GenericIcon;
    GenericIconShape();
    SourcePathKept(GenericIcon);
  }

  // ---------------------------------------------------------------- the items

  /** One platform pill: its React key (`None` for the lone "Unknown" pill), its caption (the name shown with the pill) and its icon. */
  datatype Pill = Pill(key: Option<string>, caption: string, src: string)

  /** One carousel button. */
  datatype Item = Item(key: string, selected: bool, picture: GameList.Picture, srcSet: string, pills: seq<Pill>)

  /** The prop `getPlatformIcon`, given the platform as the carousel passes it. */
  type IconProvider = PlatformIcons.IconArg -> Option<string>

  /** `p.id ?? p.name ?? i`. */
  function PillKey(p: Platforms.PlatformItem, i: nat): string {
    if p.id.Some? then GameList.KeyText(p.id.value)
    else if p.name.Some? then p.name.value
    else JsText.IntToString(i)
  }

  /** The pill of one platform `{ id, name }`: an object, so the prop is asked with the object. */
  function ItemPill(provider: IconProvider, p: Platforms.PlatformItem, i: nat): Pill {
    var name := p.name.GetOr([]);
    Pill(Some(PillKey(p, i)), if name != [] then name else "platform",
      ResolveIconSource(provider(PlatformIcons.ObjArg(p.name)), name))
  }

  function Pills(provider: IconProvider, items: seq<Platforms.PlatformItem>): (r: seq<Pill>)
    ensures |r| == if items == [] then 1 else |items|
  {
    if items == [] then [Pill(None, "Unknown", ResolveIconSource(provider(PlatformIcons.TextArg("Unknown")), "Unknown"))]
    else seq(|items|, i requires 0 <= i < |items| => ItemPill(provider, items[i], i))
  }

  const CoverBig: IgdbImage.ImageOptions := IgdbImage.ImageOptions("cover_big", [])

  function ItemFor(provider: IconProvider, g: Game, index: nat, selected: Option<Game>): Item {
    var thumb := IgdbImage.GetIgdbImage(IgdbImage.GameInput(g), CoverBig);
    Item(GameList.RenderKey(g, index), GameList.HighlightedAsWritten(selected, g),
      if thumb == [] then GameList.Placeholder else GameList.Thumbnail(thumb),
      IgdbImage.BuildSrcSet(IgdbImage.GameInput(g)),
      Pills(provider, Platforms.CarouselPlatforms(Some(g))))
  }

  /** The carousel's buttons, one per game in order. */
  function Items(provider: IconProvider, games: seq<Game>, selected: Option<Game>): (r: seq<Item>)
    ensures |r| == |games|
  {
    seq(|games|, i requires 0 <= i < |games| => ItemFor(provider, games[i], i, selected))
  }

  /**
   * Each button is keyed `id ?? name ?? index`; it shows one pill per extracted platform, keyed
   * `id ?? name ?? position`, or a single "Unknown" pill when there is none.
   */
  lemma ItemsSpec(provider: IconProvider, games: seq<Game>, selected: Option<Game>)
    ensures forall i :: 0 <= i < |games| ==>
      var item := Items(provider, games, selected)[i]; var ps := Platforms.CarouselPlatforms(Some(games[i]));
      && item.key == GameList.RenderKey(games[i], i)
      && |item.pills| == (if ps == [] then 1 else |ps|)
      && (ps == [] ==> item.pills[0].caption == "Unknown" && item.pills[0].key.None?)
      && (forall k :: 0 <= k < |ps| ==> item.pills[k].key == Some(PillKey(ps[k], k)))
  {
  }

  /** The prop both pages pass: `platformIcons` itself, as written. */
  function AppProvider(a: PlatformIcons.IconArg): Option<string> {
    PlatformIcons.PlatformIconAsWritten(PlatformIcons.ScriptTable, a)
  }

  /**
   * With the pages' prop every pill's icon is the prop's answer for the platform object, since
   * an object is never falsy: neither the fallback to `platformIcons` by name nor the
   * carousel's own table is reached. A platform without a name is looked up as `[object Object]`.
   */
  lemma AppPillsUseProp(p: Platforms.PlatformItem, i: nat)
    ensures ItemPill(AppProvider, p, i).src ==
      NormalizeIconPath(PlatformIcons.PlatformIconAsWritten(PlatformIcons.ScriptTable, PlatformIcons.ObjArg(p.name)).value)
  {
    var arg := PlatformIcons.ObjArg(p.name);
    var u := AppProvider(arg);
    assert u.Some? && '/' in u.value;
  }
}

=== FILE: curation.dfy ===
/**
 * Carousel curation on the home page and the grid of the remaining records. The clock is a
 * parameter: `now` is the current instant in milliseconds and `dayOf` maps an instant in
 * milliseconds to its local calendar day. Records come from JSON parsing, so each is a
 * distinct object: the carousel is a list of positions in `games`, and `restGames` (which
 * excludes carousel members by object identity) is every other position.
 */
module Curation {
  import opened Wrappers
  import opened GameModel
  import StableSort

  /** At most this many of today's releases are taken. */
  const TodayCap: nat := 5
  /** Padding fills today's releases up to this many. */
  const PaddedCap: nat := 6
  /** At most this many future, or past, releases are taken when none is today's. */
  const TierCap: nat := 5

  predicate IsToday(g: Game, now: int, dayOf: int -> int) {
    HasRelease(g) && dayOf(g.release.value * 1000) == dayOf(now)
  }

  predicate IsFuture(g: Game, now: int) { HasRelease(g) && g.release.value * 1000 > now }

  predicate IsPast(g: Game, now: int) { HasRelease(g) && g.release.value * 1000 <= now }

  /** The positions below `n` satisfying `p`, in increasing order. */
  function PositionsFrom(n: nat, p: nat -> bool, from: nat): (r: seq<nat>)
    requires from <= n
    ensures StableSort.Increasing(r)
    ensures forall i :: 0 <= i < |r| ==> from <= r[i] < n && p(r[i])
    ensures forall i: nat :: from <= i < n && p(i) ==> i in r
    decreases n - from
  {
    if from == n then []
    else
      var rest := PositionsFrom(n, p, from + 1);
      if p(from) then [from] + rest else rest
  }

  function Positions(n: nat, p: nat -> bool): (r: seq<nat>)
    ensures StableSort.Increasing(r)
    ensures forall i :: 0 <= i < |r| ==> r[i] < n && p(r[i])
    ensures forall i: nat :: i < n && p(i) ==> i in r
  {
    PositionsFrom(n, p, 0)
  }

  /** Sort keys: each record's `first_release_date`. */
  function ReleaseKeys(games: seq<Game>): (keys: seq<StableSort.Rank>)
    ensures |keys| == |games|
    ensures forall i :: 0 <= i < |games| ==> keys[i] == StableSort.ByInt(games[i].release.GetOr(0))
  {
    seq(|games|, i requires 0 <= i < |games| => StableSort.ByInt(games[i].release.GetOr(0)))
  }

  /** The release date of position `i` (`0` when missing, as the sort reads it). */
  function Release(games: seq<Game>, i: nat): int {
    if i < |games| then games[i].release.GetOr(0) else 0
  }

  /** Position `i` holds a future release. */
  predicate FutureAt(games: seq<Game>, now: int, i: nat) { i < |games| && IsFuture(games[i], now) }

  /** Position `i` holds a past release. */
  predicate PastAt(games: seq<Game>, now: int, i: nat) { i < |games| && IsPast(games[i], now) }

  /** Position `i` may pad the chosen records: a future release whose id none of them has. */
  predicate PadCandidate(games: seq<Game>, now: int, chosen: seq<nat>, i: nat) {
    FutureAt(games, now, i) && !IdChosen(games, chosen, games[i])
  }

  /** Some chosen record has the same `id` as `g`. */
  predicate IdChosen(games: seq<Game>, chosen: seq<nat>, g: Game) {
    exists c | 0 <= c < |chosen| :: chosen[c] < |games| && games[chosen[c]].id == g.id
  }

  function TodayPositions(games: seq<Game>, now: int, dayOf: int -> int): seq<nat> {
    Positions(|games|, (i: nat) => i < |games| && IsToday(games[i], now, dayOf))
  }

  function FuturePositions(games: seq<Game>, now: int): seq<nat> {
    Positions(|games|, (i: nat) => i < |games| && IsFuture(games[i], now))
  }

  function PastPositions(games: seq<Game>, now: int): seq<nat> {
    Positions(|games|, (i: nat) => i < |games| && IsPast(games[i], now))
  }

  /** Future records whose id no chosen record has: the padding candidates. */
  function PaddingPositions(games: seq<Game>, now: int, chosen: seq<nat>): seq<nat> {
    Positions(|games|, (i: nat) => i < |games| && IsFuture(games[i], now) && !IdChosen(games, chosen, games[i]))
  }

  lemma FutureMembership(games: seq<Game>, now: int)
    ensures forall i: nat :: i in FuturePositions(games, now) <==> i < |games| && IsFuture(games[i], now)
  {
    var p := (i: nat) => i < |games| && IsFuture(games[i], now);
    var s := FuturePositions(games, now);
    forall i: nat ensures i in s <==> i < |games| && IsFuture(games[i], now) {
      if i in s {
        var a :| 0 <= a < |s| && s[a] == i;
        assert p(s[a]);
      } else if i < |games| {
        assert !p(i);
      }
    }
  }

  lemma PastMembership(games: seq<Game>, now: int)
    ensures forall i: nat :: i in PastPositions(games, now) <==> i < |games| && IsPast(games[i], now)
  {
    var p := (i: nat) => i < |games| && IsPast(games[i], now);
    var s := PastPositions(games, now);
    forall i: nat ensures i in s <==> i < |games| && IsPast(games[i], now) {
      if i in s {
        var a :| 0 <= a < |s| && s[a] == i;
        assert p(s[a]);
      } else if i < |games| {
        assert !p(i);
      }
    }
  }

  lemma PaddingMembership(games: seq<Game>, now: int, chosen: seq<nat>)
    ensures forall i: nat :: i in PaddingPositions(games, now, chosen) <==>
      i < |games| && IsFuture(games[i], now) && !IdChosen(games, chosen, games[i])
  {
    var p := (i: nat) => i < |games| && IsFuture(games[i], now) && !IdChosen(games, chosen, games[i]);
    var s := PaddingPositions(games, now, chosen);
    forall i: nat ensures i in s <==> i < |games| && IsFuture(games[i], now) && !IdChosen(games, chosen, games[i]) {
      if i in s {
        var a :| 0 <= a < |s| && s[a] == i;
        assert p(s[a]);
      } else if i < |games| {
        assert !p(i);
      }
    }
  }

  predicate Distinct(s: seq<nat>) { forall a, b :: 0 <= a < b < |s| ==> s[a] != s[b] }

  /** The first few of today's releases, padded with the soonest future releases whose id none of them has. */
  function TodayBranch(games: seq<Game>, now: int, today: seq<nat>): (r: seq<nat>)
    requires Distinct(today)
    requires forall a :: 0 <= a < |today| ==> today[a] < |games| && HasRelease(games[today[a]])
    ensures |r| <= PaddedCap
    ensures forall a :: 0 <= a < |r| ==> r[a] < |games| && HasRelease(games[r[a]])
    ensures Distinct(r)
  {
    var chosen := Take(today, TodayCap);
    if |chosen| < TodayCap then
      var pad := PaddingPositions(games, now, chosen);
      var padding := Take(StableSort.Sort(ReleaseKeys(games), false, pad), PaddedCap - |chosen|);
      PaddingFacts(games, now, chosen, padding);
      chosen + padding
    else chosen
  }

  lemma PaddingFacts(games: seq<Game>, now: int, chosen: seq<nat>, padding: seq<nat>)
    requires Distinct(chosen) && |chosen| < TodayCap
    requires forall a :: 0 <= a < |chosen| ==> chosen[a] < |games|
    requires padding == Take(StableSort.Sort(ReleaseKeys(games), false, PaddingPositions(games, now, chosen)), PaddedCap - |chosen|)
    ensures forall a :: 0 <= a < |padding| ==> padding[a] < |games| && IsFuture(games[padding[a]], now)
    ensures Distinct(chosen + padding)
  {
    var pad := PaddingPositions(games, now, chosen);
    PaddingDrawnFromCandidates(games, now, chosen, padding);
    PaddingMembership(games, now, chosen);
    forall b | 0 <= b < |padding|
      ensures padding[b] < |games| && IsFuture(games[padding[b]], now)
      ensures forall a :: 0 <= a < |chosen| ==> chosen[a] != padding[b]
    {
      assert padding[b] in pad;
      NotChosen(games, chosen, padding[b]);
    }
    DistinctJoin(chosen, padding);
  }

  /** The padding holds no position twice, and only candidates for padding. */
  lemma PaddingDrawnFromCandidates(games: seq<Game>, now: int, chosen: seq<nat>, padding: seq<nat>)
    requires |chosen| < TodayCap
    requires padding == Take(StableSort.Sort(ReleaseKeys(games), false, PaddingPositions(games, now, chosen)), PaddedCap - |chosen|)
    ensures Distinct(padding)
    ensures forall a :: 0 <= a < |padding| ==> padding[a] in PaddingPositions(games, now, chosen)
  {
    var pad := PaddingPositions(games, now, chosen);
    var sorted := StableSort.Sort(ReleaseKeys(games), false, pad);
    StableSort.SortDistinct(ReleaseKeys(games), false, pad);
    StableSort.SortMembers(ReleaseKeys(games), false, pad);
    assert padding == sorted[..|padding|];
  }

  /** A record whose id no chosen record has is not itself chosen. */
  lemma NotChosen(games: seq<Game>, chosen: seq<nat>, i: nat)
    requires forall a :: 0 <= a < |chosen| ==> chosen[a] < |games|
    requires i < |games| && !IdChosen(games, chosen, games[i])
    ensures forall a :: 0 <= a < |chosen| ==> chosen[a] != i
  {
  }

  /** Two distinct lists with no common element join into a distinct list. */
  lemma DistinctJoin(s: seq<nat>, t: seq<nat>)
    requires Distinct(s) && Distinct(t)
    requires forall a, b :: 0 <= a < |s| && 0 <= b < |t| ==> s[a] != t[b]
    ensures Distinct(s + t)
  {
    var r := s + t;
    forall a, b | 0 <= a < b < |r| ensures r[a] != r[b] {
      if b < |s| {
        assert r[a] == s[a] && r[b] == s[b];
      } else if a < |s| {
        assert r[a] == s[a] && r[b] == t[b - |s|];
      } else {
        assert r[a] == t[a - |s|] && r[b] == t[b - |s|];
      }
    }
  }

  /** The first `n` of `s` sorted by release date (latest first when `desc`). */
  function TopReleases(games: seq<Game>, desc: bool, s: seq<nat>, n: nat): (r: seq<nat>)
    requires StableSort.Increasing(s)
    requires forall a :: 0 <= a < |s| ==> s[a] < |games|
    ensures |r| <= n
    ensures forall a :: 0 <= a < |r| ==> r[a] in s
    ensures Distinct(r)
  {
    var sorted := StableSort.Sort(ReleaseKeys(games), desc, s);
    StableSort.SortDistinct(ReleaseKeys(games), desc, s);
    StableSort.SortMembers(ReleaseKeys(games), desc, s);
    assert forall a :: 0 <= a < |Take(sorted, n)| ==> Take(sorted, n)[a] == sorted[a];
    Take(sorted, n)
  }

  /** The carousel as positions in `games`. */
  function CarouselPositions(games: seq<Game>, now: int, dayOf: int -> int): (r: seq<nat>)
    ensures |r| <= PaddedCap
    ensures TodayPositions(games, now, dayOf) == [] ==> |r| <= TierCap
    ensures forall a :: 0 <= a < |r| ==> r[a] < |games| && HasRelease(games[r[a]])
    ensures Distinct(r)
  {
    var today := TodayPositions(games, now, dayOf);
    if |today| > 0 then TodayBranch(games, now, today)
    else
      var future := TopReleases(games, false, FuturePositions(games, now), TierCap);
      if |future| > 0 then future
      else TopReleases(games, true, PastPositions(games, now), TierCap)
  }

  function Carousel(games: seq<Game>, now: int, dayOf: int -> int): seq<Game> {
    StableSort.Pick(games, CarouselPositions(games, now, dayOf))
  }

  /** `games.filter(game => !carouselGames.includes(game))`: the positions not in the carousel. */
  function RestPositions(games: seq<Game>, now: int, dayOf: int -> int): seq<nat> {
    var chosen := CarouselPositions(games, now, dayOf);
    Positions(|games|, i => i !in chosen)
  }

  function RestGames(games: seq<Game>, now: int, dayOf: int -> int): seq<Game> {
    StableSort.Pick(games, RestPositions(games, now, dayOf))
  }

  // ---------------------------------------------------------------- ordering of the taken releases

  /** `i` may come before `j`: release dates ascending, or descending when `desc`. */
  predicate ReleaseOrdered(games: seq<Game>, desc: bool, i: nat, j: nat) {
    if desc then Release(games, i) >= Release(games, j) else Release(games, i) <= Release(games, j)
  }

  /** Taking the first `n` after sorting: sorted by release with ties in input order, and nothing left out ranks ahead. */
  lemma TopReleasesSpec(games: seq<Game>, desc: bool, s: seq<nat>, n: nat)
    requires StableSort.Increasing(s)
    requires forall a :: 0 <= a < |s| ==> s[a] < |games|
    ensures var r := TopReleases(games, desc, s, n);
      && |r| == (if n < |s| then n else |s|)
      && (forall a, b :: 0 <= a < b < |r| ==> ReleaseOrdered(games, desc, r[a], r[b]))
      && (forall a, b :: 0 <= a < b < |r| && Release(games, r[a]) == Release(games, r[b]) ==> r[a] < r[b])
      && (forall a, e :: 0 <= a < |r| && e in s && e !in r ==> ReleaseOrdered(games, desc, r[a], e))
      && (forall e :: e in s && e !in r ==> |r| == n)
  {
    var r := TopReleases(games, desc, s, n);
    var sorted := StableSort.Sort(ReleaseKeys(games), desc, s);
    TopReleasesPrefix(games, desc, s, n);
    OrderedReleases(games, desc, sorted);
    assert forall a :: 0 <= a < |r| ==> r[a] == sorted[a];
    TopReleasesAhead(games, desc, s, n, r);
  }

  /** The taken releases are the front of the sorted candidates. */
  lemma TopReleasesPrefix(games: seq<Game>, desc: bool, s: seq<nat>, n: nat)
    requires StableSort.Increasing(s)
    requires forall a :: 0 <= a < |s| ==> s[a] < |games|
    ensures var r := TopReleases(games, desc, s, n); var sorted := StableSort.Sort(ReleaseKeys(games), desc, s);
      && |r| == (if n < |s| then n else |s|)
      && r == sorted[..|r|]
  {
  }

  /** A sequence of positions in sorted order is ordered by release, ties in increasing position. */
  lemma OrderedReleases(games: seq<Game>, desc: bool, t: seq<nat>)
    requires forall a :: 0 <= a < |t| ==> t[a] < |games|
    requires StableSort.Ordered(ReleaseKeys(games), desc, t)
    ensures forall a, b :: 0 <= a < b < |t| ==> ReleaseOrdered(games, desc, t[a], t[b])
    ensures forall a, b :: 0 <= a < b < |t| && Release(games, t[a]) == Release(games, t[b]) ==> t[a] < t[b]
  {
    var keys := ReleaseKeys(games);
    forall a, b | 0 <= a < b < |t|
      ensures ReleaseOrdered(games, desc, t[a], t[b])
      ensures Release(games, t[a]) == Release(games, t[b]) ==> t[a] < t[b]
    {
      assert StableSort.Before(keys, desc, t[a], t[b]);
    }
  }

  lemma TopReleasesAhead(games: seq<Game>, desc: bool, s: seq<nat>, n: nat, r: seq<nat>)
    requires StableSort.Increasing(s)
    requires forall a :: 0 <= a < |s| ==> s[a] < |games|
    requires r == TopReleases(games, desc, s, n)
    requires r == StableSort.Sort(ReleaseKeys(games), desc, s)[..|r|]
    requires |r| == (if n < |s| then n else |s|)
    ensures forall a, e :: 0 <= a < |r| && e in s && e !in r ==> ReleaseOrdered(games, desc, r[a], e)
    ensures forall e :: e in s && e !in r ==> |r| == n
  {
    var keys := ReleaseKeys(games);
    var sorted := StableSort.Sort(keys, desc, s);
    StableSort.SortMembers(keys, desc, s);
    forall a, e | 0 <= a < |r| && e in s && e !in r ensures ReleaseOrdered(games, desc, r[a], e) {
      assert e in sorted;
      var k :| 0 <= k < |sorted| && sorted[k] == e;
      assert k >= |r|;
      assert r[a] == sorted[a];
      assert StableSort.Before(keys, desc, sorted[a], sorted[k]);
    }
  }

  // ---------------------------------------------------------------- the three branches

  lemma NoPositions(n: nat, p: nat -> bool, from: nat)
    requires from <= n
    requires forall i: nat :: i < n ==> !p(i)
    ensures PositionsFrom(n, p, from) == []
    decreases n - from
  {
    if from < n {
      NoPositions(n, p, from + 1);
    }
  }

  lemma TodayChosen(games: seq<Game>, now: int, dayOf: int -> int)
    requires TodayPositions(games, now, dayOf) != []
    ensures var today := TodayPositions(games, now, dayOf);
      var r := CarouselPositions(games, now, dayOf);
      && r == TodayBranch(games, now, today)
      && Min(TodayCap, |today|) <= |r|
      && r[..Min(TodayCap, |today|)] == today[..Min(TodayCap, |today|)]
  {
  }

  lemma FutureChosen(games: seq<Game>, now: int, dayOf: int -> int)
    requires forall i :: 0 <= i < |games| ==> !IsToday(games[i], now, dayOf)
    ensures TodayPositions(games, now, dayOf) == []
    ensures FuturePositions(games, now) != [] ==>
      CarouselPositions(games, now, dayOf) == TopReleases(games, false, FuturePositions(games, now), TierCap)
    ensures FuturePositions(games, now) == [] ==>
      CarouselPositions(games, now, dayOf) == TopReleases(games, true, PastPositions(games, now), TierCap)
  {
    NoPositions(|games|, (i: nat) => i < |games| && IsToday(games[i], now, dayOf), 0);
    var fut := FuturePositions(games, now);
    if fut != [] {
      TopReleasesSpec(games, false, fut, TierCap);
    }
  }

  function Min(a: nat, b: nat): nat { if a < b then a else b }

  /** A prefix of `Positions` holds every satisfying position below its members. */
  lemma {:induction false} PositionsPrefixClosed(n: nat, p: nat -> bool, k: nat)
    requires k <= |Positions(n, p)|
    ensures var head := Positions(n, p)[..k];
      forall a, j: nat :: 0 <= a < k && j < head[a] && p(j) ==> j in head
  {
    var s := Positions(n, p);
    var head := s[..k];
    forall a, j: nat | 0 <= a < k && j < head[a] && p(j) ensures j in head {
      assert j in s;
      var m :| 0 <= m < |s| && s[m] == j;
      assert head[a] == s[a];
      IncreasingOrder(s, a, m);
      assert head[m] == j;
    }
  }

  /** In an increasing sequence, positions and values are in the same order. */
  lemma IncreasingOrder(s: seq<nat>, a: nat, b: nat)
    requires StableSort.Increasing(s) && a < |s| && b < |s|
    ensures a <= b <==> s[a] <= s[b]
  {
  }

  /** With a release today, the carousel opens with the first five of today's releases, in input order. */
  lemma CarouselOpensWithToday(games: seq<Game>, now: int, dayOf: int -> int)
    requires exists i :: 0 <= i < |games| && IsToday(games[i], now, dayOf)
    ensures var r := CarouselPositions(games, now, dayOf);
      var k := Min(TodayCap, |TodayPositions(games, now, dayOf)|);
      && k <= |r|
      && StableSort.Increasing(r[..k])
      && (forall a :: 0 <= a < k ==> IsToday(games[r[a]], now, dayOf))
      && (forall a, i: nat :: 0 <= a < k && i < r[a] && i < |games| && IsToday(games[i], now, dayOf) ==> i in r[..k])
  {
    var today := TodayPositions(games, now, dayOf);
    var i :| 0 <= i < |games| && IsToday(games[i], now, dayOf);
    assert i in today;
    TodayChosen(games, now, dayOf);
    var k := Min(TodayCap, |today|);
    TodayHead(games, now, dayOf, k);
    OpensWith(games, now, dayOf, CarouselPositions(games, now, dayOf), today[..k]);
  }

  /** With five or more releases today, the carousel is exactly the first five of them: nothing pads it. */
  lemma TodayFull(games: seq<Game>, now: int, dayOf: int -> int)
    requires |TodayPositions(games, now, dayOf)| >= TodayCap
    ensures CarouselPositions(games, now, dayOf) == TodayPositions(games, now, dayOf)[..TodayCap]
  {
    var today := TodayPositions(games, now, dayOf);
    assert Take(today, TodayCap) == today[..TodayCap];
  }

  /** The first `k` of today's releases: increasing, all today's, and none of today's skipped below them. */
  lemma TodayHead(games: seq<Game>, now: int, dayOf: int -> int, k: nat)
    requires k <= |TodayPositions(games, now, dayOf)|
    ensures var head := TodayPositions(games, now, dayOf)[..k];
      && StableSort.Increasing(head)
      && (forall a :: 0 <= a < k ==> head[a] < |games| && IsToday(games[head[a]], now, dayOf))
      && (forall a, i: nat :: 0 <= a < k && i < head[a] && i < |games| && IsToday(games[i], now, dayOf) ==> i in head)
  {
    var today := TodayPositions(games, now, dayOf);
    assert forall a :: 0 <= a < k ==> today[..k][a] == today[a];
    TodayPrefixClosed(games, now, dayOf, k);
  }

  /** Facts about a head carry over to any sequence that opens with it. */
  lemma OpensWith(games: seq<Game>, now: int, dayOf: int -> int, r: seq<nat>, head: seq<nat>)
    requires |head| <= |r| && r[..|head|] == head
    requires StableSort.Increasing(head)
    requires forall a :: 0 <= a < |head| ==> head[a] < |games| && IsToday(games[head[a]], now, dayOf)
    requires forall a, i: nat :: 0 <= a < |head| && i < head[a] && i < |games| && IsToday(games[i], now, dayOf) ==> i in head
    ensures StableSort.Increasing(r[..|head|])
    ensures forall a :: 0 <= a < |head| ==> r[a] < |games| && IsToday(games[r[a]], now, dayOf)
    ensures forall a, i: nat :: 0 <= a < |head| && i < r[a] && i < |games| && IsToday(games[i], now, dayOf) ==> i in r[..|head|]
  {
    assert forall a :: 0 <= a < |head| ==> r[a] == head[a];
  }

  lemma TodayPrefixClosed(games: seq<Game>, now: int, dayOf: int -> int, k: nat)
    requires k <= |TodayPositions(games, now, dayOf)|
    ensures var head := TodayPositions(games, now, dayOf)[..k];
      forall a, i: nat :: 0 <= a < k && i < head[a] && i < |games| && IsToday(games[i], now, dayOf) ==> i in head
  {
    var p := (i: nat) => i < |games| && IsToday(games[i], now, dayOf);
    PositionsPrefixClosed(|games|, p, k);
    var head := TodayPositions(games, now, dayOf)[..k];
    forall a, i: nat | 0 <= a < k && i < head[a] && i < |games| && IsToday(games[i], now, dayOf) ensures i in head {
      assert p(i);
    }
  }

  lemma PaddedShape(games: seq<Game>, now: int, dayOf: int -> int)
    requires 0 < |TodayPositions(games, now, dayOf)| < TodayCap
    ensures var today := TodayPositions(games, now, dayOf);
      CarouselPositions(games, now, dayOf)
        == today + TopReleases(games, false, PaddingPositions(games, now, today), PaddedCap - |today|)
  {
    var today := TodayPositions(games, now, dayOf);
    TodayChosen(games, now, dayOf);
    assert Take(today, TodayCap) == today;
  }

  /** The padding: future releases whose id no chosen record has, soonest first, and no left-out candidate sooner. */
  lemma PaddingSpec(games: seq<Game>, now: int, chosen: seq<nat>, n: nat)
    ensures var padding := TopReleases(games, false, PaddingPositions(games, now, chosen), n);
      && (forall a :: 0 <= a < |padding| ==> PadCandidate(games, now, chosen, padding[a]))
      && (forall a, b :: 0 <= a < b < |padding| ==> Release(games, padding[a]) <= Release(games, padding[b]))
      && (forall a, e :: 0 <= a < |padding| && e !in padding && PadCandidate(games, now, chosen, e)
            ==> Release(games, padding[a]) <= Release(games, e))
      && (forall e :: e !in padding && PadCandidate(games, now, chosen, e) ==> |padding| == n)
  {
    var pad := PaddingPositions(games, now, chosen);
    TopReleasesSpec(games, false, pad, n);
    PaddingMembership(games, now, chosen);
  }

  /**
   * With fewer than five releases today, the carousel is today's releases followed by padding:
   * the soonest future releases whose id is not already shown, ascending.
   */
  lemma CarouselPadsWithFuture(games: seq<Game>, now: int, dayOf: int -> int)
    requires 0 < |TodayPositions(games, now, dayOf)| < TodayCap
    ensures var r := CarouselPositions(games, now, dayOf);
      var today := TodayPositions(games, now, dayOf);
      var padding := r[Min(|today|, |r|)..];
      && r == today + padding
      && (forall a :: 0 <= a < |padding| ==> PadCandidate(games, now, today, padding[a]))
      && (forall a, b :: 0 <= a < b < |padding| ==> Release(games, padding[a]) <= Release(games, padding[b]))
      && (forall a, e :: 0 <= a < |padding| && e !in padding && PadCandidate(games, now, today, e)
            ==> Release(games, padding[a]) <= Release(games, e))
      && (forall e :: e !in padding && PadCandidate(games, now, today, e) ==> |r| == PaddedCap)
  {
    var today := TodayPositions(games, now, dayOf);
    var padding := TopReleases(games, false, PaddingPositions(games, now, today), PaddedCap - |today|);
    PaddedShape(games, now, dayOf);
    SuffixAfter(today, padding, CarouselPositions(games, now, dayOf));
    PaddingSpec(games, now, today, PaddedCap - |today|);
  }

  /** What follows a prefix of a concatenation is the second part. */
  lemma SuffixAfter(front: seq<nat>, back: seq<nat>, r: seq<nat>)
    requires r == front + back
    ensures r[Min(|front|, |r|)..] == back
  {
  }

  /** With no release today, the carousel is the five soonest future releases, ascending. */
  lemma CarouselSoonestFuture(games: seq<Game>, now: int, dayOf: int -> int)
    requires forall i :: 0 <= i < |games| ==> !IsToday(games[i], now, dayOf)
    requires exists i :: 0 <= i < |games| && IsFuture(games[i], now)
    ensures var r := CarouselPositions(games, now, dayOf);
      && |r| == Min(TierCap, |FuturePositions(games, now)|)
      && (forall a :: 0 <= a < |r| ==> FutureAt(games, now, r[a]))
      && (forall a, b :: 0 <= a < b < |r| ==> Release(games, r[a]) <= Release(games, r[b]))
      && (forall a, e :: 0 <= a < |r| && e !in r && FutureAt(games, now, e) ==> Release(games, r[a]) <= Release(games, e))
  {
    FutureMembership(games, now);
    var i :| 0 <= i < |games| && IsFuture(games[i], now);
    assert i in FuturePositions(games, now);
    FutureChosen(games, now, dayOf);
    FutureTier(games, now, CarouselPositions(games, now, dayOf));
  }

  /** The five soonest future releases, in the terms of `FutureAt`. */
  lemma FutureTier(games: seq<Game>, now: int, r: seq<nat>)
    requires r == TopReleases(games, false, FuturePositions(games, now), TierCap)
    ensures |r| == Min(TierCap, |FuturePositions(games, now)|)
    ensures forall a :: 0 <= a < |r| ==> FutureAt(games, now, r[a])
    ensures forall a, b :: 0 <= a < b < |r| ==> Release(games, r[a]) <= Release(games, r[b])
    ensures forall a, e :: 0 <= a < |r| && e !in r && FutureAt(games, now, e) ==> Release(games, r[a]) <= Release(games, e)
  {
    FutureMembership(games, now);
    TierSpec(games, false, now, FuturePositions(games, now), r);
  }

  /** With nothing today or ahead, the carousel is the five latest past releases, newest first. */
  lemma CarouselLatestPast(games: seq<Game>, now: int, dayOf: int -> int)
    requires forall i :: 0 <= i < |games| ==> !IsToday(games[i], now, dayOf) && !IsFuture(games[i], now)
    ensures var r := CarouselPositions(games, now, dayOf);
      && |r| == Min(TierCap, |PastPositions(games, now)|)
      && (forall a :: 0 <= a < |r| ==> PastAt(games, now, r[a]))
      && (forall a, b :: 0 <= a < b < |r| ==> Release(games, r[a]) >= Release(games, r[b]))
      && (forall a, e :: 0 <= a < |r| && e !in r && PastAt(games, now, e) ==> Release(games, r[a]) >= Release(games, e))
  {
    NoPositions(|games|, (i: nat) => i < |games| && IsFuture(games[i], now), 0);
    FutureChosen(games, now, dayOf);
    PastTier(games, now, CarouselPositions(games, now, dayOf));
  }

  /** The five latest past releases, in the terms of `PastAt`. */
  lemma PastTier(games: seq<Game>, now: int, r: seq<nat>)
    requires r == TopReleases(games, true, PastPositions(games, now), TierCap)
    ensures |r| == Min(TierCap, |PastPositions(games, now)|)
    ensures forall a :: 0 <= a < |r| ==> PastAt(games, now, r[a])
    ensures forall a, b :: 0 <= a < b < |r| ==> Release(games, r[a]) >= Release(games, r[b])
    ensures forall a, e :: 0 <= a < |r| && e !in r && PastAt(games, now, e) ==> Release(games, r[a]) >= Release(games, e)
  {
    PastMembership(games, now);
    TierSpec(games, true, now, PastPositions(games, now), r);
  }

  /** The first five of one tier, read as facts about the tier's membership. */
  lemma TierSpec(games: seq<Game>, desc: bool, now: int, tier: seq<nat>, r: seq<nat>)
    requires StableSort.Increasing(tier)
    requires forall a :: 0 <= a < |tier| ==> tier[a] < |games|
    requires r == TopReleases(games, desc, tier, TierCap)
    ensures |r| == Min(TierCap, |tier|)
    ensures forall a :: 0 <= a < |r| ==> r[a] in tier
    ensures forall a, b :: 0 <= a < b < |r| ==> ReleaseOrdered(games, desc, r[a], r[b])
    ensures forall a, e :: 0 <= a < |r| && e in tier && e !in r ==> ReleaseOrdered(games, desc, r[a], e)
  {
    TopReleasesSpec(games, desc, tier, TierCap);
  }

  // ---------------------------------------------------------------- carousel and rest partition the list

  lemma RestMembership(games: seq<Game>, now: int, dayOf: int -> int)
    ensures var chosen := CarouselPositions(games, now, dayOf);
      forall i: nat :: i in RestPositions(games, now, dayOf) <==> i < |games| && i !in chosen
  {
    var chosen := CarouselPositions(games, now, dayOf);
    var p := (i: nat) => i !in chosen;
    var s := RestPositions(games, now, dayOf);
    forall i: nat ensures i in s <==> i < |games| && i !in chosen {
      if i in s {
        var a :| 0 <= a < |s| && s[a] == i;
        assert p(s[a]);
      } else if i < |games| {
        assert !p(i);
      }
    }
  }

  lemma {:induction false} DistinctCount(s: seq<nat>, x: nat)
    requires Distinct(s)
    ensures multiset(s)[x] == if x in s then 1 else 0
  {
    if s != [] {
      assert s == [s[0]] + s[1..];
      DistinctCount(s[1..], x);
      if x == s[0] {
        assert x !in s[1..];
      }
    }
  }

  /** Every position is in exactly one of the carousel and the rest. */
  lemma {:induction false} PositionsPartition(n: nat, chosen: seq<nat>, rest: seq<nat>)
    requires Distinct(chosen) && Distinct(rest)
    requires forall a :: 0 <= a < |chosen| ==> chosen[a] < n
    requires forall i: nat :: i in rest <==> i < n && i !in chosen
    ensures multiset(chosen + rest) == multiset(StableSort.Upto(n))
  {
    forall x: nat ensures multiset(chosen + rest)[x] == multiset(StableSort.Upto(n))[x] {
      DistinctCount(chosen, x);
      DistinctCount(rest, x);
      DistinctCount(StableSort.Upto(n), x);
      if x < n {
        assert StableSort.Upto(n)[x] == x;
      }
    }
    assert forall m :: m in multiset(chosen + rest) ==> m in chosen + rest;
    assert forall m :: m in multiset(StableSort.Upto(n)) ==> m in StableSort.Upto(n);
  }

  /** The carousel and the remaining grid split the list: each record lands in exactly one, and the grid keeps input order. */
  lemma {:induction false} CarouselAndRestPartition(games: seq<Game>, now: int, dayOf: int -> int)
    ensures var chosen := CarouselPositions(games, now, dayOf);
      var rest := RestPositions(games, now, dayOf);
      && StableSort.Increasing(rest)
      && (forall i: nat :: i < |games| ==> (i in rest <==> i !in chosen))
      && |chosen| + |rest| == |games|
      && multiset(Carousel(games, now, dayOf)) + multiset(RestGames(games, now, dayOf)) == multiset(games)
  {
    var chosen := CarouselPositions(games, now, dayOf);
    var rest := RestPositions(games, now, dayOf);
    RestMembership(games, now, dayOf);
    PositionsPartition(|games|, chosen, rest);
    PickPartition(games, chosen, rest);
  }

  /** Picking at two position lists that together hold every position once gives every record once. */
  lemma PickPartition<T>(xs: seq<T>, chosen: seq<nat>, rest: seq<nat>)
    requires forall p :: p in chosen ==> p < |xs|
    requires forall p :: p in rest ==> p < |xs|
    requires multiset(chosen + rest) == multiset(StableSort.Upto(|xs|))
    ensures |chosen| + |rest| == |xs|
    ensures multiset(StableSort.Pick(xs, chosen)) + multiset(StableSort.Pick(xs, rest)) == multiset(xs)
  {
    assert |multiset(chosen + rest)| == |multiset(StableSort.Upto(|xs|))|;
    StableSort.PickPermutation(xs, chosen + rest, StableSort.Upto(|xs|));
    assert StableSort.Pick(xs, StableSort.Upto(|xs|)) == xs;
    StableSort.PickAppend(xs, chosen, rest);
  }

  // Worked case in UTC: one record released today, one in two days, one yesterday.
  const ExampleNow: int := 1_700_000_000_000
  const ReleasedToday: Game := Blank.(id := Some(Num(1)), release := Some(1_700_000_000))
  const ReleasedSoon: Game := Blank.(id := Some(Num(2)), release := Some(1_700_172_800))
  const ReleasedYesterday: Game := Blank.(id := Some(Num(3)), release := Some(1_699_913_600))
  const ExampleGames: seq<Game> := [ReleasedToday, ReleasedSoon, ReleasedYesterday]

  function UtcDay(ms: int): int { ms / 86_400_000 }

  lemma ExampleToday()
    ensures TodayPositions(ExampleGames, ExampleNow, UtcDay) == [0]
  {
    assert !IsToday(ReleasedSoon, ExampleNow, UtcDay) && !IsToday(ReleasedYesterday, ExampleNow, UtcDay);
  }

  lemma ExamplePadding()
    ensures PaddingPositions(ExampleGames, ExampleNow, [0]) == [1]
  {
    assert !IsFuture(ReleasedToday, ExampleNow) && !IsFuture(ReleasedYesterday, ExampleNow);
  }

  lemma ExampleCarouselPositions()
    ensures CarouselPositions(ExampleGames, ExampleNow, UtcDay) == [0, 1]
  {
    ExampleToday();
    PaddedShape(ExampleGames, ExampleNow, UtcDay);
    ExamplePadding();
    TopReleasesSingle(ExampleGames, false, 1, PaddedCap - 1);
  }

  /** Sorting one candidate keeps it. */
  lemma TopReleasesSingle(games: seq<Game>, desc: bool, i: nat, n: nat)
    requires i < |games| && 0 < n
    ensures TopReleases(games, desc, [i], n) == [i]
  {
    TopReleasesPrefix(games, desc, [i], n);
  }

  lemma ExampleRestPositions()
    ensures RestPositions(ExampleGames, ExampleNow, UtcDay) == [2]
  {
    ExampleCarouselPositions();
    RestOfThree(ExampleGames, ExampleNow, UtcDay);
  }

  /** With three records and the first two in the carousel, the rest is the third. */
  lemma RestOfThree(games: seq<Game>, now: int, dayOf: int -> int)
    requires |games| == 3 && CarouselPositions(games, now, dayOf) == [0, 1]
    ensures RestPositions(games, now, dayOf) == [2]
  {
    RestMembership(games, now, dayOf);
    OnlyMember(RestPositions(games, now, dayOf), 2);
  }

  /** An increasing sequence whose every element is `x`, and which holds `x`, is `[x]`. */
  lemma OnlyMember(s: seq<nat>, x: nat)
    requires StableSort.Increasing(s) && x in s
    requires forall a :: 0 <= a < |s| ==> s[a] == x
    ensures s == [x]
  {
    IncreasingSpread(s);
  }

  /** An increasing sequence of positions spans at least its length. */
  lemma {:induction false} IncreasingSpread(s: seq<nat>)
    requires StableSort.Increasing(s) && s != []
    ensures s[|s| - 1] >= s[0] + |s| - 1
  {
    if |s| > 1 {
      var t := s[..|s| - 1];
      assert forall a :: 0 <= a < |t| ==> t[a] == s[a];
      IncreasingSpread(t);
      assert s[|s| - 2] < s[|s| - 1];
    }
  }

  /** The carousel shows today's release padded with the upcoming one; yesterday's goes to the grid. */
  lemma TodayPaddedExample()
    ensures Carousel(ExampleGames, ExampleNow, UtcDay) == [ReleasedToday, ReleasedSoon]
    ensures RestGames(ExampleGames, ExampleNow, UtcDay) == [ReleasedYesterday]
  {
    ExampleCarouselPositions();
    ExampleRestPositions();
  }

  // ---------------------------------------------------------------- the date window of the shared helpers

  /**
   * `filterGamesByDate`: `releaseDate` is the parsed instant of the record's `releaseDate`
   * (absent when it does not parse); `nextWeek` is the instant seven local calendar days after `now`.
   */
  predicate InWeek(g: Game, now: int, nextWeek: int) {
    g.releaseDate.Some? && now <= g.releaseDate.value <= nextWeek
  }

  predicate BeyondWeek(g: Game, nextWeek: int) {
    g.releaseDate.Some? && g.releaseDate.value > nextWeek
  }

  function WeekCarousel(games: seq<Game>, now: int, nextWeek: int): seq<Game> {
    Keep(games, g => InWeek(g, now, nextWeek))
  }

  function WeekRest(games: seq<Game>, nextWeek: int): seq<Game> {
    Keep(games, g => BeyondWeek(g, nextWeek))
  }

  /** A filter keeps the head, when it passes, ahead of what it keeps of the tail. */
  lemma KeepHead<T>(s: seq<T>, p: T -> bool)
    requires s != []
    ensures multiset(Keep(s, p)) == (if p(s[0]) then multiset{s[0]} else multiset{}) + multiset(Keep(s[1..], p))
  {
    assert Keep(s, p) == (if p(s[0]) then [s[0]] else []) + Keep(s[1..], p);
  }

  /** Two filters by exclusive predicates together keep what the filter by their disjunction keeps. */
  lemma {:induction false} KeepExclusive<T>(s: seq<T>, p: T -> bool, q: T -> bool)
    requires forall x :: x in s ==> !(p(x) && q(x))
    ensures multiset(Keep(s, p)) + multiset(Keep(s, q)) == multiset(Keep(s, x => p(x) || q(x)))
  {
    if s != [] {
      var t := s[1..];
      assert s[0] in s;
      KeepExclusive(t, p, q);
      KeepHead(s, p);
      KeepHead(s, q);
      KeepHead(s, x => p(x) || q(x));
    }
  }

  /** The week split: the two lists are exclusive, together no longer than the input, and records without a date or already past appear in neither. */
  lemma {:induction false} WeekSplit(games: seq<Game>, now: int, nextWeek: int)
    requires now < nextWeek
    ensures var c, r := WeekCarousel(games, now, nextWeek), WeekRest(games, nextWeek);
      && (forall g :: g in c <==> g in games && g.releaseDate.Some? && now <= g.releaseDate.value <= nextWeek)
      && (forall g :: g in r <==> g in games && g.releaseDate.Some? && g.releaseDate.value > nextWeek)
      && (forall g :: g in c ==> g !in r)
      && (forall g :: g in games && (g.releaseDate.None? || g.releaseDate.value < now) ==> g !in c && g !in r)
      && multiset(c) + multiset(r) <= multiset(games)
  {
    var p := (g: Game) => InWeek(g, now, nextWeek);
    var q := (g: Game) => BeyondWeek(g, nextWeek);
    KeepExclusive(games, p, q);
  }
}

=== FILE: filters.dfy ===
/**
 * The game grid's filter hook: a search on the name, then a genre filter, then a platform
 * filter, each a case-insensitive substring match that only applies when its value is
 * non-empty, and finally an optional sort by name.
 */
module Filters {
  import opened Wrappers
  import opened GameModel
  import JsText
  import StableSort
  import Platforms
  import FirstSeen

  /** The hook's state: the search box and the three selects. */
  datatype FilterState = FilterState(searchTerm: string, genre: string, platform: string, ordering: string)

  const NoFilters: FilterState := FilterState([], [], [], [])

  /** `game.name?.toLowerCase().includes(searchTerm.toLowerCase())`. */
  predicate MatchesSearch(g: Game, term: string) {
    g.name.Some? && JsText.Contains(JsText.Lower(g.name.value), JsText.Lower(term))
  }

  /** A genre entry: the string itself, or `name || slug || ""`. */
  function GenreName(d: Descriptor): string {
    match d
    case Str(s) => s
    case Obj(_, name, _, slug) => OrEmpty(Or(name, slug))
  }

  /** `genres` is an array and some entry, lowercased, contains the lowercased genre. */
  predicate MatchesGenre(g: Game, genre: string) {
    g.genres.Some? &&
    exists i :: 0 <= i < |g.genres.value| &&
      JsText.Contains(JsText.Lower(GenreName(g.genres.value[i])), JsText.Lower(genre))
  }

  /** Some platform name of the hook's resolution, lowercased, contains the lowercased platform. */
  predicate MatchesPlatform(g: Game, platform: string) {
    var names := Platforms.HookNames(g);
    exists i :: 0 <= i < |names| && JsText.Contains(JsText.Lower(names[i]), JsText.Lower(platform))
  }

  /** The three filters, applied one after the other. */
  function Narrow(games: seq<Game>, f: FilterState): seq<Game> {
    var bySearch := if f.searchTerm == [] then games else Keep(games, g => MatchesSearch(g, f.searchTerm));
    var byGenre := if f.genre == [] then bySearch else Keep(bySearch, g => MatchesGenre(g, f.genre));
    if f.platform == [] then byGenre else Keep(byGenre, g => MatchesPlatform(g, f.platform))
  }

  /** Sort keys: `name || ""` of each record, compared by `localeCompare`. */
  function NameKeys(games: seq<Game>): (keys: seq<StableSort.Rank>)
    ensures |keys| == |games|
    ensures forall i :: 0 <= i < |games| ==> keys[i] == StableSort.ByText(OrEmpty(games[i].name))
  {
    seq(|games|, i requires 0 <= i < |games| => StableSort.ByText(OrEmpty(games[i].name)))
  }

  /** The positions of `games` in the order a stable sort by name leaves them (descending when `desc`). */
  function NameOrder(games: seq<Game>, desc: bool): (ps: seq<nat>)
    ensures |ps| == |games|
    ensures multiset(ps) == multiset(StableSort.Upto(|games|))
    ensures forall p :: p in ps ==> p < |games|
    ensures StableSort.Ordered(NameKeys(games), desc, ps)
  {
    var all := StableSort.Upto(|games|);
    var ps := StableSort.Sort(NameKeys(games), desc, all);
    assert forall p :: p in ps ==> p in multiset(all);
    ps
  }

  /** `filteredGames`. */
  function FilteredGames(games: seq<Game>, f: FilterState): (r: seq<Game>)
    ensures |r| <= |games|
  {
    var narrowed := Narrow(games, f);
    if f.ordering == "name" then StableSort.Pick(narrowed, NameOrder(narrowed, false))
    else if f.ordering == "-name" then StableSort.Pick(narrowed, NameOrder(narrowed, true))
    else narrowed
  }

  // ---------------------------------------------------------------- the filters

  /** Every active filter passes. */
  predicate Passes(g: Game, f: FilterState) {
    && (f.searchTerm != [] ==> MatchesSearch(g, f.searchTerm))
    && (f.genre != [] ==> MatchesGenre(g, f.genre))
    && (f.platform != [] ==> MatchesPlatform(g, f.platform))
  }

  /** Applying a filter only when it is active, after an earlier filter `acc`, is one filter on the input. */
  lemma KeepStep<T>(s: seq<T>, acc: T -> bool, active: bool, p: T -> bool, both: T -> bool)
    requires forall x :: both(x) == (acc(x) && (!active || p(x)))
    ensures (if active then Keep(Keep(s, acc), p) else Keep(s, acc)) == Keep(s, both)
  {
    if active {
      KeepKeep(s, acc, p);
      KeepSame(s, x => acc(x) && p(x), both);
    } else {
      KeepSame(s, acc, both);
    }
  }

  /**
   * The filters are one conjunctive filter: the result keeps, in input order, exactly the games
   * that pass every active filter.
   */
  lemma NarrowIsConjunction(games: seq<Game>, f: FilterState)
    ensures Narrow(games, f) == Keep(games, g => Passes(g, f))
  {
    var none := (g: Game) => true;
    var search := (g: Game) => MatchesSearch(g, f.searchTerm);
    var genre := (g: Game) => MatchesGenre(g, f.genre);
    var platform := (g: Game) => MatchesPlatform(g, f.platform);
    var p1 := (g: Game) => f.searchTerm != [] ==> MatchesSearch(g, f.searchTerm);
    var p2 := (g: Game) => p1(g) && (f.genre != [] ==> MatchesGenre(g, f.genre));
    KeepAll(games, none);
    KeepStep(games, none, f.searchTerm != [], search, p1);
    KeepStep(games, p1, f.genre != [], genre, p2);
    KeepStep(games, p2, f.platform != [], platform, g => Passes(g, f));
  }

  /** Before sorting, the result is the input with some games left out, order kept; membership is exactly passing every active filter. */
  lemma NarrowSpec(games: seq<Game>, f: FilterState)
    ensures FirstSeen.IsSubsequence(Narrow(games, f), games)
    ensures forall g :: g in Narrow(games, f) <==> g in games && Passes(g, f)
  {
    NarrowIsConjunction(games, f);
    Platforms.KeepIsSubsequence(games, g => Passes(g, f));
  }

  /** With every filter empty and no name ordering, the result is the input. */
  lemma NoFiltersIsIdentity(games: seq<Game>, f: FilterState)
    requires f.searchTerm == [] && f.genre == [] && f.platform == []
    requires f.ordering != "name" && f.ordering != "-name"
    ensures FilteredGames(games, f) == games
  {
  }

  /** An active search drops every game without a name; an active genre filter drops every game without a `genres` array. */
  lemma MissingFieldsDropped(games: seq<Game>, f: FilterState, g: Game)
    requires (g.name.None? && f.searchTerm != []) || (g.genres.None? && f.genre != [])
    ensures g !in Narrow(games, f)
  {
    assert !Passes(g, f);
    NarrowSpec(games, f);
  }

  /** A game whose only platform information is one `platform` object never passes an active platform filter. */
  lemma LonePlatformObjectDropped(games: seq<Game>, f: FilterState, g: Game)
    requires g.platforms.None? && g.platformsNames.None? && g.platform.PlatformObj?
    requires f.platform != []
    ensures g !in Narrow(games, f)
  {
    assert Platforms.HookNames(g) == [];
    assert !Passes(g, f);
    NarrowSpec(games, f);
  }

  /** The search is case-insensitive: a name found with one letter case is found with the other. */
  lemma SearchIgnoresCase(g: Game, term: string)
    ensures MatchesSearch(g, term) <==> MatchesSearch(g, JsText.Lower(term))
  {
    JsText.LowerIdempotent(term);
  }

  // ---------------------------------------------------------------- the ordering

  /** Sorting by name rearranges the games: the sorted list is a permutation of its input. */
  lemma NameSortPermutes(xs: seq<Game>, desc: bool)
    ensures multiset(StableSort.Pick(xs, NameOrder(xs, desc))) == multiset(xs)
  {
    var all := StableSort.Upto(|xs|);
    StableSort.PickPermutation(xs, NameOrder(xs, desc), all);
    assert StableSort.Pick(xs, all) == xs;
  }

  /**
   * Sorting by name leaves `name || ""` non-decreasing (non-increasing when `desc`), and games
   * with equal names keep their relative order.
   */
  lemma NameSortOrdered(xs: seq<Game>, desc: bool)
    ensures var ps := NameOrder(xs, desc); var r := StableSort.Pick(xs, ps);
      && (forall a, b :: 0 <= a < b < |r| ==>
            if desc then !StableSort.TextLess(OrEmpty(r[a].name), OrEmpty(r[b].name))
            else !StableSort.TextLess(OrEmpty(r[b].name), OrEmpty(r[a].name)))
      && (forall a, b :: 0 <= a < b < |r| && OrEmpty(r[a].name) == OrEmpty(r[b].name) ==> ps[a] < ps[b])
  {
    var keys := NameKeys(xs);
    var ps := NameOrder(xs, desc);
    var r := StableSort.Pick(xs, ps);
    forall a, b | 0 <= a < b < |r|
      ensures if desc then !StableSort.TextLess(OrEmpty(r[a].name), OrEmpty(r[b].name))
              else !StableSort.TextLess(OrEmpty(r[b].name), OrEmpty(r[a].name))
      ensures OrEmpty(r[a].name) == OrEmpty(r[b].name) ==> ps[a] < ps[b]
    {
      assert ps[a] in ps && ps[b] in ps;
      StableSort.OrderedKeysMonotone(keys, desc, ps, a, b);
      assert StableSort.Before(keys, desc, ps[a], ps[b]);
      if OrEmpty(r[a].name) == OrEmpty(r[b].name) {
        StableSort.PrecedesIrreflexive(desc, keys[ps[a]]);
      }
    }
  }

  /**
   * Ordering "name" leaves `name || ""` non-decreasing and "-name" non-increasing; games with
   * equal names keep their filtered order; the sorted list is a rearrangement of the filtered one.
   */
  lemma OrderingSpec(games: seq<Game>, f: FilterState)
    requires f.ordering == "name" || f.ordering == "-name"
    ensures var narrowed := Narrow(games, f); var r := FilteredGames(games, f);
      var desc := f.ordering == "-name";
      && multiset(r) == multiset(narrowed)
      && (forall a, b :: 0 <= a < b < |r| ==>
            if desc then !StableSort.TextLess(OrEmpty(r[a].name), OrEmpty(r[b].name))
            else !StableSort.TextLess(OrEmpty(r[b].name), OrEmpty(r[a].name)))
      && (forall a, b :: 0 <= a < b < |r| && OrEmpty(r[a].name) == OrEmpty(r[b].name) ==>
            NameOrder(narrowed, desc)[a] < NameOrder(narrowed, desc)[b])
      && r == StableSort.Pick(narrowed, NameOrder(narrowed, desc))
  {
    var narrowed := Narrow(games, f);
    var desc := f.ordering == "-name";
    assert FilteredGames(games, f) == StableSort.Pick(narrowed, NameOrder(narrowed, desc));
    NameSortPermutes(narrowed, desc);
    NameSortOrdered(narrowed, desc);
  }

  /** Any other ordering value keeps the filtered order. */
  lemma OtherOrderingKeepsOrder(games: seq<Game>, f: FilterState)
    requires f.ordering != "name" && f.ordering != "-name"
    ensures FilteredGames(games, f) == Narrow(games, f)
  {
  }
}

=== FILE: firstseen.dfy ===
/**
 * First-seen deduplication by a derived key, as the front end does with a `Set` of keys
 * seen so far: an element is kept when it has a key and no earlier element had the same
 * key. Elements without a key are dropped.
 */
module FirstSeen {
  import opened Wrappers

  /** `xs[i]` has a key, and no element before it has the same key. */
  predicate FirstOfKey<T, K(==)>(xs: seq<T>, key: T -> Option<K>, i: int)
    requires 0 <= i < |xs|
  {
    key(xs[i]).Some? && forall j :: 0 <= j < i ==> key(xs[j]) != key(xs[i])
  }

  /** The elements that are first of their key, in input order. */
  function Dedup<T, K(==)>(xs: seq<T>, key: T -> Option<K>): (r: seq<T>)
    ensures |r| <= |xs|
  {
    if xs == [] then []
    else
      var n := |xs| - 1;
      Dedup(xs[..n], key) + (if FirstOfKey(xs, key, n) then [xs[n]] else [])
  }

  /** The keys present among `xs`. */
  function KeysOf<T, K>(xs: seq<T>, key: T -> Option<K>): set<K> {
    set i | 0 <= i < |xs| && key(xs[i]).Some? :: key(xs[i]).value
  }

  /** The source's loop: walk the input once, remembering the keys already taken. */
  method DedupWithSet<T, K(==)>(xs: seq<T>, key: T -> Option<K>) returns (r: seq<T>)
    ensures r == Dedup(xs, key)
  {
    r := [];
    var seen: set<K> := {};
    for i := 0 to |xs|
      invariant r == Dedup(xs[..i], key)
      invariant seen == KeysOf(xs[..i], key)
    {
      var k := key(xs[i]);
      assert xs[..i + 1][..i] == xs[..i];
      assert k.Some? ==> (k.value in seen <==> exists j :: 0 <= j < i && key(xs[j]) == k);
      if k.Some? && k.value !in seen {
        seen := seen + {k.value};
        r := r + [xs[i]];
      }
      assert KeysOf(xs[..i + 1], key) == KeysOf(xs[..i], key) + (if k.Some? then {k.value} else {});
    }
    assert xs[..|xs|] == xs;
  }

  /** `a` is `b` with some elements left out, order kept. */
  predicate IsSubsequence<T(==)>(a: seq<T>, b: seq<T>) {
    if a == [] then true
    else if b == [] then false
    else if a[|a| - 1] == b[|b| - 1] then IsSubsequence(a[..|a| - 1], b[..|b| - 1])
    else IsSubsequence(a, b[..|b| - 1])
  }

  lemma SubsequenceOfEmptyIsEmpty<T>(a: seq<T>)
    requires IsSubsequence(a, [])
    ensures a == []
  {
  }

  lemma {:induction false} SubsequenceAppendRight<T>(a: seq<T>, b: seq<T>, x: T)
    requires IsSubsequence(a, b)
    ensures IsSubsequence(a, b + [x])
    decreases |a| + |b|, 1
  {
    assert (b + [x])[..|b|] == b;
    if a != [] && a[|a| - 1] == x {
      SubsequenceDropLast(a, b);
    }
  }

  lemma {:induction false} SubsequenceDropLast<T>(a: seq<T>, b: seq<T>)
    requires a != [] && IsSubsequence(a, b)
    ensures IsSubsequence(a[..|a| - 1], b)
    decreases |a| + |b|, 0
  {
    var a', b' := a[..|a| - 1], b[..|b| - 1];
    assert b == b' + [b[|b| - 1]];
    if a[|a| - 1] == b[|b| - 1] {
      SubsequenceAppendRight(a', b', b[|b| - 1]);
    } else {
      SubsequenceDropLast(a, b');
      SubsequenceAppendRight(a', b', b[|b| - 1]);
    }
  }

  lemma SubsequenceExtend<T>(a: seq<T>, b: seq<T>, x: T)
    requires IsSubsequence(a, b)
    ensures IsSubsequence(a, b + [x])
    ensures IsSubsequence(a + [x], b + [x])
  {
    SubsequenceAppendRight(a, b, x);
    assert (b + [x])[..|b|] == b;
    assert (a + [x])[..|a|] == a;
  }

  lemma KeysOfAppend<T, K>(xs: seq<T>, x: T, key: T -> Option<K>)
    ensures KeysOf(xs + [x], key) == KeysOf(xs, key) + (if key(x).Some? then {key(x).value} else {})
  {
    var ys := xs + [x];
    forall k | k in KeysOf(ys, key)
      ensures k in KeysOf(xs, key) + (if key(x).Some? then {key(x).value} else {})
    {
      var i :| 0 <= i < |ys| && key(ys[i]).Some? && key(ys[i]).value == k;
      if i < |xs| {
        assert ys[i] == xs[i];
      }
    }
    forall k | k in KeysOf(xs, key)
      ensures k in KeysOf(ys, key)
    {
      var i :| 0 <= i < |xs| && key(xs[i]).Some? && key(xs[i]).value == k;
      assert ys[i] == xs[i];
    }
    if key(x).Some? {
      assert ys[|xs|] == x;
    }
  }

  lemma {:induction false} DedupIsSubsequence<T, K>(xs: seq<T>, key: T -> Option<K>)
    ensures IsSubsequence(Dedup(xs, key), xs)
  {
    if xs != [] {
      var n := |xs| - 1;
      DedupIsSubsequence(xs[..n], key);
      assert xs == xs[..n] + [xs[n]];
      var prev := Dedup(xs[..n], key);
      SubsequenceExtend(prev, xs[..n], xs[n]);
      if FirstOfKey(xs, key, n) {
        assert Dedup(xs, key) == prev + [xs[n]];
      } else {
        assert Dedup(xs, key) == prev;
      }
    }
  }

  /** Every kept element is the first of its key in the input. */
  lemma {:induction false} DedupKeepsFirsts<T, K>(xs: seq<T>, key: T -> Option<K>, a: int)
    requires 0 <= a < |Dedup(xs, key)|
    ensures exists i :: 0 <= i < |xs| && FirstOfKey(xs, key, i) && Dedup(xs, key)[a] == xs[i]
  {
    var n := |xs| - 1;
    var prev := Dedup(xs[..n], key);
    if a < |prev| {
      DedupKeepsFirsts(xs[..n], key, a);
      var i :| 0 <= i < n && FirstOfKey(xs[..n], key, i) && prev[a] == xs[..n][i];
      assert FirstOfKey(xs, key, i);
    } else {
      assert FirstOfKey(xs, key, n);
    }
  }

  /** Kept elements are exactly the firsts of their keys: the result's keys are the input's keys. */
  lemma {:induction false} DedupKeys<T, K>(xs: seq<T>, key: T -> Option<K>)
    ensures KeysOf(Dedup(xs, key), key) == KeysOf(xs, key)
    ensures forall a :: 0 <= a < |Dedup(xs, key)| ==> key(Dedup(xs, key)[a]).Some?
  {
    if xs != [] {
      var n := |xs| - 1;
      var prev := Dedup(xs[..n], key);
      DedupKeys(xs[..n], key);
      var r := Dedup(xs, key);
      assert xs == xs[..n] + [xs[n]];
      KeysOfAppend(xs[..n], xs[n], key);
      if FirstOfKey(xs, key, n) {
        assert r == prev + [xs[n]];
        KeysOfAppend(prev, xs[n], key);
      } else {
        assert r == prev;
        if key(xs[n]).Some? {
          var j :| 0 <= j < n && key(xs[j]) == key(xs[n]);
          assert key(xs[n]).value in KeysOf(xs[..n], key);
        }
      }
    }
  }

  /** No two kept elements share a key. */
  lemma {:induction false} DedupDistinctKeys<T, K>(xs: seq<T>, key: T -> Option<K>)
    ensures var r := Dedup(xs, key);
      forall a, b :: 0 <= a < b < |r| ==> key(r[a]) != key(r[b])
  {
    if xs != [] {
      var n := |xs| - 1;
      var prev := Dedup(xs[..n], key);
      DedupDistinctKeys(xs[..n], key);
      var r := Dedup(xs, key);
      if FirstOfKey(xs, key, n) {
        DedupKeys(xs[..n], key);
        forall a | 0 <= a < |prev| ensures key(prev[a]) != key(xs[n]) {
          assert key(prev[a]).value in KeysOf(prev, key);
          var j :| 0 <= j < n && key(xs[..n][j]).Some? && key(xs[..n][j]).value == key(prev[a]).value;
        }
        forall a, b | 0 <= a < b < |r| ensures key(r[a]) != key(r[b]) {
          if b == |prev| {
            assert r[b] == xs[n] && r[a] == prev[a];
          } else {
            assert r[a] == prev[a] && r[b] == prev[b];
          }
        }
      } else {
        assert r == prev;
        forall a, b | 0 <= a < b < |r| ensures key(r[a]) != key(r[b]) {
          assert r[a] == prev[a] && r[b] == prev[b];
        }
      }
    }
  }

  /** A sequence whose keys are all present and pairwise distinct is left as it is. */
  lemma {:induction false} DedupOfDistinct<T, K>(xs: seq<T>, key: T -> Option<K>)
    requires forall a :: 0 <= a < |xs| ==> key(xs[a]).Some?
    requires forall a, b :: 0 <= a < b < |xs| ==> key(xs[a]) != key(xs[b])
    ensures Dedup(xs, key) == xs
  {
    if xs != [] {
      var n := |xs| - 1;
      DedupOfDistinct(xs[..n], key);
      assert FirstOfKey(xs, key, n);
      assert xs == xs[..n] + [xs[n]];
    }
  }

  /** Deduplicating twice is deduplicating once. */
  lemma DedupIdempotent<T, K>(xs: seq<T>, key: T -> Option<K>)
    ensures Dedup(Dedup(xs, key), key) == Dedup(xs, key)
  {
    DedupKeys(xs, key);
    DedupDistinctKeys(xs, key);
    DedupOfDistinct(Dedup(xs, key), key);
  }
}

=== FILE: game.dfy ===
/**
 * The game record as the front end sees it after JSON parsing. Every property the core
 * reads is explicit; a property that may be absent is an `Option`, and the shapes a
 * property may take (string or object, array or scalar) are unions.
 */
module GameModel {
  import opened Wrappers

  /** An identifier: a JSON number (integral here) or a string. */
  datatype Key = Num(n: int) | Text(s: string)

  /** JavaScript truthiness of an optional identifier: absent, `0` and `""` are falsy. */
  predicate KeyTruthy(k: Option<Key>) {
    match k
    case None => false
    case Some(Num(n)) => n != 0
    case Some(Text(s)) => s != []
  }

  /** JavaScript truthiness of an optional string: absent and `""` are falsy. */
  predicate Truthy(s: Option<string>) { s.Some? && s.value != [] }

  /** `a || b` on optional strings. */
  function Or(a: Option<string>, b: Option<string>): (r: Option<string>)
    ensures Truthy(a) ==> r == a
    ensures !Truthy(a) ==> r == b
  {
    if Truthy(a) then a else b
  }

  /** `a || ""`. */
  function OrEmpty(a: Option<string>): (r: string)
    ensures Truthy(a) ==> r == a.value
    ensures !Truthy(a) ==> r == []
  {
    if Truthy(a) then a.value else []
  }

  /** A platform or genre descriptor: a bare string or an object. */
  datatype Descriptor =
    | Str(s: string)
    | Obj(id: Option<Key>, name: Option<string>, abbreviation: Option<string>, slug: Option<string>)

  /** The singular `platform` property: absent, an array, a string or one object. */
  datatype PlatformField =
    | NoPlatform
    | PlatformList(items: seq<Descriptor>)
    | PlatformText(text: string)
    | PlatformObj(id: Option<Key>, name: Option<string>, abbreviation: Option<string>, slug: Option<string>)

  /** An image-bearing property: absent, a string, or an object with `url`/`src`/`image_id`/`id` ("" when absent). */
  datatype Candidate =
    | Missing
    | Link(text: string)
    | ImageRef(url: string, src: string, imageId: string, id: string)

  /** The `cover` property: absent, a string, or an object with `image_id` and `url` ("" when absent). */
  datatype Cover = NoCover | CoverText(text: string) | CoverObj(imageId: string, url: string)

  datatype Screenshot = Screenshot(url: Candidate, imageId: Candidate)

  /** A date-bearing property other than `first_release_date`: absent or null, a number, a string, or another type. */
  datatype DateValue = Nullish | DateNum(n: int) | DateText(s: string) | DateOther

  datatype Game = Game(
    id: Option<Key>,
    altId: Option<Key>,                     // `_id`
    name: Option<string>,
    release: Option<int>,                   // `first_release_date`, Unix seconds
    releaseDate: Option<int>,               // `new Date(releaseDate).getTime()`, None when NaN
    releasedAt: DateValue,                  // `released_at`
    releaseDateText: DateValue,             // `release_date`
    released: DateValue,                    // `released`
    genres: Option<seq<Descriptor>>,        // None when not an array
    platforms: Option<seq<Descriptor>>,     // None when not an array
    platformsNames: Option<seq<string>>,    // `platforms_names`, None when not an array
    platform: PlatformField,
    cover: Cover,
    image: Candidate,
    url: Candidate,
    backgroundImage: Candidate,
    thumbnail: Candidate,
    imageId: Candidate,
    screenshots: seq<Screenshot>
  )

  /** A record with every property absent; examples are built from it by update. */
  const Blank: Game := Game(None, None, None, None, None, Nullish, Nullish, Nullish, None, None, None,
                            NoPlatform, NoCover, Missing, Missing, Missing, Missing, Missing, [])

  /** JavaScript truthiness of `first_release_date`: absent and `0` are falsy. */
  predicate HasRelease(g: Game) { g.release.Some? && g.release.value != 0 }

  /** `platforms || []` for an array-or-absent property. */
  function PlatformsOrEmpty(g: Game): seq<Descriptor> {
    g.platforms.GetOr([])
  }

  /** `a.filter(p)` for a total predicate. */
  function Keep<T>(s: seq<T>, p: T -> bool): (r: seq<T>)
    ensures |r| <= |s|
    ensures forall x :: x in r ==> x in s && p(x)
    ensures forall x :: x in s && p(x) ==> x in r
    ensures multiset(r) <= multiset(s)
  {
    if s == [] then []
    else
      assert s == [s[0]] + s[1..];
      (if p(s[0]) then [s[0]] else []) + Keep(s[1..], p)
  }

  lemma KeepAll<T>(s: seq<T>, p: T -> bool)
    requires forall x :: x in s ==> p(x)
    ensures Keep(s, p) == s
  {
    if s != [] {
      KeepAll(s[1..], p);
    }
  }

  lemma KeepNone<T>(s: seq<T>, p: T -> bool)
    requires forall x :: x in s ==> !p(x)
    ensures Keep(s, p) == []
  {
    if s != [] {
      KeepNone(s[1..], p);
    }
  }

  lemma KeepAppend<T>(a: seq<T>, b: seq<T>, p: T -> bool)
    ensures Keep(a + b, p) == Keep(a, p) + Keep(b, p)
  {
    if a == [] {
      assert a + b == b;
    } else {
      assert (a + b)[1..] == a[1..] + b;
      KeepAppend(a[1..], b, p);
    }
  }

  /** Two filters in sequence are one filter by the conjunction. */
  lemma KeepKeep<T>(s: seq<T>, p: T -> bool, q: T -> bool)
    ensures Keep(Keep(s, p), q) == Keep(s, x => p(x) && q(x))
  {
    if s != [] {
      var head := if p(s[0]) then [s[0]] else [];
      KeepAppend(head, Keep(s[1..], p), q);
      KeepKeep(s[1..], p, q);
    }
  }

  /** A filter that agrees with another on every element gives the same result. */
  lemma KeepSame<T>(s: seq<T>, p: T -> bool, q: T -> bool)
    requires forall x :: x in s ==> (p(x) <==> q(x))
    ensures Keep(s, p) == Keep(s, q)
  {
    if s != [] {
      KeepSame(s[1..], p, q);
    }
  }

  /** `a.slice(0, n)`. */
  function Take<T>(s: seq<T>, n: nat): (r: seq<T>)
    ensures |r| == if n < |s| then n else |s|
    ensures r == s[..|r|]
  {
    if n < |s| then s[..n] else s
  }
}

=== FILE: gamelist.dfy ===
/**
 * The helpers the two game-grid components share (`GameList.jsx` and its older `GameList.js`
 * copy, whose helpers are identical): recovering an IGDB image id from a URL or file name,
 * building or resizing an IGDB upload URL, reading a release value as an instant, the
 * platform-icon path, the render key, the card thumbnail, and the grid each component renders.
 */
module GameList {
  import opened Wrappers
  import opened GameModel
  import JsText
  import IconText
  import IgdbImage
  import Platforms
  import Filters

  // ---------------------------------------------------------------- normalizeIgdbId

  /** `[^\/?#]`. */
  predicate IsSegmentChar(c: char) { c != '/' && c != '?' && c != '#' }

  /** Where the greedy `[^\/?#]+` starting at `j` stops. */
  function SegmentEnd(s: string, j: nat): (e: nat)
    requires j <= |s|
    ensures j <= e <= |s|
    ensures e == |s| || !IsSegmentChar(s[e])
    ensures forall k :: j <= k < e ==> IsSegmentChar(s[k])
    decreases |s| - j
  {
    if j == |s| || !IsSegmentChar(s[j]) then j else SegmentEnd(s, j + 1)
  }

  lemma SegmentEndUnique(s: string, j: nat, e: nat)
    requires j <= e <= |s|
    requires e == |s| || !IsSegmentChar(s[e])
    requires forall k :: j <= k < e ==> IsSegmentChar(s[k])
    ensures SegmentEnd(s, j) == e
    decreases e - j
  {
    if j < e {
      SegmentEndUnique(s, j + 1, e);
    }
  }

  /**
   * `/\/([^\/?#]+)(?:[?#].*)?$/` matches at `i`: a slash, a non-empty segment, then either the
   * end or `?`/`#` followed by text without a line terminator. The segment cannot stop short of
   * `SegmentEnd`, since what follows it must be `?`, `#` or the end.
   */
  predicate SegmentMatchAt(s: string, i: int) {
    && 0 <= i < |s|
    && s[i] == '/'
    && var e := SegmentEnd(s, i + 1);
       && e > i + 1
       && (e == |s| || (s[e] != '/' && JsText.NoLineTerminator(s[e + 1..])))
  }

  /** The leftmost match at or after `from`. */
  function FindSegment(s: string, from: nat): (r: Option<nat>)
    ensures r.Some? ==> from <= r.value && SegmentMatchAt(s, r.value)
    ensures r.Some? ==> forall k :: from <= k < r.value ==> !SegmentMatchAt(s, k)
    ensures r.None? ==> forall k :: from <= k ==> !SegmentMatchAt(s, k)
    decreases |s| - from
  {
    if from >= |s| then None
    else if SegmentMatchAt(s, from) then Some(from)
    else FindSegment(s, from + 1)
  }

  /** `.replace(/\.(jpg|jpeg|png)$/i, "")`. */
  function StripImageExt(seg: string): (r: string)
    ensures JsText.StartsWith(seg, r)
  {
    if JsText.EndsWithIgnoringCase(seg, ".jpg") then seg[..|seg| - 4]
    else if JsText.EndsWithIgnoringCase(seg, ".jpeg") then seg[..|seg| - 5]
    else if JsText.EndsWithIgnoringCase(seg, ".png") then seg[..|seg| - 4]
    else seg
  }

  /** `/^([a-z0-9_]+)(?:\.(jpg|jpeg|png))?$/i`: the id part, when the text is an id with an optional extension. */
  function BareId(s: string): (r: Option<string>)
    ensures r.Some? ==> JsText.IsWordId(r.value) && JsText.StartsWith(s, r.value)
  {
    if JsText.IsWordId(s) then Some(s)
    else if JsText.EndsWithIgnoringCase(s, ".jpg") && JsText.IsWordId(s[..|s| - 4]) then Some(s[..|s| - 4])
    else if JsText.EndsWithIgnoringCase(s, ".jpeg") && JsText.IsWordId(s[..|s| - 5]) then Some(s[..|s| - 5])
    else if JsText.EndsWithIgnoringCase(s, ".png") && JsText.IsWordId(s[..|s| - 4]) then Some(s[..|s| - 4])
    else None
  }

  /** The captured segment after the slash at `i`, without its image extension. */
  function SegmentId(s: string, i: nat): (r: string)
    requires i < |s|
    ensures forall k :: 0 <= k < |r| ==> IsSegmentChar(r[k])
  {
    var seg := s[i + 1..SegmentEnd(s, i + 1)];
    var r := StripImageExt(seg);
    assert forall k :: 0 <= k < |r| ==> r[k] == seg[k];
    r
  }

  /**
   * `normalizeIgdbId(input)`: the last path segment of a URL (before any query or fragment)
   * without its image extension; else the id part of a bare id; else nothing.
   */
  function NormalizeIgdbId(input: string): (r: string)
    ensures input == [] ==> r == []
    ensures forall k :: 0 <= k < |r| ==> IsSegmentChar(r[k])
  {
    if input == [] then [] else IdOfUrl(WithScheme(JsText.Trim(input)))
  }

  /** A scheme-relative `//host/...` gets `https:` in front. */
  function WithScheme(t: string): (r: string)
    ensures !JsText.StartsWith(t, "//") ==> r == t
  {
    if JsText.StartsWith(t, "//") then "https:" + t else t
  }

  /** The id read from trimmed text: the URL pattern's capture, else the bare-id pattern's. */
  function IdOfUrl(s: string): (r: string)
    ensures forall k :: 0 <= k < |r| ==> IsSegmentChar(r[k])
  {
    match FindSegment(s, 0)
    case Some(i) => SegmentId(s, i)
    case None =>
      match BareId(s)
      case Some(w) => w
      case None => []
  }

  /**
   * The match is the last slash of the text when nothing after it is a separator and no `?`
   * or `#` comes before it; the segment then runs to the end.
   */
  lemma LastSegment(s: string, last: nat)
    requires last + 1 < |s| && s[last] == '/'
    requires forall k :: last < k < |s| ==> IsSegmentChar(s[k])
    requires forall k :: 0 <= k < last ==> s[k] != '?' && s[k] != '#'
    ensures FindSegment(s, 0) == Some(last)
    ensures SegmentEnd(s, last + 1) == |s|
  {
    SegmentEndUnique(s, last + 1, |s|);
    assert SegmentMatchAt(s, last);
    forall k | 0 <= k < last
      ensures !SegmentMatchAt(s, k)
    {
      if s[k] == '/' {
        var e := SegmentEnd(s, k + 1);
        assert e <= last;
        assert e < |s| && s[e] == '/';
      }
    }
  }

  /** Text with no slash and no padding is read as a bare id. */
  lemma NormalizeWithoutSlash(s: string)
    requires s != [] && JsText.Trim(s) == s
    requires forall k :: 0 <= k < |s| ==> s[k] != '/'
    ensures NormalizeIgdbId(s) == BareId(s).GetOr([])
  {
    NoSlashNoSegment(s);
    NormalizeTrimmed(s);
  }

  /** Without a slash the URL pattern cannot match. */
  lemma NoSlashNoSegment(s: string)
    requires forall k :: 0 <= k < |s| ==> s[k] != '/'
    ensures FindSegment(s, 0) == None
  {
  }

  /** On trimmed text that does not start with a slash, the leading `//` rule does not apply. */
  lemma NormalizeTrimmed(s: string)
    requires s != [] && s[0] != '/' && JsText.Trim(s) == s
    ensures NormalizeIgdbId(s) == IdOfUrl(s)
  {
    assert !JsText.StartsWith(s, "//") by {
      if |s| >= 2 { assert s[..2][0] == s[0]; }
    }
  }

  /** The extensions both patterns recognise, in lowercase. */
  datatype ImageExt = NoExt | Jpg | Jpeg | Png

  function ExtText(e: ImageExt): (r: string)
    ensures forall k :: 0 <= k < |r| ==> r[k] != '/' && !JsText.IsSpace(r[k])
  {
    match e
    case NoExt => []
    case Jpg => ".jpg"
    case Jpeg => ".jpeg"
    case Png => ".png"
  }

  /** The id part of an id followed by one of the extensions. */
  lemma BareIdOfExt(w: string, e: ImageExt)
    requires JsText.IsWordId(w)
    ensures BareId(w + ExtText(e)) == Some(w)
  {
    match e
    case NoExt => assert w + ExtText(e) == w;
    case Jpg => BareIdJpg(w);
    case Jpeg => BareIdJpeg(w);
    case Png => BareIdPng(w);
  }

  /** An id followed by an extension is not itself an id: the dot is not a word character. */
  lemma DottedNotWordId(w: string, ext: string)
    requires ext != [] && ext[0] == '.'
    ensures !JsText.IsWordId(w + ext)
  {
    assert (w + ext)[|w|] == '.';
  }

  lemma BareIdJpg(w: string)
    requires JsText.IsWordId(w)
    ensures BareId(w + ".jpg") == Some(w)
  {
    var s := w + ".jpg";
    DottedNotWordId(w, ".jpg");
    assert s[..|s| - 4] == w && s[|s| - 4..] == ".jpg";
  }

  lemma BareIdJpeg(w: string)
    requires JsText.IsWordId(w)
    ensures BareId(w + ".jpeg") == Some(w)
  {
    var s := w + ".jpeg";
    DottedNotWordId(w, ".jpeg");
    assert !JsText.EndsWithIgnoringCase(s, ".jpg") by {
      assert s[|s| - 4] == 'j';
      assert JsText.Lower(s[|s| - 4..])[0] == JsText.LowerChar(s[|s| - 4]);
    }
    assert s[|s| - 5..] == ".jpeg";
    assert s[..|s| - 5] == w;
  }

  lemma BareIdPng(w: string)
    requires JsText.IsWordId(w)
    ensures BareId(w + ".png") == Some(w)
  {
    var s := w + ".png";
    DottedNotWordId(w, ".png");
    assert s[|s| - 4..] == ".png";
    assert !JsText.EndsWithIgnoringCase(s, ".jpg") by {
      assert JsText.Lower(s[|s| - 4..])[1] == JsText.LowerChar(s[|s| - 3]) == 'p';
    }
    assert !JsText.EndsWithIgnoringCase(s, ".jpeg") by {
      assert JsText.Lower(s[|s| - 5..])[1] == JsText.LowerChar(s[|s| - 4]) == '.';
    }
    assert s[..|s| - 4] == w;
  }

  // ---------------------------------------------------------------- igdbUrl

  const UploadHttp: string := "http://images.igdb.com/igdb/image/upload/"

  /** Case-insensitive prefix test against an already lowercase prefix. */
  predicate StartsWithLower(s: string, lowerPrefix: string) {
    |lowerPrefix| <= |s| && JsText.Lower(s[..|lowerPrefix|]) == lowerPrefix
  }

  /** `/^https?:\/\/images\.igdb\.com\/igdb\/image\/upload\//i` (both prefixes are lowercase). */
  predicate IsUploadUrl(s: string) {
    StartsWithLower(s, UploadHttp) || StartsWithLower(s, IgdbImage.UploadBase)
  }

  /** `/\/t_[^/]+\//` matches at `i`: `/t_`, at least one character other than `/`, then `/`. */
  predicate SizeSegmentAt(s: string, i: int) {
    && 0 <= i && i + 3 < |s|
    && s[i] == '/' && s[i + 1] == 't' && s[i + 2] == '_' && s[i + 3] != '/'
    && IgdbImage.RunEnd(s, i + 3) < |s|
  }

  /** The leftmost size segment at or after `from`. */
  function FindSizeSegment(s: string, from: nat): (r: Option<nat>)
    ensures r.Some? ==> from <= r.value && SizeSegmentAt(s, r.value)
    ensures r.Some? ==> forall k :: from <= k < r.value ==> !SizeSegmentAt(s, k)
    ensures r.None? ==> forall k :: from <= k ==> !SizeSegmentAt(s, k)
    decreases |s| - from
  {
    if from + 3 >= |s| then None
    else if SizeSegmentAt(s, from) then Some(from)
    else FindSizeSegment(s, from + 1)
  }

  /** The first occurrence of `sub` at or after `from`. */
  function FindText(s: string, sub: string, from: nat): (r: Option<nat>)
    ensures r.Some? ==> from <= r.value && JsText.OccursAt(s, sub, r.value)
    ensures r.Some? ==> forall k :: from <= k < r.value ==> !JsText.OccursAt(s, sub, k)
    ensures r.None? ==> forall k :: from <= k ==> !JsText.OccursAt(s, sub, k)
    decreases |s| - from
  {
    if from + |sub| > |s| then None
    else if JsText.OccursAt(s, sub, from) then Some(from)
    else FindText(s, sub, from + 1)
  }

  /**
   * `igdbUrl(idOrUrl, size)`: on an IGDB upload URL the first `/t_…/` segment becomes the
   * size, or the size is inserted after the first `/upload/`; a bare id becomes the upload
   * URL; anything else is returned as it is. The two `replace` calls expand the `$` patterns
   * of their replacement text; the template for a bare id inserts the size as it is.
   */
  function IgdbUrl(s: string, size: string): (r: string)
    ensures s == [] <==> r == []
    ensures !IsUploadUrl(s) && !JsText.IsWordId(s) ==> r == s
  {
    if s == [] then []
    else if IsUploadUrl(s) then
      match FindSizeSegment(s, 0)
      case Some(i) =>
        var e := IgdbImage.RunEnd(s, i + 3) + 1;
        s[..i] + JsText.Substitute("/" + size + "/", s[i..e], s[..i], s[e..]) + s[e..]
      case None =>
        match FindText(s, "/upload/", 0)
        case Some(j) => s[..j] + JsText.Substitute("/upload/" + size + "/", "/upload/", s[..j], s[j + 8..]) + s[j + 8..]
        case None => s
    else if JsText.IsWordId(s) then IgdbImage.UploadBase + size + "/" + s + ".jpg"
    else s
  }

  /** Where the upload prefix's slashes are, and how long the two prefixes are. */
  lemma UploadBaseEnds()
    ensures |IgdbImage.UploadBase| == 42 && IgdbImage.UploadBase[41] == '/'
    ensures IgdbImage.UploadBase[0] == 'h' && IgdbImage.UploadBase[6] == '/'
    ensures |UploadHttp| == 41 && UploadHttp[6] == '/'
  {
  }

  /** No slash of the upload prefix is followed by `t`. */
  lemma UploadBaseNoSizeSegment()
    ensures forall k :: 0 <= k < 41 ==> !(IgdbImage.UploadBase[k] == '/' && IgdbImage.UploadBase[k + 1] == 't')
  {
  }

  /** The upload prefix holds no `?` or `#`. */
  lemma UploadBaseNoQuery()
    ensures forall k :: 0 <= k < |IgdbImage.UploadBase| ==> IgdbImage.UploadBase[k] != '?' && IgdbImage.UploadBase[k] != '#'
  {
  }

  /** A text without a slash in its first seven characters is not an upload URL. */
  lemma NotUploadUrl(s: string)
    requires |s| > 6 ==> s[6] != '/'
    ensures !IsUploadUrl(s)
  {
    UploadBaseEnds();
    if |s| >= 41 {
      assert JsText.Lower(s[..41])[6] == JsText.LowerChar(s[6]);
    }
    if |s| >= 42 {
      assert JsText.Lower(s[..42])[6] == JsText.LowerChar(s[6]);
    }
  }

  /** A bare id becomes the canonical upload URL. */
  lemma IgdbUrlOfId(w: string, size: string)
    requires JsText.IsWordId(w)
    ensures IgdbUrl(w, size) == IgdbImage.UploadBase + size + "/" + w + ".jpg"
  {
    if |w| > 6 {
      assert JsText.IsWordChar(w[6]);
    }
    NotUploadUrl(w);
  }

  /** A lowercase prefix passes the case-insensitive prefix test. */
  lemma StartsWithOwnLower(p: string, a: string, tail: string)
    requires JsText.Lower(p) == p
    ensures StartsWithLower(p + a + "/" + tail, p)
  {
    assert (p + a + "/" + tail)[..|p|] == p;
  }

  lemma UploadBaseIsLower()
    ensures JsText.Lower(IgdbImage.UploadBase) == IgdbImage.UploadBase
  {
    var u := IgdbImage.UploadBase;
    assert forall k :: 0 <= k < |u| ==> !JsText.IsUpperAscii(u[k]);
    IconText.LowerOfLower(u);
  }

  /**
   * After a prefix ending in its only candidate slash, a size token and a slash form the first
   * size segment.
   */
  lemma SizeSegmentAfterPrefix(p: string, a: string, tail: string)
    requires |p| >= 1 && p[|p| - 1] == '/'
    requires forall k :: 0 <= k < |p| - 1 ==> !(p[k] == '/' && p[k + 1] == 't')
    requires |a| >= 3 && a[0] == 't' && a[1] == '_'
    requires forall k :: 0 <= k < |a| ==> a[k] != '/'
    ensures FindSizeSegment(p + a + "/" + tail, 0) == Some(|p| - 1)
    ensures IgdbImage.RunEnd(p + a + "/" + tail, |p| + 2) == |p| + |a|
  {
    var u := p + a + "/" + tail;
    var n := |p|;
    var slash := n + |a|;
    assert u[slash] == '/';
    forall k | n + 2 <= k < slash ensures u[k] != '/' {
      assert u[k] == a[k - n];
    }
    IgdbImage.RunEndUnique(u, n + 2, slash);
    assert u[n - 1] == '/' && u[n] == a[0] && u[n + 1] == a[1] && u[n + 2] == a[2];
    assert SizeSegmentAt(u, n - 1);
    forall k | 0 <= k < n - 1 ensures !SizeSegmentAt(u, k) {
      assert u[k] == p[k] && u[k + 1] == p[k + 1];
    }
  }

  /**
   * Resizing the URL built for a bare id replaces its size segment, not a second one inserted:
   * the new size is expanded against that segment, and a `$`-free size gives exactly the URL
   * built with the new size.
   */
  lemma IgdbUrlResize(w: string, a: string, b: string)
    requires JsText.IsWordId(w)
    requires |a| >= 3 && a[0] == 't' && a[1] == '_'
    requires forall k :: 0 <= k < |a| ==> a[k] != '/'
    ensures var p := IgdbImage.UploadBase[..41];
      IgdbUrl(IgdbUrl(w, a), b) == p + JsText.Substitute("/" + b + "/", "/" + a + "/", p, w + ".jpg") + (w + ".jpg")
    ensures '$' !in b ==> IgdbUrl(IgdbUrl(w, a), b) == IgdbUrl(w, b)
  {
    ResizeBuiltUrl(w, a, b);
    if '$' !in b {
      IgdbUrlOfId(w, b);
      UploadBaseSplit();
      LiteralResize(IgdbImage.UploadBase[..41], IgdbImage.UploadBase, "/" + a + "/", b, w + ".jpg");
    }
  }

  /** The upload prefix is its first 41 characters and a slash. */
  lemma UploadBaseSplit()
    ensures IgdbImage.UploadBase == IgdbImage.UploadBase[..41] + "/"
  {
    UploadBaseEnds();
  }

  /** A `$`-free size is written in as it is, right after the prefix's slash. */
  lemma LiteralResize(p: string, base: string, matched: string, b: string, tail: string)
    requires base == p + "/" && '$' !in b
    ensures p + JsText.Substitute("/" + b + "/", matched, p, tail) + tail == base + b + "/" + tail
  {
    assert '$' !in "/" + b + "/";
    assert p + ("/" + b + "/") == (p + "/") + b + "/";
  }

  /** The size segment of a built URL is the first one, and it is what the resize replaces. */
  lemma ResizeBuiltUrl(w: string, a: string, b: string)
    requires JsText.IsWordId(w)
    requires |a| >= 3 && a[0] == 't' && a[1] == '_'
    requires forall k :: 0 <= k < |a| ==> a[k] != '/'
    ensures var p := IgdbImage.UploadBase[..41];
      IgdbUrl(IgdbUrl(w, a), b) == p + JsText.Substitute("/" + b + "/", "/" + a + "/", p, w + ".jpg") + (w + ".jpg")
  {
    IgdbUrlOfId(w, a);
    UploadBaseEnds();
    UploadBaseNoSizeSegment();
    var base := IgdbImage.UploadBase;
    var tail := w + ".jpg";
    var u := base + a + "/" + tail;
    assert IgdbUrl(w, a) == u;
    UploadBaseIsLower();
    StartsWithOwnLower(base, a, tail);
    SizeSegmentAfterPrefix(base, a, tail);
    SegmentSlices(base, a, tail);
  }

  /** The parts of `p + a + "/" + tail` around the segment `/a/` that starts at the prefix's last slash. */
  lemma SegmentSlices(p: string, a: string, tail: string)
    requires |p| >= 1
    ensures var u, n := p + a + "/" + tail, |p|;
      && u[..n - 1] == p[..n - 1] && u[n - 1..n + |a| + 1] == [p[n - 1]] + a + "/" && u[n + |a| + 1..] == tail
  {
  }

  /** The characters of `p + size + "/" + id + ".jpg"` on either side of the slash before the id. */
  lemma UrlChars(p: string, size: string, w: string)
    requires forall k :: 0 <= k < |p| ==> p[k] != '?' && p[k] != '#'
    requires forall k :: 0 <= k < |size| ==> IsSegmentChar(size[k])
    requires JsText.IsWordId(w)
    ensures var u := p + size + "/" + (w + ".jpg"); var last := |p| + |size|;
      && u[last] == '/'
      && (forall k :: last < k < |u| ==> IsSegmentChar(u[k]))
      && (forall k :: 0 <= k < last ==> u[k] != '?' && u[k] != '#')
  {
    var tail := w + ".jpg";
    var head := p + size + "/";
    var u := head + tail;
    var last := |p| + |size|;
    forall k | last < k < |u| ensures IsSegmentChar(u[k]) {
      assert u[k] == tail[k - last - 1];
      if k - last - 1 < |w| {
        assert tail[k - last - 1] == w[k - last - 1];
        assert JsText.IsWordChar(w[k - last - 1]);
      }
    }
    forall k | 0 <= k < last ensures u[k] != '?' && u[k] != '#' {
      if k < |p| { assert u[k] == p[k]; } else { assert u[k] == size[k - |p|]; }
    }
  }

  /** In `p + size + "/" + id + ".jpg"` the match is the slash before the id. */
  lemma LastSegmentOfUrl(p: string, size: string, w: string)
    requires forall k :: 0 <= k < |p| ==> p[k] != '?' && p[k] != '#'
    requires forall k :: 0 <= k < |size| ==> IsSegmentChar(size[k])
    requires JsText.IsWordId(w)
    ensures FindSegment(p + size + "/" + (w + ".jpg"), 0) == Some(|p| + |size|)
    ensures SegmentEnd(p + size + "/" + (w + ".jpg"), |p| + |size| + 1) == |p| + |size| + |w| + 5
  {
    UrlChars(p, size, w);
    LastSegment(p + size + "/" + (w + ".jpg"), |p| + |size|);
  }

  /** On trimmed text that does not start with `//`, the id is what the leftmost match captures. */
  lemma NormalizeAtMatch(s: string, i: nat)
    requires s != [] && s[0] != '/' && JsText.Trim(s) == s
    requires FindSegment(s, 0) == Some(i)
    ensures NormalizeIgdbId(s) == SegmentId(s, i)
  {
    NormalizeTrimmed(s);
  }

  /** `.jpg` is cut from an id. */
  lemma StripJpg(w: string)
    requires JsText.IsWordId(w)
    ensures StripImageExt(w + ".jpg") == w
  {
    var t := w + ".jpg";
    assert t[|t| - 4..] == ".jpg";
    assert t[..|t| - 4] == w;
  }

  /**
   * The id is recovered from `p + size + "/" + id + ".jpg"` whenever the prefix starts with a
   * character other than a slash or white space and holds no `?` or `#`.
   */
  lemma NormalizeAfterPrefix(p: string, size: string, w: string)
    requires p != [] && p[0] != '/' && !JsText.IsSpace(p[0])
    requires forall k :: 0 <= k < |p| ==> p[k] != '?' && p[k] != '#'
    requires forall k :: 0 <= k < |size| ==> IsSegmentChar(size[k])
    requires JsText.IsWordId(w)
    ensures NormalizeIgdbId(p + size + "/" + (w + ".jpg")) == w
  {
    var tail := w + ".jpg";
    var u := p + size + "/" + tail;
    assert u[0] == p[0] && u[|u| - 1] == 'g';
    JsText.TrimNoPadding(u);
    LastSegmentOfUrl(p, size, w);
    var last := |p| + |size|;
    NormalizeAtMatch(u, last);
    assert u[last + 1..|u|] == tail;
    StripJpg(w);
  }

  /** The id is recovered from the upload URL built for it, whatever size token was used. */
  lemma NormalizeUploadUrl(size: string, w: string)
    requires JsText.IsWordId(w)
    requires forall k :: 0 <= k < |size| ==> IsSegmentChar(size[k])
    ensures NormalizeIgdbId(IgdbImage.UploadBase + size + "/" + (w + ".jpg")) == w
  {
    UploadBaseEnds();
    UploadBaseNoQuery();
    NormalizeAfterPrefix(IgdbImage.UploadBase, size, w);
  }

  /** The id is recovered from the URL built for it, whatever size token was used. */
  lemma NormalizeIgdbUrl(w: string, size: string)
    requires JsText.IsWordId(w)
    requires forall k :: 0 <= k < |size| ==> IsSegmentChar(size[k])
    ensures NormalizeIgdbId(IgdbUrl(w, size)) == w
  {
    IgdbUrlOfId(w, size);
    assert IgdbUrl(w, size) == IgdbImage.UploadBase + size + "/" + (w + ".jpg");
    NormalizeUploadUrl(size, w);
  }

  // ---------------------------------------------------------------- formatReleaseDate

  /** The instant a release value names, before locale formatting. */
  datatype Stamp =
    | NoDate                 // nothing to show: no value, another type, or an invalid date
    | Millis(ms: int)        // a valid instant, in milliseconds since the epoch
    | Parsed(text: string)   // text left to the `Date` string parser

  /** `released_at ?? release_date ?? first_release_date ?? released ?? ""`. */
  function ReleaseValue(g: Game): (v: DateValue)
    ensures v != Nullish
  {
    if g.releasedAt != Nullish then g.releasedAt
    else if g.releaseDateText != Nullish then g.releaseDateText
    else if g.release.Some? then DateNum(g.release.value)
    else if g.released != Nullish then g.released
    else DateText([])
  }

  /** `val > 1e12 ? val : val * 1000`: large values are milliseconds, the rest seconds. */
  function ToMillis(n: int): int {
    if n > 1_000_000_000_000 then n else n * 1000
  }

  /** The largest distance from the epoch a `Date` holds, in milliseconds. */
  const MaxTime: int := 8_640_000_000_000_000

  /** `new Date(ms)`: an invalid date outside the representable range. */
  function DateOf(ms: int): Stamp {
    if -MaxTime <= ms <= MaxTime then Millis(ms) else NoDate
  }

  predicate IsDigits(s: string) {
    |s| > 0 && forall i :: 0 <= i < |s| ==> JsText.IsDigit(s[i])
  }

  /** The value of a run of decimal digits. */
  function DigitsValue(s: string): nat
    requires forall i :: 0 <= i < |s| ==> JsText.IsDigit(s[i])
    decreases |s|
  {
    if s == [] then 0
    else
      assert JsText.IsDigit(s[|s| - 1]);
      DigitsValue(s[..|s| - 1]) * 10 + (s[|s| - 1] as int - '0' as int)
  }

  /**
   * `Number(text)` on text that trims to nothing (zero) or to an optionally signed run of
   * decimal digits; `None` stands for NaN.
   */
  function NumberOf(text: string): (r: Option<int>)
    ensures JsText.AllSpace(text) ==> r == Some(0)
  {
    var t := JsText.Trim(text);
    JsText.TrimEmptyIffAllSpace(text);
    if t == [] then Some(0)
    else if IsDigits(t) then Some(DigitsValue(t))
    else if |t| > 1 && (t[0] == '-' || t[0] == '+') && IsDigits(t[1..]) then
      var magnitude: int := DigitsValue(t[1..]);
      Some(if t[0] == '-' then -magnitude else magnitude)
    else None
  }

  /** `formatReleaseDate(game)` up to `toLocaleDateString`. */
  function ReleaseStamp(g: Game): Stamp {
    match ReleaseValue(g)
    case DateNum(n) => DateOf(ToMillis(n))
    case DateText(s) =>
      if s == [] then NoDate
      else (match NumberOf(s)
        case Some(n) => DateOf(ToMillis(n))
        case None => Parsed(s))
    case _ => NoDate
  }

  lemma {:induction false} DigitsOfNat(n: nat)
    ensures IsDigits(JsText.IntToString(n))
    ensures DigitsValue(JsText.IntToString(n)) == n
    decreases n
  {
    var s := JsText.IntToString(n);
    if n >= 10 {
      DigitsOfNat(n / 10);
      assert s == JsText.IntToString(n / 10) + [('0' as int + n % 10) as char];
      assert s[..|s| - 1] == JsText.IntToString(n / 10);
    }
  }

  /** The decimal text of an integer: digits, after a minus sign when negative. */
  lemma IntToStringShape(n: int)
    ensures var s := JsText.IntToString(n);
      && !JsText.IsSpace(s[0]) && !JsText.IsSpace(s[|s| - 1])
      && (n >= 0 ==> IsDigits(s) && DigitsValue(s) == n)
      && (n < 0 ==> |s| > 1 && s[0] == '-' && IsDigits(s[1..]) && DigitsValue(s[1..]) == -n)
  {
    var s := JsText.IntToString(n);
    if n >= 0 {
      DigitsOfNat(n);
      assert JsText.IsDigit(s[0]) && JsText.IsDigit(s[|s| - 1]);
    } else {
      NegativeIntToString(n);
    }
  }

  /** A negative integer is written as `-` and the digits of its magnitude. */
  lemma NegativeIntToString(n: int)
    requires n < 0
    ensures var s := JsText.IntToString(n);
      && |s| > 1 && s[0] == '-' && !JsText.IsSpace(s[|s| - 1])
      && IsDigits(s[1..]) && DigitsValue(s[1..]) == -n
  {
    var s := JsText.IntToString(n);
    DigitsOfNat(-n);
    assert s[1..] == JsText.IntToString(-n);
    assert s[|s| - 1] == s[1..][|s| - 2];
    assert JsText.IsDigit(s[|s| - 1]);
  }

  /** The decimal text of an integer reads back as that integer. */
  lemma NumberOfIntToString(n: int)
    ensures NumberOf(JsText.IntToString(n)) == Some(n)
  {
    IntToStringShape(n);
    JsText.TrimNoPadding(JsText.IntToString(n));
  }

  /** Decimal text is injective. */
  lemma IntToStringInjective(a: int, b: int)
    requires JsText.IntToString(a) == JsText.IntToString(b)
    ensures a == b
  {
    NumberOfIntToString(a);
    NumberOfIntToString(b);
  }

  /**
   * The unit rule: a number, or the decimal text of one, above 1e12 is milliseconds and
   * anything else seconds, both readings naming the same instant.
   */
  lemma UnitRule(g: Game, n: int)
    requires ReleaseValue(g) == DateNum(n) || ReleaseValue(g) == DateText(JsText.IntToString(n))
    ensures ReleaseStamp(g) == DateOf(if n > 1_000_000_000_000 then n else n * 1000)
  {
    NumberOfIntToString(n);
  }

  /**
   * The first present field decides: a present `released_at` hides the other three; with no
   * field present there is no date; a `first_release_date` of 0 is present (it is not nullish)
   * and names the epoch; white-space-only text reads as zero seconds; any other type gives no
   * date.
   */
  lemma ReleaseStampCases(g: Game, h: Game)
    ensures g.releasedAt != Nullish && h.releasedAt == g.releasedAt ==> ReleaseStamp(g) == ReleaseStamp(h)
    ensures g.releasedAt == Nullish && g.releaseDateText == Nullish && g.release.None? && g.released == Nullish ==>
      ReleaseStamp(g) == NoDate
    ensures g.releasedAt == Nullish && g.releaseDateText == Nullish && g.release == Some(0) ==>
      ReleaseStamp(g) == Millis(0)
    ensures ReleaseValue(g).DateText? && ReleaseValue(g).s != [] && JsText.AllSpace(ReleaseValue(g).s) ==>
      ReleaseStamp(g) == Millis(0)
    ensures ReleaseValue(g) == DateOther ==> ReleaseStamp(g) == NoDate
  {
  }

  // ---------------------------------------------------------------- platformIconSrc

  /** The directory of the platform icons. */
  const IconDir: string := "/icons/"
  const DefaultIconFile: string := "default.svg"
  /** `/icons/default.svg`. */
  const DefaultIcon: string := IconDir + DefaultIconFile

  /** `platformIconMap`, in declared order. */
  const ListIcons: IconText.IconTable := [
    ("pc", "pc.svg"), ("windows", "pc.svg"), ("steam", "pc.svg"),
    ("playstation", "playstation.svg"), ("ps", "playstation.svg"),
    ("xbox", "xbox.svg"), ("switch", "switch.svg"), ("nintendo", "switch.svg"),
    ("android", "android.svg"), ("ios", "ios.svg"), ("iphone", "ios.svg"), ("ipad", "ios.svg"),
    ("mac", "mac.svg"), ("macos", "mac.svg"), ("linux", "linux.svg")
  ]

  /** `platformIconSrc(name)`. */
  function PlatformIconSrc(name: string): (r: string)
    ensures name == [] ==> r == DefaultIcon
  {
    if name == [] then DefaultIcon
    else
      var s := JsText.Lower(name);
      IconOf(IconText.FirstKeyIn(ListIcons, s), s)
  }

  /** The icon for a lowered name `s`, given the table entry it matched first, if any. */
  function IconOf(found: Option<nat>, s: string): string
    requires found.Some? ==> found.value < |ListIcons|
  {
    match found
    case Some(k) => IconDir + ListIcons[k].1
    case None =>
      var slug := IconText.Slug(s);
      if slug != [] then IconDir + slug + ".svg" else DefaultIcon
  }

  /** A file name that cannot leave the icon directory. */
  predicate IsIconFile(f: string) {
    |f| > 4 && f[|f| - 4..] == ".svg" && forall k :: 0 <= k < |f| ==> f[k] != '/'
  }

  lemma ListIconsShape()
    ensures forall k :: 0 <= k < |ListIcons| ==> IsIconFile(ListIcons[k].1)
  {
    ListIconFilesShape();
    assert forall k :: 0 <= k < |ListIcons| ==> ListIcons[k].1 in ListIconFiles;
  }

  /** The file of one entry of the list icon table. */
  lemma ListIconAt(k: nat)
    requires k < |ListIcons|
    ensures IsIconFile(ListIcons[k].1)
  {
    ListIconsShape();
  }

  /** The distinct files of the list icon table. */
  const ListIconFiles: seq<string> :=
    ["pc.svg", "playstation.svg", "xbox.svg", "switch.svg", "android.svg", "ios.svg", "mac.svg", "linux.svg"]

  lemma ListIconFilesShape()
    ensures forall f <- ListIconFiles :: IsIconFile(f)
  {
    ConsoleIconFiles();
    DeviceIconFiles();
  }

  lemma ConsoleIconFiles()
    ensures IsIconFile("pc.svg") && IsIconFile("playstation.svg") && IsIconFile("xbox.svg") && IsIconFile("switch.svg")
  {
  }

  lemma DeviceIconFiles()
    ensures IsIconFile("android.svg") && IsIconFile("ios.svg") && IsIconFile("mac.svg") && IsIconFile("linux.svg")
  {
  }

  lemma DefaultIconShape()
    ensures IsIconFile(DefaultIconFile)
  {
  }

  /** A slug with `.svg` appended is an icon file. */
  lemma SlugFileShape(s: string)
    requires IconText.Slug(s) != []
    ensures IsIconFile(IconText.Slug(s) + ".svg")
  {
    var slug := IconText.Slug(s);
    IconText.SlugSpec(s);
    var f := slug + ".svg";
    assert f[|f| - 4..] == ".svg";
    forall k | 0 <= k < |f| ensures f[k] != '/' {
      if k < |slug| { assert f[k] == slug[k]; } else { assert f[k] == ".svg"[k - |slug|]; }
    }
  }

  /** The path is always `/icons/` followed by an `.svg` file name without a slash. */
  lemma IconPathShape(name: string)
    ensures exists f :: IsIconFile(f) && PlatformIconSrc(name) == IconDir + f
  {
    if name == [] || IconText.FirstKeyIn(ListIcons, JsText.Lower(name)).None? {
      UnlistedIconPath(name);
    } else {
      ListedIconPath(name);
    }
  }

  /** A name matching a table key gets that entry's file. */
  lemma ListedIconPath(name: string)
    requires name != [] && IconText.FirstKeyIn(ListIcons, JsText.Lower(name)).Some?
    ensures exists f :: IsIconFile(f) && PlatformIconSrc(name) == IconDir + f
  {
    var k := IconText.FirstKeyIn(ListIcons, JsText.Lower(name)).value;
    ListIconAt(k);
    assert PlatformIconSrc(name) == IconDir + ListIcons[k].1;
  }

  /** Any other name gets its slug's file, or the default icon when the slug is empty. */
  lemma UnlistedIconPath(name: string)
    requires name == [] || IconText.FirstKeyIn(ListIcons, JsText.Lower(name)).None?
    ensures exists f :: IsIconFile(f) && PlatformIconSrc(name) == IconDir + f
  {
    var slug := IconText.Slug(JsText.Lower(name));
    UnlistedIconSrc(name);
    if name != [] && slug != [] {
      SlugFileShape(JsText.Lower(name));
      assert PlatformIconSrc(name) == IconDir + (slug + ".svg");
    } else {
      DefaultIconShape();
      assert PlatformIconSrc(name) == IconDir + DefaultIconFile;
    }
  }

  /** Without a table key, the path comes from the slug alone. */
  lemma UnlistedIconSrc(name: string)
    requires name == [] || IconText.FirstKeyIn(ListIcons, JsText.Lower(name)).None?
    ensures var slug := IconText.Slug(JsText.Lower(name));
      PlatformIconSrc(name) == if name != [] && slug != [] then IconDir + (slug + ".svg") else IconDir + DefaultIconFile
  {
    if name != [] {
      MissedIcon(name);
      SlugIcon(IconText.Slug(JsText.Lower(name)), IconDir, ".svg", DefaultIcon);
    }
  }

  /** A name found in no table entry gets the icon for a miss. */
  lemma MissedIcon(name: string)
    requires name != [] && IconText.FirstKeyIn(ListIcons, JsText.Lower(name)).None?
    ensures PlatformIconSrc(name) == IconOf(None, JsText.Lower(name))
  {
  }

  /** The choice made on a miss, with the constant texts left as parameters. */
  lemma SlugIcon(slug: string, dir: string, ext: string, fallback: string)
    ensures (if slug != [] then dir + slug + ext else fallback) == (if slug != [] then dir + (slug + ext) else fallback)
  {
    if slug != [] {
      assert dir + slug + ext == dir + (slug + ext);
    }
  }

  /** The lookup ignores letter case. */
  lemma IconIgnoresCase(name: string)
    ensures PlatformIconSrc(name) == PlatformIconSrc(JsText.Lower(name))
  {
    JsText.LowerIdempotent(name);
  }

  /** The `macos` entry is never the one chosen: every name containing it contains `mac`, listed earlier. */
  lemma MacosNeverChosen(s: string)
    ensures ListIcons[13].0 == "macos"
    ensures IconText.FirstKeyIn(ListIcons, s) != Some(13)
  {
    assert ListIcons[12].0 == "mac" && ListIcons[13].0 == "macos";
    assert JsText.StartsWith("macos", "mac");
    if JsText.Contains(s, "macos") {
      JsText.ContainsPrefix(s, "macos", "mac");
      assert JsText.Contains(s, ListIcons[12].0);
    }
  }

  // ---------------------------------------------------------------- render key

  /** `String(key)`. */
  function KeyText(k: Key): string {
    match k
    case Num(n) => JsText.IntToString(n)
    case Text(s) => s
  }

  /** `game?.id ?? game?.name ?? idx`, as the text React compares keys by. */
  function RenderKey(g: Game, index: nat): (r: string)
    ensures g.id.None? && g.name.None? ==> r == JsText.IntToString(index)
  {
    if g.id.Some? then KeyText(g.id.value)
    else if g.name.Some? then g.name.value
    else JsText.IntToString(index)
  }

  /** Records with pairwise different numeric ids get pairwise different keys. */
  lemma NumericIdKeysDistinct(games: seq<Game>)
    requires forall i :: 0 <= i < |games| ==> games[i].id.Some? && games[i].id.value.Num?
    requires forall i, j :: 0 <= i < j < |games| ==> games[i].id != games[j].id
    ensures forall i, j :: 0 <= i < j < |games| ==> RenderKey(games[i], i) != RenderKey(games[j], j)
  {
    forall i, j | 0 <= i < j < |games|
      ensures RenderKey(games[i], i) != RenderKey(games[j], j)
    {
      if RenderKey(games[i], i) == RenderKey(games[j], j) {
        IntToStringInjective(games[i].id.value.n, games[j].id.value.n);
      }
    }
  }

  /** Records with neither id nor name fall back to their positions, which are distinct. */
  lemma IndexKeysDistinct(games: seq<Game>)
    requires forall i :: 0 <= i < |games| ==> games[i].id.None? && games[i].name.None?
    ensures forall i, j :: 0 <= i < j < |games| ==> RenderKey(games[i], i) != RenderKey(games[j], j)
  {
    forall i, j | 0 <= i < j < |games|
      ensures RenderKey(games[i], i) != RenderKey(games[j], j)
    {
      if RenderKey(games[i], i) == RenderKey(games[j], j) {
        IntToStringInjective(i, j);
      }
    }
  }

  // ---------------------------------------------------------------- card thumbnail

  /** What `rawCandidate` holds: a string, or an object, which is truthy whatever its fields. */
  datatype Raw = RawText(text: string) | RawObject

  /** A candidate under `||`: `None` when falsy. */
  function RawOf(c: Candidate): Option<Raw> {
    match c
    case Missing => None
    case Link(t) => if t == [] then None else Some(RawText(t))
    case ImageRef(_, _, _, _) => Some(RawObject)
  }

  function TextRaw(t: string): Option<Raw> {
    if t == [] then None else Some(RawText(t))
  }

  /** The first truthy operand of an `||` chain ending in `""`. */
  function FirstRaw(rs: seq<Option<Raw>>): (r: Raw)
    ensures (forall i :: 0 <= i < |rs| ==> rs[i].None?) ==> r == RawText([])
    ensures forall i :: 0 <= i < |rs| && rs[i].Some? && (forall j :: 0 <= j < i ==> rs[j].None?) ==> r == rs[i].value
  {
    if rs == [] then RawText([])
    else if rs[0].Some? then rs[0].value
    else FirstRaw(rs[1..])
  }

  /**
   * `background_image`, the first screenshot's `image_id`, `cover.image_id`, `cover.url`,
   * `image_id`, `url`, `thumbnail`.
   */
  function RawCandidates(g: Game): (r: seq<Option<Raw>>)
    ensures |r| == 7
  {
    var shotId := if |g.screenshots| > 0 then RawOf(g.screenshots[0].imageId) else None;
    var coverId := if g.cover.CoverObj? then TextRaw(g.cover.imageId) else None;
    var coverUrl := if g.cover.CoverObj? then TextRaw(g.cover.url) else None;
    [RawOf(g.backgroundImage), shotId, coverId, coverUrl, RawOf(g.imageId), RawOf(g.url), RawOf(g.thumbnail)]
  }

  const Size720: string := "t_720p"

  /**
   * The thumbnail as written: the normalised id, at 720p, when there is one; else the raw
   * text when it is an http(s) URL; else nothing. An object gives nothing, since its text
   * `[object Object]` holds neither a slash nor a bare id.
   */
  function CardThumbAsWritten(raw: Raw): string {
    match raw
    case RawObject => []
    case RawText(s) =>
      var id := NormalizeIgdbId(s);
      if id != [] then IgdbUrl(id, Size720)
      else if JsText.HasHttpScheme(s) then s
      else []
  }

  /**
   * The thumbnail as evidently intended: an http(s) URL outside the IGDB upload path is kept;
   * otherwise only a bare IGDB id is expanded to 720p; failing both, an http(s) URL is kept.
   * The result is empty or an http(s) URL.
   */
  function CardThumb(raw: Raw): (r: string)
    ensures r == [] || JsText.HasHttpScheme(r)
    ensures raw.RawText? && JsText.HasHttpScheme(raw.text) && !IsUploadUrl(raw.text) ==> r == raw.text
  {
    match raw
    case RawObject => []
    case RawText(s) =>
      if JsText.HasHttpScheme(s) && !IsUploadUrl(s) then s
      else
        var id := NormalizeIgdbId(s);
        if JsText.IsWordId(id) then
          IgdbUrlOfId(id, Size720);
          IgdbImage.UploadUrlIsHttp(Size720, id);
          IgdbUrl(id, Size720)
        else if JsText.HasHttpScheme(s) then s
        else []
  }

  /** The URL built from a bare id is an upload URL. */
  lemma IdUrlIsUpload(w: string, size: string)
    requires JsText.IsWordId(w)
    ensures IsUploadUrl(IgdbUrl(w, size))
  {
    IgdbUrlOfId(w, size);
    UploadBaseIsLower();
    LowerPrefixOfIdUrl(IgdbImage.UploadBase, size, w);
    UploadPrefixed(IgdbUrl(w, size));
  }

  lemma LowerPrefixOfIdUrl(p: string, size: string, w: string)
    requires JsText.Lower(p) == p
    ensures StartsWithLower(p + size + "/" + w + ".jpg", p)
  {
    assert (p + size + "/" + w + ".jpg")[..|p|] == p;
  }

  lemma UploadPrefixed(u: string)
    requires StartsWithLower(u, IgdbImage.UploadBase)
    ensures IsUploadUrl(u)
  {
  }

  lemma AsWrittenThumbOfUrl(w: string, size: string)
    requires JsText.IsWordId(w)
    requires forall k :: 0 <= k < |size| ==> IsSegmentChar(size[k])
    ensures CardThumbAsWritten(RawText(IgdbUrl(w, size))) == IgdbUrl(w, Size720)
  {
    NormalizeIgdbUrl(w, size);
  }

  lemma ThumbOfUrl(w: string, size: string)
    requires JsText.IsWordId(w)
    requires forall k :: 0 <= k < |size| ==> IsSegmentChar(size[k])
    ensures CardThumb(RawText(IgdbUrl(w, size))) == IgdbUrl(w, Size720)
  {
    NormalizeIgdbUrl(w, size);
    IdUrlIsUpload(w, size);
  }

  /** An IGDB upload URL of any size is shown at 720p, before and after the correction. */
  lemma IgdbThumbAt720(w: string, size: string)
    requires JsText.IsWordId(w)
    requires forall k :: 0 <= k < |size| ==> IsSegmentChar(size[k])
    ensures CardThumbAsWritten(RawText(IgdbUrl(w, size))) == IgdbUrl(w, Size720)
    ensures CardThumb(RawText(IgdbUrl(w, size))) == IgdbUrl(w, Size720)
  {
    AsWrittenThumbOfUrl(w, size);
    ThumbOfUrl(w, size);
  }

  /** The characters of `https://host/name` around the slash before the name. */
  lemma ForeignUrlChars(host: string, name: string)
    requires forall k :: 0 <= k < |host| ==> IsSegmentChar(host[k])
    requires forall k :: 0 <= k < |name| ==> IsSegmentChar(name[k])
    ensures var u := "https://" + host + "/" + name; var last := 8 + |host|;
      && u[last] == '/'
      && (forall k :: last < k < |u| ==> IsSegmentChar(u[k]))
      && (forall k :: 0 <= k < last ==> u[k] != '?' && u[k] != '#')
  {
    var head := "https://" + host + "/";
    var u := head + name;
    assert u == "https://" + host + "/" + name;
    var last := 8 + |host|;
    forall k | last < k < |u| ensures IsSegmentChar(u[k]) {
      assert u[k] == name[k - last - 1];
    }
    forall k | 0 <= k < last ensures u[k] != '?' && u[k] != '#' {
      if k < 8 { assert u[k] == "https://"[k]; } else { assert u[k] == host[k - 8]; }
    }
  }

  /** `https://host/name` normalises to its last segment when that has no image extension. */
  lemma NormalizeForeignUrl(host: string, name: string)
    requires forall k :: 0 <= k < |host| ==> IsSegmentChar(host[k])
    requires name != [] && forall k :: 0 <= k < |name| ==> IsSegmentChar(name[k])
    requires !JsText.IsSpace(name[|name| - 1])
    requires StripImageExt(name) == name
    ensures NormalizeIgdbId("https://" + host + "/" + name) == name
  {
    var u := "https://" + host + "/" + name;
    var last := 8 + |host|;
    assert u[0] == 'h' && u[|u| - 1] == name[|name| - 1];
    JsText.TrimNoPadding(u);
    ForeignUrlChars(host, name);
    LastSegment(u, last);
    NormalizeAtMatch(u, last);
    assert u[last + 1..|u|] == name;
  }

  lemma AsWrittenForeign(host: string, name: string)
    requires forall k :: 0 <= k < |host| ==> IsSegmentChar(host[k])
    requires name != [] && forall k :: 0 <= k < |name| ==> IsSegmentChar(name[k])
    requires !JsText.IsSpace(name[|name| - 1])
    requires StripImageExt(name) == name && !JsText.IsWordId(name)
    ensures CardThumbAsWritten(RawText("https://" + host + "/" + name)) == name
  {
    NormalizeForeignUrl(host, name);
    if |name| > 6 {
      assert name[6] != '/';
    }
    NotUploadUrl(name);
  }

  lemma CorrectedForeign(host: string, name: string)
    requires !IsUploadUrl("https://" + host + "/" + name)
    ensures CardThumb(RawText("https://" + host + "/" + name)) == "https://" + host + "/" + name
  {
    HttpsOf(host + "/" + name);
    assert "https://" + host + "/" + name == "https://" + (host + "/" + name);
  }

  /**
   * As written, an image URL on another host whose last segment is not a bare id (a dash, a
   * `.webp` extension) loses its host: the card is given the segment alone, a relative path.
   * The corrected thumbnail keeps the URL.
   */
  lemma ThumbDropsHost(host: string, name: string)
    requires forall k :: 0 <= k < |host| ==> IsSegmentChar(host[k])
    requires name != [] && forall k :: 0 <= k < |name| ==> IsSegmentChar(name[k])
    requires !JsText.IsSpace(name[|name| - 1])
    requires StripImageExt(name) == name && !JsText.IsWordId(name)
    requires !IsUploadUrl("https://" + host + "/" + name)
    ensures CardThumbAsWritten(RawText("https://" + host + "/" + name)) == name
    ensures !JsText.HasHttpScheme(name)
    ensures CardThumb(RawText("https://" + host + "/" + name)) == "https://" + host + "/" + name
  {
    AsWrittenForeign(host, name);
    assert '/' !in name;
    JsText.NoSlashNoScheme(name);
    CorrectedForeign(host, name);
  }

  lemma HttpsOf(rest: string)
    ensures JsText.HasHttpScheme("https://" + rest)
  {
    IgdbImage.HttpsPrefixed(rest);
  }

  /** `rawCandidate` of a card, and the thumbnail the model renders. */
  function RawCandidate(g: Game): Raw {
    FirstRaw(RawCandidates(g))
  }

  // ---------------------------------------------------------------- selection

  /** As written: `selectedGame?.id === game?.id`, true for an id-less card when nothing is selected. */
  predicate HighlightedAsWritten(selected: Option<Game>, g: Game) {
    (if selected.Some? then selected.value.id else None) == g.id
  }

  /** With nothing selected, every card without an id is highlighted. */
  lemma NothingSelectedHighlightsIdless(g: Game)
    requires g.id.None?
    ensures HighlightedAsWritten(None, g)
  {
  }

  /** As evidently intended: a card is highlighted when a game with the same present id is selected. */
  predicate Highlighted(selected: Option<Game>, g: Game) {
    selected.Some? && g.id.Some? && selected.value.id == g.id
  }

  /** With pairwise different ids, at most one card is highlighted, and none when nothing is selected. */
  lemma AtMostOneHighlighted(games: seq<Game>, selected: Option<Game>)
    requires forall i, j :: 0 <= i < j < |games| && games[i].id.Some? ==> games[i].id != games[j].id
    ensures forall i, j :: 0 <= i < j < |games| ==> !(Highlighted(selected, games[i]) && Highlighted(selected, games[j]))
    ensures selected.None? ==> forall i :: 0 <= i < |games| ==> !Highlighted(selected, games[i])
  {
  }

  // ---------------------------------------------------------------- the grids

  datatype Picture = Thumbnail(url: string) | Placeholder

  datatype Icon = Icon(title: string, src: string)

  datatype Card = Card(key: string, highlighted: bool, picture: Picture, date: Stamp, icons: seq<Icon>)

  datatype Grid = NoGamesFound | Cards(cards: seq<Card>)

  /**
   * Which thumbnail and highlight rules a grid uses: the components' own (`AsWritten`), or the
   * evidently intended ones (`Corrected`) that keep foreign URLs and highlight by present id.
   */
  datatype Build = AsWritten | Corrected

  function Thumb(build: Build, raw: Raw): string {
    if build.AsWritten? then CardThumbAsWritten(raw) else CardThumb(raw)
  }

  predicate Selected(build: Build, selected: Option<Game>, g: Game) {
    if build.AsWritten? then HighlightedAsWritten(selected, g) else Highlighted(selected, g)
  }

  /** `thumb || PLACEHOLDER`. */
  function PictureOf(build: Build, g: Game): (r: Picture)
    ensures r.Thumbnail? <==> Thumb(build, RawCandidate(g)) != []
    ensures r.Thumbnail? ==> r.url == Thumb(build, RawCandidate(g))
  {
    var thumb := Thumb(build, RawCandidate(g));
    if thumb == [] then Placeholder else Thumbnail(thumb)
  }

  /** One icon per platform name, titled by the name. */
  function IconsFor(names: seq<string>): (r: seq<Icon>)
    ensures |r| == |names|
    ensures forall i :: 0 <= i < |r| ==> r[i] == Icon(names[i], PlatformIconSrc(names[i]))
  {
    seq(|names|, i requires 0 <= i < |names| => Icon(names[i], PlatformIconSrc(names[i])))
  }

  function CardFor(build: Build, g: Game, index: nat, selected: Option<Game>, icons: seq<Icon>): Card {
    Card(RenderKey(g, index), Selected(build, selected, g), PictureOf(build, g), ReleaseStamp(g), icons)
  }

  /** `GameGrid`'s pills: the first three platforms, or one "Unknown" pill with the default icon. */
  function GridPills(names: seq<string>): seq<Icon> {
    if names == [] then [Icon("Unknown", DefaultIcon)] else IconsFor(Take(names, 3))
  }

  /** `GameGrid` (`GameList.js`): `games` is `None` when it is not an array. */
  function GameGrid(build: Build, games: Option<seq<Game>>, selected: Option<Game>): Grid {
    if games.None? || games.value == [] then NoGamesFound
    else
      var gs := games.value;
      Cards(seq(|gs|, i requires 0 <= i < |gs| =>
        CardFor(build, gs[i], i, selected, GridPills(Platforms.ExtractNames(Some(gs[i]))))))
  }

  /** `GameList` (`GameList.jsx`): the filtered games, each with at most four platform icons. */
  function GameListView(build: Build, games: seq<Game>, f: Filters.FilterState, selected: Option<Game>): Grid {
    var shown := Filters.FilteredGames(games, f);
    if shown == [] then NoGamesFound
    else
      Cards(seq(|shown|, i requires 0 <= i < |shown| =>
        CardFor(build, shown[i], i, selected, IconsFor(Take(Platforms.ExtractNames(Some(shown[i])), 4)))))
  }

  /**
   * The grid says "No games found" exactly when there is no array or it is empty; otherwise
   * it has one card per game, keyed `id ?? name ?? position`, with one to three pills: the
   * first three platform names, or a single "Unknown" pill.
   */
  lemma GameGridSpec(build: Build, games: Option<seq<Game>>, selected: Option<Game>)
    ensures GameGrid(build, games, selected) == NoGamesFound <==> games.None? || games.value == []
    ensures GameGrid(build, games, selected).Cards? ==>
      var gs := games.value; var cards := GameGrid(build, games, selected).cards;
      && |cards| == |gs|
      && forall i :: 0 <= i < |gs| ==>
        var names := Platforms.ExtractNames(Some(gs[i]));
        && cards[i].key == RenderKey(gs[i], i)
        && 1 <= |cards[i].icons| <= 3
        && (names != [] ==> forall k :: 0 <= k < |cards[i].icons| ==> cards[i].icons[k].title == names[k])
        && (names == [] ==> cards[i].icons == [Icon("Unknown", DefaultIcon)])
  {
  }

  /**
   * The list says "No games found" exactly when the filters leave nothing; otherwise it has
   * one card per filtered game, in the filtered order, with at most four icons taken from the
   * front of the platform names.
   */
  lemma GameListViewSpec(build: Build, games: seq<Game>, f: Filters.FilterState, selected: Option<Game>)
    ensures GameListView(build, games, f, selected) == NoGamesFound <==> Filters.FilteredGames(games, f) == []
    ensures GameListView(build, games, f, selected).Cards? ==>
      var shown := Filters.FilteredGames(games, f); var cards := GameListView(build, games, f, selected).cards;
      && |cards| == |shown|
      && forall i :: 0 <= i < |shown| ==>
        var names := Platforms.ExtractNames(Some(shown[i]));
        && cards[i].key == RenderKey(shown[i], i)
        && |cards[i].icons| <= 4 && |cards[i].icons| <= |names|
        && forall k :: 0 <= k < |cards[i].icons| ==> cards[i].icons[k].title == names[k]
  {
  }

  /** As written, with nothing selected, the grid highlights every card of a game without an id. */
  lemma GridHighlightsIdless(gs: seq<Game>, i: nat)
    requires i < |gs| && gs[i].id.None?
    ensures GameGrid(AsWritten, Some(gs), None).cards[i].highlighted
  {
  }

  /** Corrected, with nothing selected, no card is highlighted. */
  lemma CorrectedGridHighlightsNothing(gs: Option<seq<Game>>)
    requires GameGrid(Corrected, gs, None).Cards?
    ensures forall i :: 0 <= i < |GameGrid(Corrected, gs, None).cards| ==> !GameGrid(Corrected, gs, None).cards[i].highlighted
  {
  }

  /**
   * As written, the list card of a game whose first image candidate is an image URL on another
   * host, with a last segment that is not a bare id, shows that segment alone, a relative path;
   * corrected, it shows the URL.
   */
  lemma ListDropsHost(games: seq<Game>, f: Filters.FilterState, i: nat, host: string, name: string)
    requires i < |Filters.FilteredGames(games, f)|
    requires RawCandidate(Filters.FilteredGames(games, f)[i]) == RawText("https://" + host + "/" + name)
    requires forall k :: 0 <= k < |host| ==> IsSegmentChar(host[k])
    requires name != [] && forall k :: 0 <= k < |name| ==> IsSegmentChar(name[k])
    requires !JsText.IsSpace(name[|name| - 1])
    requires StripImageExt(name) == name && !JsText.IsWordId(name)
    requires !IsUploadUrl("https://" + host + "/" + name)
    ensures GameListView(AsWritten, games, f, None).cards[i].picture == Thumbnail(name)
    ensures GameListView(Corrected, games, f, None).cards[i].picture == Thumbnail("https://" + host + "/" + name)
  {
    ThumbDropsHost(host, name);
  }
}

=== FILE: gamespage.dfy ===
/**
 * The "All Games" page: unwrap the response body, keep the first record of each
 * `id ?? _id` key, and apply the result only if the page is still mounted.
 */
module GamesPage {
  import opened Wrappers
  import opened GameModel
  import FirstSeen

  /** A parsed response body: a bare array, or an envelope exposing `games` and/or `results`. */
  datatype Payload = List(items: seq<Game>) | Envelope(games: Option<seq<Game>>, results: Option<seq<Game>>)

  /** `Array.isArray(data) ? data : (data.games || data.results || [])`; an array is truthy even when empty. */
  function Unwrap(p: Payload): (r: seq<Game>)
    ensures p.List? ==> r == p.items
    ensures p.Envelope? && p.games.Some? ==> r == p.games.value
    ensures p.Envelope? && p.games.None? ==> r == p.results.GetOr([])
  {
    match p
    case List(items) => items
    case Envelope(games, results) => if games.Some? then games.value else results.GetOr([])
  }

  /** `id ?? _id`, kept only when truthy: absent, `0` and `""` give no key. */
  function IdentityKey(g: Game): (k: Option<Key>)
    ensures k.Some? ==> KeyTruthy(k)
    ensures k.Some? ==> k == (if g.id.Some? then g.id else g.altId)
    ensures KeyTruthy(if g.id.Some? then g.id else g.altId) ==> k.Some?
  {
    var k := if g.id.Some? then g.id else g.altId;
    if KeyTruthy(k) then k else None
  }

  /** The records kept from a response body. */
  function UniqueGames(p: Payload): (r: seq<Game>)
    ensures |r| <= |Unwrap(p)|
  {
    FirstSeen.Dedup(Unwrap(p), IdentityKey)
  }

  /** What the page keeps, stated against the input: a subsequence of it, with pairwise distinct truthy keys,
      in which every truthy key of the input occurs, each time from that key's first record. */
  lemma UniqueGamesSpec(p: Payload)
    ensures FirstSeen.IsSubsequence(UniqueGames(p), Unwrap(p))
    ensures var r := UniqueGames(p);
      forall a :: 0 <= a < |r| ==> KeyTruthy(IdentityKey(r[a]))
    ensures var r := UniqueGames(p);
      forall a, b :: 0 <= a < b < |r| ==> IdentityKey(r[a]) != IdentityKey(r[b])
    ensures FirstSeen.KeysOf(UniqueGames(p), IdentityKey) == FirstSeen.KeysOf(Unwrap(p), IdentityKey)
    ensures var r := UniqueGames(p); var xs := Unwrap(p);
      forall a :: 0 <= a < |r| ==> exists i :: 0 <= i < |xs| && FirstSeen.FirstOfKey(xs, IdentityKey, i) && r[a] == xs[i]
  {
    var xs := Unwrap(p);
    FirstSeen.DedupIsSubsequence(xs, IdentityKey);
    FirstSeen.DedupKeys(xs, IdentityKey);
    FirstSeen.DedupDistinctKeys(xs, IdentityKey);
    var r := UniqueGames(p);
    forall a | 0 <= a < |r|
      ensures exists i :: 0 <= i < |xs| && FirstSeen.FirstOfKey(xs, IdentityKey, i) && r[a] == xs[i]
    {
      FirstSeen.DedupKeepsFirsts(xs, IdentityKey, a);
    }
  }

  /** Applying the deduplication to its own output changes nothing. */
  lemma UniqueGamesIdempotent(p: Payload)
    ensures UniqueGames(List(UniqueGames(p))) == UniqueGames(p)
  {
    FirstSeen.DedupIdempotent(Unwrap(p), IdentityKey);
  }

  /** A record with `id: 0` is dropped even when its `_id` is truthy, since `0 ?? _id` is `0`. */
  lemma ZeroIdDropped(g: Game)
    requires g.id == Some(Num(0)) && KeyTruthy(g.altId)
    ensures UniqueGames(List([g])) == []
  {
    assert !FirstSeen.FirstOfKey([g], IdentityKey, 0);
  }

  // ---------------------------------------------------------------- the page's state

  datatype PageState = PageState(games: seq<Game>, loading: bool)

  /** The request's end: a parsed body, or any thrown error. */
  datatype Response = Loaded(body: Payload) | Errored

  /** What the effect does when its request settles; `cancelled` is the unmount flag. */
  function Settle(s: PageState, cancelled: bool, resp: Response): (t: PageState)
    ensures cancelled ==> t == s
    ensures !cancelled ==> !t.loading
    ensures !cancelled && resp.Loaded? ==> t.games == UniqueGames(resp.body)
    ensures !cancelled && resp.Errored? ==> t.games == s.games
  {
    if cancelled then s
    else match resp
      case Loaded(body) => PageState(UniqueGames(body), false)
      case Errored => s.(loading := false)
  }
}

=== FILE: icontext.dfy ===
/**
 * Text helpers shared by the platform-icon resolvers: replacing runs of characters by a single
 * dash, the two slug rules built from it, and the "first key in declared order that the name
 * contains" lookup over an icon table.
 */
module IconText {
  import opened Wrappers
  import JsText

  /** `[a-z0-9]`. */
  predicate IsSlugChar(c: char) { JsText.IsLowerAscii(c) || JsText.IsDigit(c) }

  /** `[a-z0-9._-]`. */
  predicate IsFileChar(c: char) { IsSlugChar(c) || c == '.' || c == '_' || c == '-' }

  predicate NotSlugChar(c: char) { !IsSlugChar(c) }

  predicate NotFileChar(c: char) { !IsFileChar(c) }

  predicate IsDash(c: char) { c == '-' }

  /** No two dashes side by side. */
  predicate NoDoubleDash(s: string) { forall i :: 0 <= i < |s| - 1 ==> !(s[i] == '-' && s[i + 1] == '-') }

  predicate NoEdgeDash(s: string) { s == [] || (s[0] != '-' && s[|s| - 1] != '-') }

  // ---------------------------------------------------------------- runs

  /**
   * `s.replace(/[member]+/g, "-")`: each maximal run of `member` characters becomes one dash;
   * `inRun` says the character before `s` was already part of a run.
   */
  function ReplaceRuns(s: string, inRun: bool, member: char -> bool): (r: string)
    ensures forall i :: 0 <= i < |r| ==> r[i] == '-' || (!member(r[i]) && r[i] in s)
    ensures s != [] && !member(s[0]) ==> r != [] && r[0] == s[0]
    ensures s != [] && !member(s[|s| - 1]) ==> r != [] && r[|r| - 1] == s[|s| - 1]
    ensures inRun && member('-') ==> r == [] || r[0] != '-'
    ensures member('-') ==> NoDoubleDash(r)
  {
    if s == [] then []
    else if !member(s[0]) then [s[0]] + ReplaceRuns(s[1..], false, member)
    else (if inRun then [] else "-") + ReplaceRuns(s[1..], true, member)
  }

  /** A run boundary makes no difference in front of a character outside the runs. */
  lemma ReplaceRunsAfterRun(s: string, member: char -> bool)
    requires s == [] || !member(s[0])
    ensures ReplaceRuns(s, true, member) == ReplaceRuns(s, false, member)
  {
  }

  /** A string with no run characters is left as it is. */
  lemma {:induction false} ReplaceRunsNone(s: string, inRun: bool, member: char -> bool)
    requires forall i :: 0 <= i < |s| ==> !member(s[i])
    ensures ReplaceRuns(s, inRun, member) == s
  {
    if s != [] {
      ReplaceRunsNone(s[1..], false, member);
    }
  }

  /** Collapsing dashes leaves a string without a double dash as it is. */
  lemma {:induction false} CollapseDashesNone(s: string, inRun: bool)
    requires NoDoubleDash(s)
    requires inRun ==> s == [] || s[0] != '-'
    ensures ReplaceRuns(s, inRun, IsDash) == s
  {
    if s != [] {
      CollapseDashesNone(s[1..], s[0] == '-');
    }
  }

  // ---------------------------------------------------------------- the slug of GameList and Carousel

  /** `.replace(/(^-|-$)/g, "")`: one dash off each end. */
  function StripOneDash(s: string): (r: string)
    ensures |r| <= |s|
  {
    DropTrailingDash(DropLeadingDash(s))
  }

  /** The `^-` alternative: one leading dash goes. */
  function DropLeadingDash(s: string): (r: string)
    ensures r == s || (s == "-" + r)
  {
    if s != [] && s[0] == '-' then s[1..] else s
  }

  /** The `-$` alternative: one trailing dash goes. */
  function DropTrailingDash(s: string): (r: string)
    ensures r == s || (s == r + "-")
  {
    if s != [] && s[|s| - 1] == '-' then s[..|s| - 1] else s
  }

  /** `lower.replace(/[^a-z0-9]+/g, "-").replace(/(^-|-$)/g, "")`. */
  function Slug(lower: string): (r: string)
  {
    StripOneDash(ReplaceRuns(lower, false, NotSlugChar))
  }

  /** A slug holds only `[a-z0-9-]`, never two dashes together, and no dash at either end. */
  lemma SlugSpec(lower: string)
    ensures forall i :: 0 <= i < |Slug(lower)| ==> IsSlugChar(Slug(lower)[i]) || Slug(lower)[i] == '-'
    ensures NoDoubleDash(Slug(lower))
    ensures NoEdgeDash(Slug(lower))
  {
    StripOneDashSpec(ReplaceRuns(lower, false, NotSlugChar));
  }

  /** Over `[a-z0-9-]` text with no double dash, taking one dash off each end leaves no edge dash. */
  lemma StripOneDashSpec(s: string)
    requires forall i :: 0 <= i < |s| ==> IsSlugChar(s[i]) || s[i] == '-'
    requires NoDoubleDash(s)
    ensures var r := StripOneDash(s);
      && (forall i :: 0 <= i < |r| ==> IsSlugChar(r[i]) || r[i] == '-')
      && NoDoubleDash(r)
      && NoEdgeDash(r)
  {
    LeadingDashDropped(s);
    TrailingDashDropped(DropLeadingDash(s));
  }

  lemma LeadingDashDropped(s: string)
    requires forall i :: 0 <= i < |s| ==> IsSlugChar(s[i]) || s[i] == '-'
    requires NoDoubleDash(s)
    ensures var t := DropLeadingDash(s);
      && (forall i :: 0 <= i < |t| ==> IsSlugChar(t[i]) || t[i] == '-')
      && NoDoubleDash(t)
      && (t == [] || t[0] != '-')
  {
    var t := DropLeadingDash(s);
    assert forall i :: 0 <= i < |t| ==> t[i] == s[i + |s| - |t|];
  }

  lemma TrailingDashDropped(t: string)
    requires forall i :: 0 <= i < |t| ==> IsSlugChar(t[i]) || t[i] == '-'
    requires NoDoubleDash(t)
    requires t == [] || t[0] != '-'
    ensures var r := DropTrailingDash(t);
      && (forall i :: 0 <= i < |r| ==> IsSlugChar(r[i]) || r[i] == '-')
      && NoDoubleDash(r)
      && NoEdgeDash(r)
  {
    var r := DropTrailingDash(t);
    assert forall i :: 0 <= i < |r| ==> r[i] == t[i];
  }

  /** Slugging a slug changes nothing. */
  lemma SlugIdempotent(lower: string)
    ensures Slug(Slug(lower)) == Slug(lower)
  {
    var r := Slug(lower);
    SlugSpec(lower);
    ReplaceRunsOnDashed(r, false);
  }

  /** Over `[a-z0-9-]` text with no double dash, replacing non-slug runs by a dash is the identity. */
  lemma {:induction false} ReplaceRunsOnDashed(s: string, inRun: bool)
    requires forall i :: 0 <= i < |s| ==> IsSlugChar(s[i]) || s[i] == '-'
    requires NoDoubleDash(s)
    requires inRun ==> s == [] || s[0] != '-'
    ensures ReplaceRuns(s, inRun, NotSlugChar) == s
  {
    if s != [] {
      ReplaceRunsOnDashed(s[1..], s[0] == '-');
    }
  }

  // ---------------------------------------------------------------- sanitize of platformIcons

  /** `.replace(/^-+|-+$/g, "")`: every dash off each end. */
  function TrimDashes(s: string): (r: string)
    ensures NoEdgeDash(r)
    ensures forall i :: 0 <= i < |r| ==> r[i] in s
    decreases |s|
  {
    if s != [] && s[0] == '-' then TrimDashes(s[1..])
    else if s != [] && s[|s| - 1] == '-' then TrimDashes(s[..|s| - 1])
    else s
  }

  /**
   * `sanitize(name)`: lowercase; runs outside `[a-z0-9._-]` become a dash; dashes trimmed off
   * the ends; runs of dashes collapsed.
   */
  function Sanitize(name: string): (r: string)
  {
    var replaced := ReplaceRuns(JsText.Lower(name), false, NotFileChar);
    ReplaceRuns(TrimDashes(replaced), false, IsDash)
  }

  /** The output uses only `[a-z0-9._-]`, has no dash at either end, and no two dashes together. */
  lemma SanitizeSpec(name: string)
    ensures forall i :: 0 <= i < |Sanitize(name)| ==> IsFileChar(Sanitize(name)[i])
    ensures NoEdgeDash(Sanitize(name))
    ensures NoDoubleDash(Sanitize(name))
  {
    var lowered := JsText.Lower(name);
    var replaced := ReplaceRuns(lowered, false, NotFileChar);
    var trimmed := TrimDashes(replaced);
    var r := ReplaceRuns(trimmed, false, IsDash);
    assert forall i :: 0 <= i < |replaced| ==> IsFileChar(replaced[i]);
    assert forall i :: 0 <= i < |trimmed| ==> trimmed[i] in replaced;
    assert forall i :: 0 <= i < |trimmed| ==> IsFileChar(trimmed[i]);
    assert forall i :: 0 <= i < |r| ==> r[i] == '-' || r[i] in trimmed;
  }

  /** Sanitizing a sanitized name changes nothing. */
  lemma SanitizeIdempotent(name: string)
    ensures Sanitize(Sanitize(name)) == Sanitize(name)
  {
    SanitizeSpec(name);
    SanitizeFixed(Sanitize(name));
  }

  /** A name already in sanitized form is its own sanitization. */
  lemma SanitizeFixed(s: string)
    requires forall i :: 0 <= i < |s| ==> IsFileChar(s[i])
    requires NoEdgeDash(s) && NoDoubleDash(s)
    ensures Sanitize(s) == s
  {
    assert forall i :: 0 <= i < |s| ==> !JsText.IsUpperAscii(s[i]);
    LowerOfLower(s);
    ReplaceRunsNone(s, false, NotFileChar);
    TrimDashesNone(s);
    CollapseDashesNone(s, false);
  }

  lemma TrimDashesNone(s: string)
    requires NoEdgeDash(s)
    ensures TrimDashes(s) == s
  {
  }

  lemma {:induction false} LowerOfLower(s: string)
    requires forall i :: 0 <= i < |s| ==> !JsText.IsUpperAscii(s[i])
    ensures JsText.Lower(s) == s
  {
  }

  // ---------------------------------------------------------------- icon tables

  /** An icon table in declared order: a lowercase key and the file it names. */
  type IconTable = seq<(string, string)>

  /** The first entry, in declared order, whose key the text contains. */
  function FirstKeyIn(table: IconTable, s: string): (r: Option<nat>)
    ensures r.Some? ==> r.value < |table| && JsText.Contains(s, table[r.value].0)
    ensures r.Some? ==> forall j :: 0 <= j < r.value ==> !JsText.Contains(s, table[j].0)
    ensures r.None? ==> forall j :: 0 <= j < |table| ==> !JsText.Contains(s, table[j].0)
  {
    if table == [] then None
    else if JsText.Contains(s, table[0].0) then Some(0)
    else match FirstKeyIn(table[1..], s)
      case None => None
      case Some(k) => Some(k + 1)
  }

  /** The first contained key is unique: any index meeting its two conditions is the one found. */
  lemma FirstKeyInUnique(table: IconTable, s: string, k: nat)
    requires k < |table| && JsText.Contains(s, table[k].0)
    requires forall j :: 0 <= j < k ==> !JsText.Contains(s, table[j].0)
    ensures FirstKeyIn(table, s) == Some(k)
  {
  }
}

=== FILE: igdb.dfy ===
/**
 * IGDB image URLs: swapping the size segment of an image URL, building an upload URL from a
 * bare image id, normalising size names, picking an image for a game record, and the
 * responsive `srcset` the carousel builds from it.
 */
module IgdbImage {
  import opened Wrappers
  import opened GameModel
  import JsText

  /** Host and path of IGDB's upload directory. */
  const UploadPath: string := "images.igdb.com/igdb/image/upload/"
  const UploadBase: string := "https://" + UploadPath
  const DefaultSize: string := "t_cover_big"
  const HighRes: string := "t_1080p"
  const Thumb: string := "t_thumb"

  // ---------------------------------------------------------------- getHighResImage

  /** `/t_[^/]+/i` matches at `i`: a `t` of either case, `_`, then at least one character other than `/`. */
  predicate TokenAt(s: string, i: int) {
    0 <= i && i + 2 < |s| && JsText.LowerChar(s[i]) == 't' && s[i + 1] == '_' && s[i + 2] != '/'
  }

  /** The leftmost match at or after `from`. */
  function FindToken(s: string, from: nat): (r: Option<nat>)
    ensures r.Some? ==> from <= r.value && TokenAt(s, r.value)
    ensures r.Some? ==> forall k :: from <= k < r.value ==> !TokenAt(s, k)
    ensures r.None? ==> forall k :: from <= k ==> !TokenAt(s, k)
    decreases |s| - from
  {
    if from + 2 >= |s| then None
    else if TokenAt(s, from) then Some(from)
    else FindToken(s, from + 1)
  }

  /** Where the greedy `[^/]+` starting at `j` stops: the next `/`, or the end. */
  function RunEnd(s: string, j: nat): (e: nat)
    requires j <= |s|
    ensures j <= e <= |s|
    ensures e == |s| || s[e] == '/'
    ensures forall k :: j <= k < e ==> s[k] != '/'
    decreases |s| - j
  {
    if j == |s| || s[j] == '/' then j else RunEnd(s, j + 1)
  }

  lemma RunEndUnique(s: string, j: nat, e: nat)
    requires j <= e <= |s|
    requires e == |s| || s[e] == '/'
    requires forall k :: j <= k < e ==> s[k] != '/'
    ensures RunEnd(s, j) == e
  {
  }

  /**
   * `getHighResImage(url, size)`: the first size segment of the URL becomes `size`, with the
   * `$` patterns of `size` expanded against that segment.
   */
  function GetHighResImage(url: string, size: string): (r: string)
    ensures url == [] ==> r == []
  {
    if url == [] then []
    else match FindToken(url, 0)
      case None => url
      case Some(i) =>
        var e := RunEnd(url, i + 2);
        url[..i] + JsText.Substitute(size, url[i..e], url[..i], url[e..]) + url[e..]
  }

  /** A URL with no size segment comes back unchanged. */
  lemma HighResWithoutToken(url: string, size: string)
    requires forall k :: !TokenAt(url, k)
    ensures GetHighResImage(url, size) == url
  {
  }

  /**
   * Only the leftmost segment is replaced, and all of it: the text before it is kept, the
   * replaced run holds no `/`, and what follows is kept from the next `/` on.
   */
  lemma HighResReplacesFirstToken(url: string, size: string, i: nat)
    requires TokenAt(url, i) && forall k :: 0 <= k < i ==> !TokenAt(url, k)
    ensures exists e ::
      && i + 3 <= e <= |url| && (e == |url| || url[e] == '/')
      && (forall k :: i <= k < e ==> url[k] != '/')
      && GetHighResImage(url, size) == url[..i] + JsText.Substitute(size, url[i..e], url[..i], url[e..]) + url[e..]
  {
    var e := RunEnd(url, i + 2);
    assert FindToken(url, 0) == Some(i);
    assert i + 3 <= e by { assert url[i + 2] != '/'; }
    assert GetHighResImage(url, size) == url[..i] + JsText.Substitute(size, url[i..e], url[..i], url[e..]) + url[e..];
  }

  /** A size token proper: `t_` (either case) and at least one more character, none of them `/`. */
  predicate IsSizeToken(size: string) {
    |size| >= 3 && JsText.LowerChar(size[0]) == 't' && size[1] == '_' && forall k :: 0 <= k < |size| ==> size[k] != '/'
  }

  /** Raising the resolution twice with the same `$`-free token is raising it once. */
  lemma HighResIdempotent(url: string, size: string)
    requires IsSizeToken(size)
    ensures '$' !in size ==> GetHighResImage(GetHighResImage(url, size), size) == GetHighResImage(url, size)
  {
    if '$' !in size && url != [] && FindToken(url, 0).Some? {
      var i := FindToken(url, 0).value;
      var e := RunEnd(url, i + 2);
      var r := url[..i] + size + url[e..];
      HighResLiteral(url, size, i, e);
      SpliceFirstToken(url, size, i, e);
      SpliceRunEnd(url, size, i, e);
      HighResLiteral(r, size, i, i + |size|);
      assert r[..i] == url[..i];
      assert r[i + |size|..] == url[e..];
    }
  }

  /** A `$`-free size is written in as it is in place of the first segment. */
  lemma HighResLiteral(url: string, size: string, i: nat, e: nat)
    requires '$' !in size && url != [] && FindToken(url, 0) == Some(i) && e == RunEnd(url, i + 2)
    ensures GetHighResImage(url, size) == url[..i] + size + url[e..]
  {
  }

  /**
   * A token with `$&` puts the old segment back after itself, so a second pass grows the URL
   * again: `t_$&` is a size token for which raising the resolution is not idempotent.
   */
  lemma HighResMatchPatternGrows()
    ensures IsSizeToken("t_$&")
    ensures GetHighResImage("t_x", "t_$&") == "t_t_x"
    ensures GetHighResImage("t_t_x", "t_$&") == "t_t_t_x"
  {
    MatchPatternIsSizeToken();
    MatchPatternOnce();
    MatchPatternTwice();
  }

  lemma MatchPatternIsSizeToken()
    ensures IsSizeToken("t_$&")
  {
    var tok := "t_$&";
    assert |tok| == 4 && tok[0] == 't' && tok[1] == '_' && tok[2] == '$' && tok[3] == '&';
  }

  lemma MatchPatternOnce()
    ensures GetHighResImage("t_x", "t_$&") == "t_t_x"
  {
    var u := "t_x";
    assert TokenAt(u, 0);
    WholeSegmentMatchPattern(u);
  }

  lemma MatchPatternTwice()
    ensures GetHighResImage("t_t_x", "t_$&") == "t_t_t_x"
  {
    var u := "t_t_x";
    assert TokenAt(u, 0);
    WholeSegmentMatchPattern(u);
  }

  /** A URL that is one size segment, raised with `t_$&`, gets `t_` in front. */
  lemma WholeSegmentMatchPattern(u: string)
    requires TokenAt(u, 0) && forall k :: 0 <= k < |u| ==> u[k] != '/'
    ensures GetHighResImage(u, "t_$&") == "t_" + u
  {
    HighResAt(u, "t_$&", 0, |u|);
    MatchPatternToken(u, [], []);
    assert u[..0] == [] && u[0..|u|] == u && u[|u|..] == [];
  }

  /** `t_$&` expands to `t_` followed by the match. */
  lemma MatchPatternToken(matched: string, before: string, after: string)
    ensures JsText.Substitute("t_$&", matched, before, after) == "t_" + matched
  {
    var tok := "t_$&";
    assert tok[1..] == "_$&" && tok[1..][1..] == "$&";
    JsText.SubstituteMatch(matched, before, after);
  }

  /** The first segment of a concrete URL, found by its bounds. */
  lemma HighResAt(url: string, size: string, i: nat, e: nat)
    requires TokenAt(url, i) && forall k :: 0 <= k < i ==> !TokenAt(url, k)
    requires i + 2 <= e <= |url| && (e == |url| || url[e] == '/') && forall k :: i + 2 <= k < e ==> url[k] != '/'
    ensures GetHighResImage(url, size) == url[..i] + JsText.Substitute(size, url[i..e], url[..i], url[e..]) + url[e..]
  {
    assert FindToken(url, 0) == Some(i);
    RunEndUnique(url, i + 2, e);
  }

  /** After the splice, the token written in is the leftmost one. */
  lemma SpliceFirstToken(url: string, size: string, i: nat, e: nat)
    requires IsSizeToken(size) && TokenAt(url, i) && forall k :: 0 <= k < i ==> !TokenAt(url, k)
    requires i + 2 <= e <= |url|
    ensures FindToken(url[..i] + size + url[e..], 0) == Some(i)
  {
    var r := url[..i] + size + url[e..];
    assert r[i..i + |size|] == size;
    assert TokenAt(r, i);
    assert size[0] != '_' && size[0] != '/';
    assert url[i] != '/' by { assert JsText.LowerChar(url[i]) == 't'; }
    forall k | 0 <= k < i
      ensures !TokenAt(r, k)
    {
      assert !TokenAt(url, k);
      if k + 2 < i {
        assert r[k] == url[k] && r[k + 1] == url[k + 1] && r[k + 2] == url[k + 2];
      } else if k + 1 == i {
        assert r[k + 1] == size[0];
      } else {
        assert r[k] == url[k] && r[k + 1] == url[k + 1] && r[k + 2] == size[0];
      }
    }
  }

  /** After the splice, the run after the token is the written-in token's tail. */
  lemma SpliceRunEnd(url: string, size: string, i: nat, e: nat)
    requires IsSizeToken(size) && i + 2 <= e <= |url| && (e == |url| || url[e] == '/')
    ensures RunEnd(url[..i] + size + url[e..], i + 2) == i + |size|
  {
    var r := url[..i] + size + url[e..];
    forall k | i + 2 <= k < i + |size|
      ensures r[k] != '/'
    {
      assert r[k] == size[k - i];
    }
    assert i + |size| == |r| || r[i + |size|] == '/' by {
      if e < |url| {
        assert r[i + |size|] == url[e];
      }
    }
    RunEndUnique(r, i + 2, i + |size|);
  }

  // ---------------------------------------------------------------- buildFromId

  /** `buildFromId(id, sizeToken)`. */
  function BuildFromId(id: string, sizeToken: string): (r: string)
    ensures id == [] <==> r == []
    ensures JsText.HasHttpScheme(id) ==> r == id
  {
    if id == [] then []
    else if JsText.HasHttpScheme(id) then id
    else if JsText.StartsWith(id, "//") then "https:" + id
    else if JsText.IsWordId(id) then UploadBase + sizeToken + "/" + id + ".jpg"
    else id
  }

  lemma HttpsPrefixed(rest: string)
    ensures JsText.HasHttpScheme("https://" + rest)
  {
    var s := "https://" + rest;
    assert s[..8] == "https://";
    assert JsText.Lower("https://") == "https://";
  }

  lemma UploadUrlIsHttp(sizeToken: string, id: string)
    ensures JsText.HasHttpScheme(UploadBase + sizeToken + "/" + id + ".jpg")
  {
    var rest := UploadPath + sizeToken + "/" + id + ".jpg";
    assert UploadBase + sizeToken + "/" + id + ".jpg" == "https://" + rest;
    HttpsPrefixed(rest);
  }

  /** Every id that is expanded at all comes out as an http(s) URL, so expanding again changes nothing. */
  lemma BuildFromIdIdempotent(id: string, sizeToken: string)
    ensures BuildFromId(BuildFromId(id, sizeToken), sizeToken) == BuildFromId(id, sizeToken)
  {
    if id != [] && !JsText.HasHttpScheme(id) {
      if JsText.StartsWith(id, "//") {
        assert "https:" + id == "https://" + id[2..];
        HttpsPrefixed(id[2..]);
      } else if JsText.IsWordId(id) {
        UploadUrlIsHttp(sizeToken, id);
      }
    }
  }

  /** The id an upload URL of this size names, when it is one. */
  function UploadId(url: string, sizeToken: string): (r: Option<string>)
    ensures r.Some? ==> url == UploadBase + sizeToken + "/" + r.value + ".jpg"
  {
    var prefix := UploadBase + sizeToken + "/";
    if |prefix| + 4 <= |url| && JsText.StartsWith(url, prefix) && JsText.EndsWith(url, ".jpg") then
      var id := url[|prefix|..|url| - 4];
      assert url == url[..|prefix|] + id + url[|url| - 4..];
      Some(id)
    else None
  }

  /** A bare image id is recovered from the URL built for it. */
  lemma UploadIdRoundTrip(id: string, sizeToken: string)
    requires JsText.IsWordId(id)
    ensures UploadId(BuildFromId(id, sizeToken), sizeToken) == Some(id)
  {
    assert !JsText.HasHttpScheme(id) by {
      if |id| >= 7 {
        assert JsText.Lower(id[..7])[4] == JsText.LowerChar(id[4]);
        assert JsText.IsWordChar(id[4]);
      }
      if |id| >= 8 {
        assert JsText.Lower(id[..8])[5] == JsText.LowerChar(id[5]);
        assert JsText.IsWordChar(id[5]);
      }
    }
    assert !JsText.StartsWith(id, "//") by {
      if |id| >= 2 { assert id[..2][0] == id[0]; }
    }
    var prefix := UploadBase + sizeToken + "/";
    var url := prefix + id + ".jpg";
    assert url[..|prefix|] == prefix;
    assert url[|url| - 4..] == ".jpg";
    assert url[|prefix|..|url| - 4] == id;
  }

  // ---------------------------------------------------------------- normalizeSize

  /** `normalizeSize(size)`: a size token from a friendly name or a token. */
  function NormalizeSize(size: string): (r: string)
    ensures JsText.StartsWithIgnoringCase(r, "t_")
    ensures size != [] && !JsText.StartsWithIgnoringCase(size, "t_") ==> r == "t_" + size
  {
    assert JsText.Lower("t_") == "t_";
    assert DefaultSize[..2] == "t_";
    if size == [] then DefaultSize
    else if JsText.StartsWithIgnoringCase(size, "t_") then size
    else
      assert !JsText.StartsWith(size, "t_");
      assert ("t_" + size)[..2] == "t_";
      "t_" + StripTokenPrefix(size)
  }

  /** `size.replace(/^t_/, "")`: case-sensitive, so it never fires after the case-insensitive test. */
  function StripTokenPrefix(size: string): (r: string)
    ensures !JsText.StartsWith(size, "t_") ==> r == size
  {
    if JsText.StartsWith(size, "t_") then size[2..] else size
  }

  /** Exactly the `t_`-prefixed sizes are left as they are. */
  lemma NormalizeSizeFixedPoints(size: string)
    ensures NormalizeSize(size) == size <==> JsText.StartsWithIgnoringCase(size, "t_")
  {
    if size == [] {
      assert |DefaultSize| > 0;
    }
  }

  lemma NormalizeSizeIdempotent(size: string)
    ensures NormalizeSize(NormalizeSize(size)) == NormalizeSize(size)
  {
    NormalizeSizeFixedPoints(NormalizeSize(size));
  }

  // ---------------------------------------------------------------- t_thumb replacement

  /** `/t_thumb/i` matches at `i`. */
  predicate ThumbAt(s: string, i: int) {
    0 <= i && i + |Thumb| <= |s| && forall k :: i <= k < i + |Thumb| ==> JsText.LowerChar(s[k]) == Thumb[k - i]
  }

  /** A replacement whose first character is not `$` inserts at least that character. */
  predicate StartsLiterally(token: string) {
    token != [] && token[0] != '$'
  }

  /**
   * `s.replace(/t_thumb/gi, token)`: leftmost matches, left to right, without overlap, each
   * replaced by `token` with its `$` patterns expanded against that match.
   */
  function ReplaceThumbs(s: string, token: string): (r: string)
    ensures s != [] && StartsLiterally(token) ==> r != []
  {
    ReplaceThumbsAfter([], s, token)
  }

  /** The scan of `ReplaceThumbs` over `s`, where `before` is the text already scanned. */
  function ReplaceThumbsAfter(before: string, s: string, token: string): (r: string)
    ensures s != [] && StartsLiterally(token) ==> r != []
    decreases |s|
  {
    if |s| < |Thumb| then s
    else if ThumbAt(s, 0) then
      JsText.Substitute(token, s[..|Thumb|], before, s[|Thumb|..]) + ReplaceThumbsAfter(before + s[..|Thumb|], s[|Thumb|..], token)
    else [s[0]] + ReplaceThumbsAfter(before + [s[0]], s[1..], token)
  }

  /** A string without a match comes back unchanged. */
  lemma {:induction false} ReplaceThumbsNoMatch(before: string, s: string, token: string)
    requires forall i :: !ThumbAt(s, i)
    ensures ReplaceThumbsAfter(before, s, token) == s
    decreases |s|
  {
    if |s| >= |Thumb| {
      assert !ThumbAt(s, 0);
      forall i ensures !ThumbAt(s[1..], i) {
        if 0 <= i && i + |Thumb| <= |s| - 1 {
          assert s[1..][i..i + |Thumb|] == s[i + 1..i + 1 + |Thumb|];
          assert !ThumbAt(s, i + 1);
        }
      }
      ReplaceThumbsNoMatch(before + [s[0]], s[1..], token);
    }
  }

  /**
   * With a `$`-free token the replacement does not depend on the text already scanned, and a
   * lone `t_thumb` becomes the token.
   */
  lemma {:induction false} ReplaceThumbsLiteral(before: string, s: string, token: string)
    requires '$' !in token
    ensures ReplaceThumbsAfter(before, s, token) == ReplaceThumbs(s, token)
    decreases |s|
  {
    ReplaceThumbsLiteralFrom(before, [], s, token);
  }

  lemma {:induction false} ReplaceThumbsLiteralFrom(b1: string, b2: string, s: string, token: string)
    requires '$' !in token
    ensures ReplaceThumbsAfter(b1, s, token) == ReplaceThumbsAfter(b2, s, token)
    decreases |s|
  {
    if |s| >= |Thumb| {
      if ThumbAt(s, 0) {
        ReplaceThumbsLiteralFrom(b1 + s[..|Thumb|], b2 + s[..|Thumb|], s[|Thumb|..], token);
      } else {
        ReplaceThumbsLiteralFrom(b1 + [s[0]], b2 + [s[0]], s[1..], token);
      }
    }
  }

  /** A token `$'` stands for the text after the match, so `t_thumb` alone becomes empty. */
  lemma ThumbAfterPatternEmpties()
    ensures ReplaceThumbs(Thumb, "$'") == []
  {
    assert ThumbAt(Thumb, 0);
    assert Thumb[|Thumb|..] == [];
    JsText.SubstituteAfter(Thumb, []);
  }

  /** Matching one character further on is matching at the next position. */
  lemma ThumbAtShift(t: string, i: nat)
    requires t != []
    ensures ThumbAt(t[1..], i) <==> ThumbAt(t, i + 1)
  {
    if ThumbAt(t, i + 1) {
      forall k | i <= k < i + |Thumb|
        ensures JsText.LowerChar(t[1..][k]) == Thumb[k - i]
      {
        assert t[1..][k] == t[k + 1];
      }
    }
  }

  /** Without a match at the front, the first character is copied and the rest is scanned. */
  lemma ReplaceThumbsStep(before: string, t: string, token: string)
    requires t != [] && !ThumbAt(t, 0)
    ensures ReplaceThumbsAfter(before, t, token) == [t[0]] + ReplaceThumbsAfter(before + [t[0]], t[1..], token)
  {
    if |t| < |Thumb| {
      assert [t[0]] + t[1..] == t;
      if |t| >= 2 {
        assert !ThumbAt(t[1..], 0);
      }
      ReplaceThumbsNoMatch(before + [t[0]], t[1..], token);
    }
  }

  /** Text in which no match starts is copied through unchanged. */
  lemma {:induction false} ReplaceThumbsKeepsPrefix(before: string, p: string, s: string, token: string)
    requires forall i :: 0 <= i < |p| ==> !ThumbAt(p + s, i)
    ensures ReplaceThumbsAfter(before, p + s, token) == p + ReplaceThumbsAfter(before + p, s, token)
    decreases |p|
  {
    if p != [] {
      NoThumbInTail(p, s);
      ReplaceThumbsKeepsPrefix(before + [p[0]], p[1..], s, token);
      KeepsPrefixStep(before, p, s, token);
    } else {
      assert p + s == s;
      assert before + p == before;
    }
  }

  /** No match starts in `p` after its first character either. */
  lemma NoThumbInTail(p: string, s: string)
    requires p != []
    requires forall i :: 0 <= i < |p| ==> !ThumbAt(p + s, i)
    ensures (p + s)[1..] == p[1..] + s
    ensures forall i :: 0 <= i < |p| - 1 ==> !ThumbAt(p[1..] + s, i)
  {
    var t := p + s;
    assert t[1..] == p[1..] + s;
    forall i | 0 <= i < |p| - 1
      ensures !ThumbAt(p[1..] + s, i)
    {
      ThumbAtShift(t, i);
    }
  }

  /** One step of `ReplaceThumbsKeepsPrefix`: the first character of `p` goes through as it is. */
  lemma KeepsPrefixStep(before: string, p: string, s: string, token: string)
    requires p != [] && !ThumbAt(p + s, 0)
    requires ReplaceThumbsAfter(before + [p[0]], p[1..] + s, token)
      == p[1..] + ReplaceThumbsAfter(before + [p[0]] + p[1..], s, token)
    ensures ReplaceThumbsAfter(before, p + s, token) == p + ReplaceThumbsAfter(before + p, s, token)
  {
    Regroup(before, p, s, ReplaceThumbsAfter(before + p, s, token));
    ReplaceThumbsStep(before, p + s, token);
  }

  /** The sequence identities `KeepsPrefixStep` needs, over plain texts. */
  lemma Regroup(before: string, p: string, s: string, r: string)
    requires p != []
    ensures (p + s)[0] == p[0] && (p + s)[1..] == p[1..] + s
    ensures before + [p[0]] + p[1..] == before + p
    ensures [p[0]] + (p[1..] + r) == p + r
  {
    assert (p + s)[1..] == p[1..] + s;
    assert before + [p[0]] + p[1..] == before + p;
    assert [p[0]] + (p[1..] + r) == p + r;
  }

  /** A URL that starts with `https://` still does after the replacement. */
  lemma ReplaceThumbsKeepsHttps(rest: string, token: string)
    ensures ReplaceThumbs("https://" + rest, token) == "https://" + ReplaceThumbsAfter("https://", rest, token)
  {
    var t := "https://" + rest;
    assert t[..8] == "https://";
    forall i | 0 <= i < 8
      ensures !ThumbAt(t, i)
    {
      if i < 7 {
        assert t[i + 1] == "https://"[i + 1];
        assert JsText.LowerChar(t[i + 1]) != Thumb[1];
      } else {
        assert JsText.LowerChar(t[i]) != Thumb[0];
      }
    }
    ReplaceThumbsKeepsPrefix([], "https://", rest, token);
    assert [] + "https://" == "https://";
  }

  // ---------------------------------------------------------------- getIgdbImage

  /** `getIgdbImage(input, { size, type })`: `size` and `type` are "" when absent. */
  datatype ImageOptions = ImageOptions(size: string, kind: string)

  /** What was passed: nothing (a falsy value), a string, a game record, or another truthy value. */
  datatype ImageInput = NoInput | TextInput(text: string) | GameInput(game: Game) | OtherInput

  predicate Falsy(input: ImageInput) {
    input.NoInput? || (input.TextInput? && input.text == [])
  }

  /** `normalizeSize(options.size || options.type || "t_cover_big")`. */
  function SizeToken(options: ImageOptions): (r: string)
    ensures JsText.StartsWithIgnoringCase(r, "t_")
  {
    NormalizeSize(if options.size != [] then options.size else if options.kind != [] then options.kind else DefaultSize)
  }

  function WithHttps(u: string): string {
    if JsText.StartsWith(u, "//") then "https:" + u else u
  }

  /** The treatment of every string candidate: https for `//`, expand a bare id, swap `t_thumb`. */
  function Resolve(u: string, sizeToken: string): (r: string)
    requires StartsLiterally(sizeToken)
    ensures u != [] ==> r != []
  {
    var withHttps := WithHttps(u);
    var expanded := if !JsText.HasHttpScheme(withHttps) && JsText.IsWordId(withHttps) then BuildFromId(withHttps, sizeToken) else withHttps;
    ReplaceThumbs(expanded, sizeToken)
  }

  /** The text a candidate offers: the string itself, or `url || src || image_id || id || ""`. */
  function CandidateText(c: Candidate): string {
    match c
    case Missing => []
    case Link(text) => text
    case ImageRef(url, src, imageId, id) =>
      if url != [] then url else if src != [] then src else if imageId != [] then imageId else id
  }

  /** `image`, `url`, `background_image`, `thumbnail`, `image_id`, then the first screenshot's `url` and `image_id`. */
  function Candidates(g: Game): (r: seq<Candidate>)
    ensures |r| == 7
  {
    var shotUrl := if |g.screenshots| > 0 then g.screenshots[0].url else Missing;
    var shotId := if |g.screenshots| > 0 then g.screenshots[0].imageId else Missing;
    [g.image, g.url, g.backgroundImage, g.thumbnail, g.imageId, shotUrl, shotId]
  }

  /** The candidate loop: skip a candidate with no text, return the first resolved non-empty one. */
  function FirstUsable(cands: seq<Candidate>, sizeToken: string): (r: string)
    requires StartsLiterally(sizeToken)
  {
    if cands == [] then []
    else
      var text := CandidateText(cands[0]);
      if text == [] then FirstUsable(cands[1..], sizeToken)
      else Resolve(text, sizeToken)  // never empty, so the loop's `if (u) return u` always returns
  }

  /** The cover decides when it is a non-empty string or an object with an `image_id` or a `url`. */
  predicate CoverDecides(c: Cover) {
    match c
    case NoCover => false
    case CoverText(text) => text != []
    case CoverObj(imageId, url) => imageId != [] || url != []
  }

  function GetIgdbImage(input: ImageInput, options: ImageOptions): (r: string)
    ensures Falsy(input) || input.OtherInput? ==> r == []
  {
    var sizeToken := SizeToken(options);
    match input
    case NoInput => []
    case OtherInput => []
    case TextInput(text) => if text == [] then [] else Resolve(text, sizeToken)
    case GameInput(g) =>
      match g.cover
      case CoverText(text) =>
        if text != [] then BuildFromId(text, sizeToken) else FirstUsable(Candidates(g), sizeToken)
      case CoverObj(imageId, url) =>
        if imageId != [] then BuildFromId(imageId, sizeToken)
        else if url != [] then ReplaceThumbs(WithHttps(url), sizeToken)
        else FirstUsable(Candidates(g), sizeToken)
      case NoCover => FirstUsable(Candidates(g), sizeToken)
  }

  /** The same record with every other image source removed. */
  function CoverOnly(g: Game): Game {
    g.(image := Missing, url := Missing, backgroundImage := Missing, thumbnail := Missing,
       imageId := Missing, screenshots := [])
  }

  /** A deciding cover wins over every other field; and `cover.image_id` wins over `cover.url`. */
  lemma CoverTakesPrecedence(g: Game, options: ImageOptions)
    requires CoverDecides(g.cover)
    ensures GetIgdbImage(GameInput(g), options) == GetIgdbImage(GameInput(CoverOnly(g)), options)
    ensures g.cover.CoverObj? && g.cover.imageId != [] ==>
      GetIgdbImage(GameInput(g), options) == GetIgdbImage(GameInput(g.(cover := g.cover.(url := []))), options)
  {
  }

  /**
   * Without a deciding cover the result is "" exactly when no candidate offers text; otherwise
   * it is the first offered text, resolved, and not empty.
   */
  lemma {:induction false} FirstUsableSpec(cands: seq<Candidate>, sizeToken: string)
    requires StartsLiterally(sizeToken)
    ensures FirstUsable(cands, sizeToken) == [] <==> forall k :: 0 <= k < |cands| ==> CandidateText(cands[k]) == []
    ensures forall k ::
      (0 <= k < |cands| && CandidateText(cands[k]) != [] && (forall j :: 0 <= j < k ==> CandidateText(cands[j]) == []))
      ==> FirstUsable(cands, sizeToken) == Resolve(CandidateText(cands[k]), sizeToken)
  {
    if cands != [] {
      FirstUsableSpec(cands[1..], sizeToken);
      forall k | 1 <= k < |cands| ensures cands[k] == cands[1..][k - 1] { }
      if CandidateText(cands[0]) == [] {
        forall k | 1 <= k < |cands| && CandidateText(cands[k]) != [] &&
          (forall j :: 0 <= j < k ==> CandidateText(cands[j]) == [])
          ensures FirstUsable(cands, sizeToken) == Resolve(CandidateText(cands[k]), sizeToken)
        {
          assert forall j :: 0 <= j < k - 1 ==> CandidateText(cands[1..][j]) == CandidateText(cands[j + 1]);
        }
      }
    }
  }

  /** A record with no deciding cover and no image source at all has no image. */
  lemma NoSourceNoImage(g: Game, options: ImageOptions)
    requires !CoverDecides(g.cover)
    requires forall k :: 0 <= k < 7 ==> CandidateText(Candidates(g)[k]) == []
    ensures GetIgdbImage(GameInput(g), options) == []
  {
    FirstUsableSpec(Candidates(g), SizeToken(options));
  }

  /** An https URL given as a string keeps its scheme. */
  lemma TextUrlKeepsScheme(rest: string, options: ImageOptions)
    ensures JsText.StartsWith(GetIgdbImage(TextInput("https://" + rest), options), "https://")
  {
    var tok := SizeToken(options);
    HttpsPrefixed(rest);
    assert ("https://" + rest)[..2] != "//";
    ReplaceThumbsKeepsHttps(rest, tok);
  }

  // ---------------------------------------------------------------- buildSrcSet

  /** The carousel's sizes and their widths in pixels, written as text. */
  const SrcSetSizes: seq<string> := ["cover_small", "cover_big", "720p", "1080p"]
  const SrcSetWidths: seq<string> := ["320", "640", "960", "1280"]

  /** The image for each size. */
  function SrcSetUrls(input: ImageInput): (r: seq<string>)
    ensures |r| == |SrcSetSizes|
    ensures forall k :: 0 <= k < |r| ==> r[k] == GetIgdbImage(input, ImageOptions(SrcSetSizes[k], []))
  {
    seq(|SrcSetSizes|, k requires 0 <= k < |SrcSetSizes| => GetIgdbImage(input, ImageOptions(SrcSetSizes[k], [])))
  }

  /** `${url} ${w}w`. */
  function Entry(url: string, width: string): (r: string)
    ensures r != []
  {
    url + " " + width + "w"
  }

  function Entries(urls: seq<string>, widths: seq<string>): (r: seq<string>)
    requires |urls| == |widths|
    ensures |r| == |urls|
    ensures forall k :: 0 <= k < |r| ==> r[k] == Entry(urls[k], widths[k])
  {
    seq(|urls|, k requires 0 <= k < |urls| => Entry(urls[k], widths[k]))
  }

  /** `buildSrcSet(input)` as written: the `.filter(Boolean)` sees entries that always hold a width. */
  function BuildSrcSet(input: ImageInput): (r: string)
    ensures Falsy(input) ==> r == []
  {
    if Falsy(input) then [] else JsText.Join(Keep(Entries(SrcSetUrls(input), SrcSetWidths), e => e != []), ", ")
  }

  /** The filter never drops an entry: a truthy input always gives the four widths, in order. */
  lemma SrcSetHasFourEntries(input: ImageInput)
    requires !Falsy(input)
    ensures BuildSrcSet(input) == JsText.Join(Entries(SrcSetUrls(input), SrcSetWidths), ", ")
  {
    KeepAll(Entries(SrcSetUrls(input), SrcSetWidths), e => e != []);
  }

  /** A record with no image still gets a `srcset`, of widths with no URL before them. */
  lemma SrcSetWithoutImage()
    ensures BuildSrcSet(GameInput(Blank)) == " 320w,  640w,  960w,  1280w"
  {
    var input := GameInput(Blank);
    SrcSetHasFourEntries(input);
    BlankHasNoUrls();
    WidthsWithoutUrls();
  }

  lemma BlankHasNoUrls()
    ensures SrcSetUrls(GameInput(Blank)) == ["", "", "", ""]
  {
    forall k | 0 <= k < |SrcSetSizes|
      ensures GetIgdbImage(GameInput(Blank), ImageOptions(SrcSetSizes[k], [])) == []
    {
      NoSourceNoImage(Blank, ImageOptions(SrcSetSizes[k], []));
    }
  }

  lemma WidthsWithoutUrls()
    ensures JsText.Join(Entries(["", "", "", ""], SrcSetWidths), ", ") == " 320w,  640w,  960w,  1280w"
  {
    var es := Entries(["", "", "", ""], SrcSetWidths);
    assert es[0] == " 320w";
    assert es[1] == " 640w";
    assert es[2] == " 960w";
    assert es[3] == " 1280w";
    JsText.JoinFour(es, ", ");
  }

  /** The entries whose URL is not empty. */
  function UsableEntries(urls: seq<string>, widths: seq<string>): (r: seq<string>)
    requires |urls| == |widths|
    ensures |r| <= |urls|
  {
    if urls == [] then []
    else (if urls[0] != [] then [Entry(urls[0], widths[0])] else []) + UsableEntries(urls[1..], widths[1..])
  }

  lemma {:induction false} UsableEntriesBounds(urls: seq<string>, widths: seq<string>)
    requires |urls| == |widths|
    ensures (forall k :: 0 <= k < |urls| ==> urls[k] == []) ==> UsableEntries(urls, widths) == []
    ensures (forall k :: 0 <= k < |urls| ==> urls[k] != []) ==> UsableEntries(urls, widths) == Entries(urls, widths)
  {
    if urls != [] {
      UsableEntriesBounds(urls[1..], widths[1..]);
      if forall k :: 0 <= k < |urls| ==> urls[k] != [] {
        assert forall k :: 0 <= k < |urls| - 1 ==> urls[1..][k] == urls[k + 1];
        assert Entries(urls, widths) == [Entry(urls[0], widths[0])] + Entries(urls[1..], widths[1..]);
      }
      if forall k :: 0 <= k < |urls| ==> urls[k] == [] {
        assert forall k :: 0 <= k < |urls| - 1 ==> urls[1..][k] == urls[k + 1];
      }
    }
  }

  /** `buildSrcSet` with the entries that lack a URL left out, as the filter evidently means to. */
  function BuildSrcSetCorrected(input: ImageInput): (r: string)
    ensures Falsy(input) ==> r == []
  {
    if Falsy(input) then [] else JsText.Join(UsableEntries(SrcSetUrls(input), SrcSetWidths), ", ")
  }

  /** The corrected `srcset` is empty when no size has an image, and equals the written one when every size has one. */
  lemma SrcSetCorrectedSpec(input: ImageInput)
    ensures (forall k :: 0 <= k < |SrcSetSizes| ==> GetIgdbImage(input, ImageOptions(SrcSetSizes[k], [])) == [])
      ==> BuildSrcSetCorrected(input) == []
    ensures (forall k :: 0 <= k < |SrcSetSizes| ==> GetIgdbImage(input, ImageOptions(SrcSetSizes[k], [])) != [])
      ==> BuildSrcSetCorrected(input) == BuildSrcSet(input)
  {
    if forall k :: 0 <= k < |SrcSetSizes| ==> GetIgdbImage(input, ImageOptions(SrcSetSizes[k], [])) == [] {
      SrcSetCorrectedEmpty(input);
    }
    if forall k :: 0 <= k < |SrcSetSizes| ==> GetIgdbImage(input, ImageOptions(SrcSetSizes[k], [])) != [] {
      SrcSetCorrectedFull(input);
    }
  }

  lemma SrcSetCorrectedEmpty(input: ImageInput)
    requires forall k :: 0 <= k < |SrcSetSizes| ==> GetIgdbImage(input, ImageOptions(SrcSetSizes[k], [])) == []
    ensures BuildSrcSetCorrected(input) == []
  {
    UsableEntriesBounds(SrcSetUrls(input), SrcSetWidths);
  }

  lemma SrcSetCorrectedFull(input: ImageInput)
    requires forall k :: 0 <= k < |SrcSetSizes| ==> GetIgdbImage(input, ImageOptions(SrcSetSizes[k], [])) != []
    ensures BuildSrcSetCorrected(input) == BuildSrcSet(input)
  {
    UsableEntriesBounds(SrcSetUrls(input), SrcSetWidths);
    if !Falsy(input) {
      SrcSetHasFourEntries(input);
    }
  }

  /** For the record with no image, the corrected `srcset` is empty, so the placeholder shows. */
  lemma SrcSetCorrectedWithoutImage()
    ensures BuildSrcSetCorrected(GameInput(Blank)) == []
  {
    BlankHasNoUrls();
    SrcSetCorrectedSpec(GameInput(Blank));
  }
}

=== FILE: jstext.dfy ===
/**
 * String primitives shared by the model. JavaScript strings are sequences of UTF-16 code
 * units; here they are `seq<char>`, sequences of Unicode scalar values, and are compared in
 * code point order. `toLowerCase` is abstracted as ASCII lowering, and
 * `trim` / `\s` use the exact set of ECMAScript white space and line terminators.
 */
module JsText {

  // ---------------------------------------------------------------- characters

  predicate IsUpperAscii(c: char) { 'A' <= c <= 'Z' }

  predicate IsLowerAscii(c: char) { 'a' <= c <= 'z' }

  predicate IsDigit(c: char) { '0' <= c <= '9' }

  /** The class `[a-z0-9_]` under the `i` flag. */
  predicate IsWordChar(c: char) { IsLowerAscii(c) || IsUpperAscii(c) || IsDigit(c) || c == '_' }

  /** ECMAScript LineTerminator: the characters `.` does not match. */
  predicate IsLineTerminator(c: char) {
    c == '\n' || c == '\r' || c == '\U{2028}' || c == '\U{2029}'
  }

  /** ECMAScript WhiteSpace and LineTerminator: what `trim` removes and `\s` matches. */
  predicate IsSpace(c: char) {
    || c == '\t' || c == '\U{000B}' || c == '\U{000C}' || c == ' ' || c == '\U{00A0}' || c == '\U{FEFF}'
    || c == '\U{1680}' || ('\U{2000}' <= c <= '\U{200A}') || c == '\U{202F}' || c == '\U{205F}' || c == '\U{3000}'
    || IsLineTerminator(c)
  }

  /** ASCII stand-in for the per-character effect of `toLowerCase`. */
  function LowerChar(c: char): (r: char)
    ensures !IsUpperAscii(r)
    ensures !IsUpperAscii(c) ==> r == c
    ensures IsWordChar(r) <==> IsWordChar(c)
    ensures IsSpace(r) <==> IsSpace(c)
  {
    if IsUpperAscii(c) then (c as int + 32) as char else c
  }

  function Lower(s: string): (r: string)
    ensures |r| == |s|
    ensures forall i :: 0 <= i < |s| ==> r[i] == LowerChar(s[i])
  {
    if s == [] then [] else [LowerChar(s[0])] + Lower(s[1..])
  }

  lemma LowerIdempotent(s: string)
    ensures Lower(Lower(s)) == Lower(s)
  {
  }

  lemma LowerAppend(a: string, b: string)
    ensures Lower(a + b) == Lower(a) + Lower(b)
  {
  }

  /**
   * Case-insensitive equality with a pattern written in lower case, as the regex `i` flag
   * compares ASCII letters. Every pattern of the model is a lower-case literal.
   */
  predicate EqualsIgnoringCase(a: string, lowerPattern: string) { Lower(a) == lowerPattern }

  // ---------------------------------------------------------------- prefixes, suffixes, search

  predicate StartsWith(s: string, p: string) { |p| <= |s| && s[..|p|] == p }

  predicate EndsWith(s: string, p: string) { |p| <= |s| && s[|s| - |p|..] == p }

  predicate StartsWithIgnoringCase(s: string, p: string) {
    |p| <= |s| && EqualsIgnoringCase(s[..|p|], p)
  }

  predicate EndsWithIgnoringCase(s: string, p: string) {
    |p| <= |s| && EqualsIgnoringCase(s[|s| - |p|..], p)
  }

  predicate OccursAt(s: string, sub: string, i: int) {
    0 <= i && i + |sub| <= |s| && s[i..i + |sub|] == sub
  }

  /** `s.includes(sub)`. */
  predicate Contains(s: string, sub: string) {
    exists i | 0 <= i <= |s| - |sub| :: OccursAt(s, sub, i)
  }

  lemma ContainsEmpty(s: string)
    ensures Contains(s, [])
  {
    assert OccursAt(s, [], 0);
  }

  lemma ContainsNotLonger(s: string, sub: string)
    requires Contains(s, sub)
    ensures |sub| <= |s|
  {
  }

  lemma ContainsItself(s: string)
    ensures Contains(s, s)
  {
    assert OccursAt(s, s, 0);
  }

  lemma ContainsChar(s: string, c: char)
    ensures Contains(s, [c]) <==> c in s
  {
    if c in s {
      var i :| 0 <= i < |s| && s[i] == c;
      assert OccursAt(s, [c], i);
    }
    if Contains(s, [c]) {
      var i :| 0 <= i <= |s| - 1 && OccursAt(s, [c], i);
      assert s[i] == c;
    }
  }

  /** A text that contains `sub` contains every prefix of `sub`. */
  lemma ContainsPrefix(s: string, sub: string, pre: string)
    requires StartsWith(sub, pre) && Contains(s, sub)
    ensures Contains(s, pre)
  {
    var i :| 0 <= i <= |s| - |sub| && OccursAt(s, sub, i);
    assert s[i..i + |pre|] == sub[..|pre|];
    assert OccursAt(s, pre, i);
  }

  /** `/^https?:\/\//i`. */
  predicate HasHttpScheme(s: string) {
    StartsWithIgnoringCase(s, "http://") || StartsWithIgnoringCase(s, "https://")
  }

  /** An http(s) URL holds a slash: the first one of its `//`. */
  lemma HttpSchemeHasSlash(s: string)
    requires HasHttpScheme(s)
    ensures '/' in s
  {
    if StartsWithIgnoringCase(s, "http://") {
      assert Lower(s[..7])[5] == LowerChar(s[5]) == '/';
      assert s[5] == '/';
    } else {
      assert Lower(s[..8])[6] == LowerChar(s[6]) == '/';
      assert s[6] == '/';
    }
  }

  /** A text without a slash is not an http(s) URL. */
  lemma NoSlashNoScheme(s: string)
    requires '/' !in s
    ensures !HasHttpScheme(s)
  {
    if HasHttpScheme(s) {
      HttpSchemeHasSlash(s);
    }
  }

  /** A text lacking one of the characters of `sub` does not contain `sub`. */
  lemma MissingCharNotContained(s: string, sub: string, k: nat)
    requires k < |sub| && sub[k] !in s
    ensures !Contains(s, sub)
  {
    forall i | 0 <= i <= |s| - |sub| ensures !OccursAt(s, sub, i) {
      assert s[i..i + |sub|][k] == s[i + k];
      assert s[i + k] in s;
    }
  }

  /** `/^[a-z0-9_]+$/i`. */
  predicate IsWordId(s: string) {
    |s| > 0 && forall i :: 0 <= i < |s| ==> IsWordChar(s[i])
  }

  predicate AllSpace(s: string) { forall i :: 0 <= i < |s| ==> IsSpace(s[i]) }

  predicate NoLineTerminator(s: string) { forall i :: 0 <= i < |s| ==> !IsLineTerminator(s[i]) }

  // ---------------------------------------------------------------- trim

  /** How many white-space characters `s` starts with. */
  function LeadingSpace(s: string): (n: nat)
    ensures n <= |s|
    ensures forall j :: 0 <= j < n ==> IsSpace(s[j])
    ensures n < |s| ==> !IsSpace(s[n])
  {
    if s != [] && IsSpace(s[0]) then 1 + LeadingSpace(s[1..]) else 0
  }

  /** How many white-space characters `s` ends with. */
  function TrailingSpace(s: string): (n: nat)
    ensures n <= |s|
    ensures forall j :: |s| - n <= j < |s| ==> IsSpace(s[j])
    ensures n < |s| ==> !IsSpace(s[|s| - n - 1])
  {
    if s != [] && IsSpace(s[|s| - 1]) then 1 + TrailingSpace(s[..|s| - 1]) else 0
  }

  /** `s.trimStart()`. */
  function TrimStart(s: string): (r: string)
    ensures |r| <= |s| && r == s[|s| - |r|..] && AllSpace(s[..|s| - |r|])
    ensures r == [] || !IsSpace(r[0])
  {
    s[LeadingSpace(s)..]
  }

  /** `s.trimEnd()`. */
  function TrimEnd(s: string): (r: string)
    ensures |r| <= |s| && r == s[..|r|] && AllSpace(s[|r|..])
    ensures r == [] || !IsSpace(r[|r| - 1])
  {
    s[..|s| - TrailingSpace(s)]
  }

  /** `s.trim()`: `s` is `Trim(s)` padded on both sides with white space only. */
  function Trim(s: string): (r: string)
    ensures |r| <= |s|
    ensures r == [] || (!IsSpace(r[0]) && !IsSpace(r[|r| - 1]))
  {
    var a := LeadingSpace(s);
    var r := TrimEnd(s[a..]);
    TrimPadding(s, a, r);
    r
  }

  /** `Trim` removes white space only: its result is `s` less a white-space prefix and suffix. */
  lemma TrimPads(s: string)
    ensures exists i ::
              0 <= i <= |s| - |Trim(s)| && s[i..i + |Trim(s)|] == Trim(s)
              && AllSpace(s[..i]) && AllSpace(s[i + |Trim(s)|..])
  {
    var a := LeadingSpace(s);
    var r := TrimEnd(s[a..]);
    TrimPadding(s, a, r);
  }

  /** Where the trimmed text sits inside `s`: after the leading white space. */
  lemma TrimPadding(s: string, a: nat, r: string)
    requires a == LeadingSpace(s) && |r| <= |s| - a
    requires r == s[a..][..|r|] && AllSpace(s[a..][|r|..])
    ensures s[a..a + |r|] == r
    ensures AllSpace(s[..a]) && AllSpace(s[a + |r|..])
  {
    LeadingPadding(s);
    SliceOfSuffix(s, a, |r|);
  }

  lemma LeadingPadding(s: string)
    ensures AllSpace(s[..LeadingSpace(s)])
  {
    var a := LeadingSpace(s);
    forall j | 0 <= j < a ensures IsSpace(s[..a][j]) {
      assert s[..a][j] == s[j];
    }
  }

  lemma SliceOfSuffix(s: string, a: nat, k: nat)
    requires a + k <= |s|
    ensures s[a..][..k] == s[a..a + k] && s[a..][k..] == s[a + k..]
  {
  }

  lemma TrimNoPadding(s: string)
    requires s == [] || (!IsSpace(s[0]) && !IsSpace(s[|s| - 1]))
    ensures Trim(s) == s
  {
    if s != [] {
      assert LeadingSpace(s) == 0 && s[0..] == s;
      assert TrailingSpace(s) == 0;
    }
  }

  lemma TrimIdempotent(s: string)
    ensures Trim(Trim(s)) == Trim(s)
  {
    TrimNoPadding(Trim(s));
  }

  /** A string trims to nothing exactly when it is all white space. */
  lemma TrimEmptyIffAllSpace(s: string)
    ensures Trim(s) == [] <==> AllSpace(s)
  {
    var a := LeadingSpace(s);
    assert Trim(s) == TrimEnd(s[a..]);
    if Trim(s) == [] {
      assert AllSpace(s[a..]);
      assert a == |s|;
    }
  }

  /** White space in front of a text adds to its leading white space. */
  lemma {:induction false} LeadingSpaceAppend(w: string, s: string)
    requires AllSpace(w)
    ensures LeadingSpace(w + s) == |w| + LeadingSpace(s)
    decreases |w|
  {
    if w != [] {
      assert (w + s)[0] == w[0];
      assert (w + s)[1..] == w[1..] + s;
      LeadingSpaceAppend(w[1..], s);
    } else {
      assert w + s == s;
    }
  }

  lemma TrimStartDropsLeadingSpace(w: string, s: string)
    requires AllSpace(w)
    ensures TrimStart(w + s) == TrimStart(s)
  {
    LeadingSpaceAppend(w, s);
    assert (w + s)[|w| + LeadingSpace(s)..] == s[LeadingSpace(s)..];
  }

  /** `trim` after `trimStart` is `trim`. */
  lemma TrimOfTrimStart(s: string)
    ensures Trim(TrimStart(s)) == Trim(s)
  {
    var t := TrimStart(s);
    assert LeadingSpace(t) == 0 && t[0..] == t;
  }

  /** Trimming ignores white space in front: `Trim(w + s) == Trim(s)` for white space `w`. */
  lemma TrimDropsLeadingSpace(w: string, s: string)
    requires AllSpace(w)
    ensures Trim(w + s) == Trim(s)
  {
    TrimStartDropsLeadingSpace(w, s);
    assert Trim(w + s) == TrimEnd(TrimStart(w + s));
    assert Trim(s) == TrimEnd(TrimStart(s));
  }

  // ---------------------------------------------------------------- replacement patterns

  /**
   * The text `String.prototype.replace` inserts for one match when the replacement is a string
   * and the pattern has no capture groups (the GetSubstitution operation of ECMA-262):
   * `$$` is `$`, `$&` the matched text, `` $` `` the text before the match and `$'` the text
   * after it. Any other `$`, including `$1` and `$<` with no groups to refer to, is literal.
   */
  function Substitute(repl: string, matched: string, before: string, after: string): (r: string)
    ensures '$' !in repl ==> r == repl
    ensures repl != [] && repl[0] != '$' ==> r != [] && r[0] == repl[0]
    decreases |repl|
  {
    if repl == [] then []
    else if repl[0] == '$' && |repl| >= 2 && repl[1] == '$' then "$" + Substitute(repl[2..], matched, before, after)
    else if repl[0] == '$' && |repl| >= 2 && repl[1] == '&' then matched + Substitute(repl[2..], matched, before, after)
    else if repl[0] == '$' && |repl| >= 2 && repl[1] == '`' then before + Substitute(repl[2..], matched, before, after)
    else if repl[0] == '$' && |repl| >= 2 && repl[1] == '\'' then after + Substitute(repl[2..], matched, before, after)
    else
      assert repl[0] == '$' || repl[0] in repl;
      assert '$' !in repl ==> '$' !in repl[1..];
      [repl[0]] + Substitute(repl[1..], matched, before, after)
  }

  /** `$&` inserts the match itself, so `"$&"` leaves the text as it was. */
  lemma SubstituteMatch(matched: string, before: string, after: string)
    ensures Substitute("$&", matched, before, after) == matched
  {
    assert "$&"[2..] == [];
  }

  /** `$'` inserts the text after the match: at the end of the text that is nothing. */
  lemma SubstituteAfter(matched: string, before: string)
    ensures Substitute("$'", matched, before, []) == []
  {
    assert "$'"[2..] == [];
  }

  // ---------------------------------------------------------------- joining

  /** `parts.join(sep)`. */
  function Join(parts: seq<string>, sep: string): string {
    if parts == [] then []
    else if |parts| == 1 then parts[0]
    else parts[0] + sep + Join(parts[1..], sep)
  }

  /** A part joined in front of a non-empty list is followed by exactly one separator. */
  lemma JoinCons(x: string, tail: seq<string>, sep: string)
    requires tail != []
    ensures Join([x] + tail, sep) == x + sep + Join(tail, sep)
  {
    assert ([x] + tail)[1..] == tail;
  }

  lemma JoinFour(parts: seq<string>, sep: string)
    requires |parts| == 4
    ensures Join(parts, sep) == parts[0] + sep + parts[1] + sep + parts[2] + sep + parts[3]
  {
    var tail := parts[1..];
    assert Join(parts, sep) == parts[0] + sep + Join(tail, sep);
    assert Join(tail, sep) == parts[1] + sep + Join(tail[1..], sep);
    assert Join(tail[1..], sep) == parts[2] + sep + Join(tail[1..][1..], sep);
    assert tail[1..][1..] == [parts[3]];
  }

  /** Decimal text of an integer, as `String(n)` writes it. */
  function IntToString(n: int): (r: string)
    ensures |r| > 0
    decreases if n < 0 then -n + 1 else n
  {
    if n < 0 then "-" + IntToString(-n)
    else if n < 10 then [('0' as int + n) as char]
    else IntToString(n / 10) + [('0' as int + n % 10) as char]
  }
}

=== FILE: paging.dfy ===
/**
 * Infinite-scroll pagination of the home page: each fetched page is merged after the
 * records already held, dropping a record only when an earlier record has the same `id`
 * (compared with `===`), and the paging flags are updated from the raw page length.
 */
module Paging {
  import opened Wrappers
  import opened GameModel

  const PageSize: nat := 20

  /** Some record already held has the same `id` as `g` (absent ids are equal to each other). */
  predicate IdHeld(held: seq<Game>, g: Game) {
    exists i | 0 <= i < |held| :: held[i].id == g.id
  }

  /** The records of `page` whose id is not already held, in page order. */
  function Fresh(held: seq<Game>, page: seq<Game>): (r: seq<Game>)
    ensures forall g :: g in r ==> g in page && !IdHeld(held, g)
    ensures forall g :: g in page && !IdHeld(held, g) ==> g in r
  {
    Keep(page, g => !IdHeld(held, g))
  }

  /** `[...prevGames, ...newGames]`. */
  function Merge(held: seq<Game>, page: seq<Game>): (r: seq<Game>)
    ensures |held| <= |r| <= |held| + |page|
    ensures r[..|held|] == held
    ensures r[|held|..] == Fresh(held, page)
  {
    held + Fresh(held, page)
  }

  /** Every record of the page has an equal id somewhere in the merged result. */
  lemma MergeCoversPage(held: seq<Game>, page: seq<Game>, g: Game)
    requires g in page
    ensures IdHeld(Merge(held, page), g)
  {
    var r := Merge(held, page);
    if IdHeld(held, g) {
      var i :| 0 <= i < |held| && held[i].id == g.id;
      assert r[i] == held[i];
    } else {
      assert g in Fresh(held, page);
      var j :| 0 <= j < |Fresh(held, page)| && Fresh(held, page)[j] == g;
      assert r[|held| + j] == g;
    }
  }

  /** Merging the same page a second time changes nothing. */
  lemma MergeIdempotent(held: seq<Game>, page: seq<Game>)
    ensures Merge(Merge(held, page), page) == Merge(held, page)
  {
    var m := Merge(held, page);
    forall g | g in page ensures IdHeld(m, g) {
      MergeCoversPage(held, page, g);
    }
    KeepNone(page, g => !IdHeld(m, g));

  }

  /** Records are judged against the held list only: a page split in two merges piecewise, so
      two records of one page with the same id are both kept. */
  lemma FreshSplits(held: seq<Game>, a: seq<Game>, b: seq<Game>)
    ensures Fresh(held, a + b) == Fresh(held, a) + Fresh(held, b)
  {
    KeepAppend(a, b, g => !IdHeld(held, g));
  }

  /** An id-less record is dropped whenever an id-less record is already held. */
  lemma IdlessDroppedAfterIdless(held: seq<Game>, page: seq<Game>, g: Game)
    requires exists h :: h in held && h.id.None?
    requires g in page && g.id.None?
    ensures g !in Fresh(held, page)
  {
    var h :| h in held && h.id.None?;
    var i :| 0 <= i < |held| && held[i] == h;
    assert IdHeld(held, g);
  }

  /** Within one page duplicates survive: two fresh records with one id are both appended. */
  lemma PageDuplicatesKept(held: seq<Game>, a: Game, b: Game)
    requires !IdHeld(held, a) && a.id == b.id
    ensures Merge(held, [a, b]) == held + [a, b]
  {
    assert !IdHeld(held, b);
    assert [a, b] == [a] + [b];
    FreshSplits(held, [a], [b]);
  }

  /** Two pages that both carry id 42: the second page's copy is dropped, the first page's kept. */
  lemma SecondCopyAcrossPagesDropped(p1: seq<Game>, p2: seq<Game>, a: Game, b: Game)
    requires a in p1 && b in p2 && a.id == Some(Text("42")) && b.id == a.id
    ensures b !in Fresh(Merge([], p1), p2)
    ensures a in Merge(Merge([], p1), p2)
  {
    MergeCoversPage([], p1, a);
    assert Fresh([], p1) == p1 by { KeepAll(p1, g => !IdHeld([], g)); }
  }

  // ---------------------------------------------------------------- the fetch state machine

  datatype FetchState = FetchState(games: seq<Game>, offset: nat, hasMore: bool, loading: bool, error: Option<string>)

  /** The response to one request: a page of records, or a thrown error's message. */
  datatype Outcome = Page(data: seq<Game>) | Failure(message: string)

  const Initial: FetchState := FetchState([], 0, true, false, None)

  /** Entry to `fetchGames`: returns at once while loading or without more pages, else marks loading. */
  function Begin(s: FetchState): (t: FetchState)
    ensures s.loading || !s.hasMore ==> t == s
    ensures !s.loading && s.hasMore ==> t == s.(loading := true)
  {
    if s.loading || !s.hasMore then s else s.(loading := true)
  }

  /** Completion of a request begun by `Begin`: merge or record the error, then stop loading. */
  function Complete(s: FetchState, o: Outcome): (t: FetchState)
    ensures !t.loading
  {
    match o
    case Page(data) =>
      FetchState(Merge(s.games, data),
                 if |data| > 0 then s.offset + PageSize else s.offset,
                 |data| > 0, false, s.error)
    case Failure(m) => s.(loading := false, error := Some(m))
  }

  /** One call of `fetchGames` that runs to completion with outcome `o`. */
  function Fetch(s: FetchState, o: Outcome): (t: FetchState)
    ensures s.loading || !s.hasMore ==> t == s
    ensures !s.loading && s.hasMore && o.Page? ==>
      && t.games == Merge(s.games, o.data)
      && t.hasMore == (|o.data| > 0)
      && t.offset == (if |o.data| > 0 then s.offset + PageSize else s.offset)
      && !t.loading && t.error == s.error
    ensures !s.loading && s.hasMore && o.Failure? ==>
      t == s.(error := Some(o.message))
  {
    if s.loading || !s.hasMore then s else Complete(Begin(s), o)
  }

  /** The scroll sentinel's handler: advance the offset by a page while more pages remain. */
  function Advance(s: FetchState): (t: FetchState)
    ensures s.hasMore ==> t == s.(offset := s.offset + PageSize)
    ensures !s.hasMore ==> t == s
  {
    if s.hasMore then s.(offset := s.offset + PageSize) else s
  }

  datatype Event = Fetched(outcome: Outcome) | Scrolled

  function Step(s: FetchState, e: Event): FetchState {
    match e
    case Fetched(o) => Fetch(s, o)
    case Scrolled => Advance(s)
  }

  function Run(s: FetchState, es: seq<Event>): FetchState
    decreases |es|
  {
    if es == [] then s else Run(Step(s, es[0]), es[1..])
  }

  /** What every state reachable from the initial one satisfies. */
  predicate Settled(s: FetchState) { !s.loading && s.offset % PageSize == 0 }

  /** Along any run: not loading between events, offset a multiple of the page size that never
      decreases, held records only extended, and `hasMore` never returning once false. */
  lemma {:induction false} RunInvariant(s: FetchState, es: seq<Event>)
    requires Settled(s)
    ensures Settled(Run(s, es))
    ensures s.offset <= Run(s, es).offset
    ensures |s.games| <= |Run(s, es).games| && Run(s, es).games[..|s.games|] == s.games
    ensures !s.hasMore ==> Run(s, es) == s
    decreases |es|
  {
    if es != [] {
      var t := Step(s, es[0]);
      assert Settled(t) && s.offset <= t.offset;
      assert t.games[..|s.games|] == s.games;
      RunInvariant(t, es[1..]);
      var u := Run(t, es[1..]);
      assert u.games[..|s.games|] == u.games[..|t.games|][..|s.games|];
    }
  }

  /** From the start: offset a multiple of 20, and an empty page ends paging for good. */
  lemma EmptyPageEndsPaging(es: seq<Event>, more: seq<Event>)
    requires !Run(Initial, es).hasMore
    ensures Run(Initial, es + more) == Run(Initial, es)
    ensures Run(Initial, es).offset % PageSize == 0
  {
    RunAppend(Initial, es, more);
    RunInvariant(Initial, es);
    RunInvariant(Run(Initial, es), more);
  }

  lemma {:induction false} RunAppend(s: FetchState, a: seq<Event>, b: seq<Event>)
    ensures Run(s, a + b) == Run(Run(s, a), b)
    decreases |a|
  {
    if a != [] {
      assert (a + b)[1..] == a[1..] + b;
      RunAppend(Step(s, a[0]), a[1..], b);
    } else {
      assert a + b == b;
    }
  }
}

=== FILE: platformicons.dfy ===
/**
 * `platformIcons(platformName)`: the icon path for a platform, in two copies that differ only
 * in their icon table. The argument is unwrapped and trimmed, then tried in order as a URL, as
 * an `/icons/` path, as an exact table key, by the first table key it contains, as a file name,
 * and finally as a sanitized name with `.svg`.
 */
module PlatformIcons {
  import opened Wrappers
  import JsText
  import IconText

  /** What was passed: a nullish value, a string, or an object with or without a `name`. */
  datatype IconArg = NullArg | TextArg(s: string) | ObjArg(name: Option<string>)

  predicate Falsy(a: IconArg) { a.NullArg? || (a.TextArg? && a.s == []) }

  /** An object with a truthy `name` stands for the name; any other object prints as `[object Object]`. */
  function ArgText(a: IconArg): string
    requires !Falsy(a)
  {
    match a
    case TextArg(s) => s
    case ObjArg(name) => if name.Some? && name.value != [] then name.value else "[object Object]"
  }

  /** The table of `platformIcons.js`, in declared order. */
  const ScriptTable: IconText.IconTable := [
    ("android", "mobile.svg"), ("ios", "mobile.svg"), ("mobile", "mobile.svg"), ("pc", "pc.svg"),
    ("windows", "pc.svg"), ("microsoft windows", "pc.svg"), ("pc (microsoft windows)", "pc.svg"),
    ("mac", "pc.svg"), ("linux", "pc.svg"), ("playstation", "playstation.svg"),
    ("playstation 5", "playstation.svg"), ("ps5", "playstation.svg"), ("ps4", "playstation.svg"),
    ("xbox", "xbox.svg"), ("xsx", "xbox.svg"), ("xboxseries", "xbox.svg"), ("switch", "switch.svg"),
    ("nintendo", "switch.svg"), ("stadia", "stadia.svg")]

  /** The table of `platformIcons.jsx`: the same keys, with their own files for four of them. */
  const ComponentTable: IconText.IconTable := [
    ("android", "android.svg"), ("ios", "ios.svg"), ("mobile", "mobile.svg"), ("pc", "pc.svg"),
    ("windows", "pc.svg"), ("microsoft windows", "pc.svg"), ("pc (microsoft windows)", "pc.svg"),
    ("mac", "mac.svg"), ("linux", "linux.svg"), ("playstation", "playstation.svg"),
    ("playstation 5", "playstation.svg"), ("ps5", "playstation.svg"), ("ps4", "playstation.svg"),
    ("xbox", "xbox.svg"), ("xsx", "xbox.svg"), ("xboxseries", "xbox.svg"), ("switch", "switch.svg"),
    ("nintendo", "switch.svg"), ("stadia", "stadia.svg")]

  /** The keys both tables declare, in order. */
  const TableKeys: seq<string> := [
    "android", "ios", "mobile", "pc", "windows", "microsoft windows", "pc (microsoft windows)", "mac",
    "linux", "playstation", "playstation 5", "ps5", "ps4", "xbox", "xsx", "xboxseries", "switch",
    "nintendo", "stadia"]

  const IconsDir: string := "/icons/"

  /** The table entry whose own key is exactly `key`: the first, should a key repeat. */
  function ExactIndex(table: IconText.IconTable, key: string): (r: Option<nat>)
    ensures r.Some? ==> r.value < |table| && table[r.value].0 == key
    ensures r.Some? ==> forall j :: 0 <= j < r.value ==> table[j].0 != key
    ensures r.None? ==> forall j :: 0 <= j < |table| ==> table[j].0 != key
  {
    if table == [] then None
    else if table[0].0 == key then Some(0)
    else match ExactIndex(table[1..], key)
      case None => None
      case Some(k) => Some(k + 1)
  }

  /** `/\.(svg|png|jpg|jpeg|webp)$/i`. */
  predicate HasImageFileExt(s: string) {
    || JsText.EndsWithIgnoringCase(s, ".svg") || JsText.EndsWithIgnoringCase(s, ".png")
    || JsText.EndsWithIgnoringCase(s, ".jpg") || JsText.EndsWithIgnoringCase(s, ".jpeg")
    || JsText.EndsWithIgnoringCase(s, ".webp")
  }

  /** `ICON_MAP[lower]` as an own-key lookup, then the first key in declared order that `lower` contains. */
  function Lookup(table: IconText.IconTable, lower: string): (r: Option<string>)
    ensures r.Some? ==> exists i :: 0 <= i < |table| && r.value == table[i].1
  {
    match ExactIndex(table, lower)
    case Some(i) => Some(table[i].1)
    case None =>
      match IconText.FirstKeyIn(table, lower)
      case Some(i) => Some(table[i].1)
      case None => None
  }

  /** No key matched: a file name is kept when it holds a path, else sanitized; anything else gets `.svg`. */
  function FileFallback(input: string): (r: string)
    ensures r == input || JsText.StartsWith(r, IconsDir)
  {
    if HasImageFileExt(input) then
      if '/' in input then input else IconsDir + IconText.Sanitize(input)
    else IconsDir + IconText.Sanitize(JsText.Lower(input)) + ".svg"
  }

  /** The decision chain on the trimmed input. */
  function Resolve(table: IconText.IconTable, input: string): (r: string)
    ensures r == input || JsText.StartsWith(r, IconsDir)
    ensures '/' in r
  {
    if JsText.HasHttpScheme(input) then
      JsText.HttpSchemeHasSlash(input);
      input
    else if JsText.StartsWith(input, IconsDir) then
      assert input[0] == '/';
      input
    else
      match Lookup(table, JsText.Lower(input))
      case Some(file) =>
        assert (IconsDir + file)[0] == '/';
        IconsDir + file
      case None =>
        var r := FileFallback(input);
        if r == input then
          assert HasImageFileExt(input) && '/' in input;
          r
        else
          assert r[0] == '/';
          r
  }

  /** `platformIcons(platformName)`: `null` for a falsy argument, a path for any other. */
  function PlatformIcon(table: IconText.IconTable, arg: IconArg): (r: Option<string>)
    ensures r.None? <==> Falsy(arg)
    ensures r.Some? ==> '/' in r.value
  {
    if Falsy(arg) then None else Some(Resolve(table, JsText.Trim(ArgText(arg))))
  }

  // ---------------------------------------------------------------- the decision order

  /** An http(s) URL comes back trimmed and otherwise as it is. */
  lemma UrlUnchanged(table: IconText.IconTable, s: string)
    requires JsText.HasHttpScheme(JsText.Trim(s))
    ensures PlatformIcon(table, TextArg(s)) == Some(JsText.Trim(s))
  {
  }

  /** A path under `/icons/` comes back trimmed and otherwise as it is. */
  lemma IconsPathUnchanged(table: IconText.IconTable, s: string)
    requires JsText.StartsWith(JsText.Trim(s), IconsDir)
    ensures PlatformIcon(table, TextArg(s)) == Some(JsText.Trim(s))
  {
  }

  /** Otherwise an exact key gives its file, even when an earlier key is contained in it. */
  lemma ExactKeyWins(table: IconText.IconTable, s: string, i: nat)
    requires var t := JsText.Trim(s); !JsText.HasHttpScheme(t) && !JsText.StartsWith(t, IconsDir)
    requires i < |table| && table[i].0 != [] && JsText.Lower(JsText.Trim(s)) == table[i].0
    requires forall j :: 0 <= j < i ==> table[j].0 != table[i].0
    ensures PlatformIcon(table, TextArg(s)) == Some(IconsDir + table[i].1)
  {
    var t := JsText.Trim(s);
    assert |t| <= |s| && s != [];
    ExactIndexAt(table, table[i].0, i);
    ResolveExact(table, t, i);
    IconOfText(table, s);
  }

  /** An entry whose key is `key`, with no earlier entry of that key, is the one found. */
  lemma {:induction false} ExactIndexAt(table: IconText.IconTable, key: string, i: nat)
    requires i < |table| && table[i].0 == key
    requires forall j :: 0 <= j < i ==> table[j].0 != key
    ensures ExactIndex(table, key) == Some(i)
  {
    if i > 0 {
      assert forall j :: 0 <= j < i - 1 ==> table[1..][j] == table[j + 1];
      ExactIndexAt(table[1..], key, i - 1);
    }
  }

  /** Past the URL and `/icons/` tests, an exact key gives its file. */
  lemma ResolveExact(table: IconText.IconTable, input: string, i: nat)
    requires !JsText.HasHttpScheme(input) && !JsText.StartsWith(input, IconsDir)
    requires ExactIndex(table, JsText.Lower(input)) == Some(i)
    ensures Resolve(table, input) == IconsDir + table[i].1
  {
  }

  /** Without an exact key, the first key in declared order that the lowercased input contains gives its file. */
  lemma ContainedKeyWins(table: IconText.IconTable, s: string, i: nat)
    requires s != []
    requires var t := JsText.Trim(s); !JsText.HasHttpScheme(t) && !JsText.StartsWith(t, IconsDir)
    requires forall j :: 0 <= j < |table| ==> table[j].0 != JsText.Lower(JsText.Trim(s))
    requires i < |table| && JsText.Contains(JsText.Lower(JsText.Trim(s)), table[i].0)
    requires forall j :: 0 <= j < i ==> !JsText.Contains(JsText.Lower(JsText.Trim(s)), table[j].0)
    ensures PlatformIcon(table, TextArg(s)) == Some(IconsDir + table[i].1)
  {
    var lower := JsText.Lower(JsText.Trim(s));
    IconOfText(table, s);
    IconText.FirstKeyInUnique(table, lower, i);
    assert ExactIndex(table, lower).None?;
    assert Lookup(table, lower) == Some(table[i].1);
  }

  /**
   * An exact key is also contained in the input, so the contained-key step would have picked
   * that key or one declared before it.
   */
  lemma ExactKeyIsContained(table: IconText.IconTable, lower: string, i: nat)
    requires ExactIndex(table, lower) == Some(i)
    ensures IconText.FirstKeyIn(table, lower).Some? && IconText.FirstKeyIn(table, lower).value <= i
  {
    JsText.ContainsItself(lower);
  }

  /**
   * With no key matching: a file name with an image extension is kept when it holds a path and
   * otherwise sanitized under `/icons/`; anything else becomes `/icons/<sanitized>.svg`.
   */
  lemma FileNameAndFallback(table: IconText.IconTable, s: string)
    requires var t := JsText.Trim(s); t != [] && !JsText.HasHttpScheme(t) && !JsText.StartsWith(t, IconsDir)
    requires forall j :: 0 <= j < |table| ==> !JsText.Contains(JsText.Lower(JsText.Trim(s)), table[j].0)
    ensures var t := JsText.Trim(s); var r := PlatformIcon(table, TextArg(s)).value;
      && (HasImageFileExt(t) && '/' in t ==> r == t)
      && (HasImageFileExt(t) && '/' !in t ==> r == IconsDir + IconText.Sanitize(t))
      && (!HasImageFileExt(t) ==> r == IconsDir + IconText.Sanitize(JsText.Lower(t)) + ".svg")
  {
    var lower := JsText.Lower(JsText.Trim(s));
    assert |JsText.Trim(s)| <= |s|;
    IconOfText(table, s);
    NoKeyNoLookup(table, lower);
  }

  /** A text that contains no key has no lookup result. */
  lemma NoKeyNoLookup(table: IconText.IconTable, lower: string)
    requires forall j :: 0 <= j < |table| ==> !JsText.Contains(lower, table[j].0)
    ensures Lookup(table, lower).None?
  {
    JsText.ContainsItself(lower);
    assert ExactIndex(table, lower).None?;
  }

  /** An object with a truthy `name` is looked up as that name. */
  lemma ObjectNameUnwrapped(table: IconText.IconTable, name: string)
    requires name != []
    ensures PlatformIcon(table, ObjArg(Some(name))) == PlatformIcon(table, TextArg(name))
  {
  }

  /** Surrounding white space makes no difference once the argument is truthy. */
  lemma PaddingIgnored(table: IconText.IconTable, s: string)
    requires JsText.Trim(s) != []
    ensures PlatformIcon(table, TextArg(s)) == PlatformIcon(table, TextArg(JsText.Trim(s)))
  {
    var t := JsText.Trim(s);
    assert |t| <= |s|;
    JsText.TrimIdempotent(s);
    IconOfText(table, t);
    IconOfText(table, s);
  }

  /** A non-empty string argument goes through the chain trimmed. */
  lemma IconOfText(table: IconText.IconTable, s: string)
    requires s != []
    ensures PlatformIcon(table, TextArg(s)) == Some(Resolve(table, JsText.Trim(s)))
  {
  }

  /** The two tables have the same keys in the same order; they differ in the files of `android`, `ios`, `mac` and `linux` alone. */
  lemma TablesDiffer()
    ensures |ScriptTable| == |ComponentTable| == |TableKeys| == 19
    ensures forall i :: 0 <= i < 19 ==> ScriptTable[i].0 == TableKeys[i] && ComponentTable[i].0 == TableKeys[i]
    ensures forall i :: 0 <= i < 19 ==> (ScriptTable[i].1 != ComponentTable[i].1 <==> i in {0, 1, 7, 8})
    ensures ComponentTable[0].1 == "android.svg" && ComponentTable[1].1 == "ios.svg"
    ensures ComponentTable[7].1 == "mac.svg" && ComponentTable[8].1 == "linux.svg"
  {
  }

  // ---------------------------------------------------------------- the inherited-key lookup

  /**
   * The members a plain object inherits whose names are all lowercase, so that a lowercased
   * input can equal them, with the text a template prints for each: `constructor` is the
   * `Object` function and `__proto__` the prototype object. Every other inherited member
   * (`toString`, `hasOwnProperty`, `__defineGetter__`, ...) has an uppercase letter.
   */
  const Inherited: IconText.IconTable := [
    ("constructor", "function Object() { [native code] }"), ("__proto__", "[object Object]")]

  /** `ICON_MAP[lower]` as the code reads it: an own key, else an inherited member, both truthy. */
  function LookupAsWritten(table: IconText.IconTable, lower: string): (r: Option<string>)
    ensures ExactIndex(table, lower).Some? ==> r == Some(table[ExactIndex(table, lower).value].1)
  {
    match ExactIndex(table, lower)
    case Some(i) => Some(table[i].1)
    case None =>
      match ExactIndex(Inherited, lower)
      case Some(k) => Some(Inherited[k].1)
      case None => None
  }

  /** The decision chain as written: the own-or-inherited lookup is tried before the chain's own lookup. */
  function ResolveAsWritten(table: IconText.IconTable, input: string): (r: string)
    ensures r == input || JsText.StartsWith(r, IconsDir)
    ensures '/' in r
  {
    var lower := JsText.Lower(input);
    if JsText.HasHttpScheme(input) then
      JsText.HttpSchemeHasSlash(input);
      input
    else if JsText.StartsWith(input, IconsDir) then
      assert input[0] == '/';
      input
    else match LookupAsWritten(table, lower)
      case Some(file) =>
        assert (IconsDir + file)[0] == '/';
        IconsDir + file
      case None => Resolve(table, input)
  }

  /** `platformIcons(platformName)` as written: `null` for a falsy argument, a path for any other. */
  function PlatformIconAsWritten(table: IconText.IconTable, arg: IconArg): (r: Option<string>)
    ensures r.None? <==> Falsy(arg)
    ensures r.Some? ==> '/' in r.value
  {
    if Falsy(arg) then None else Some(ResolveAsWritten(table, JsText.Trim(ArgText(arg))))
  }

  /** Apart from the inherited names, the code as written and the own-key lookup agree. */
  lemma AsWrittenAgreesOffInherited(table: IconText.IconTable, input: string)
    requires ExactIndex(Inherited, JsText.Lower(input)).None?
    ensures ResolveAsWritten(table, input) == Resolve(table, input)
  {
  }

  /** Neither inherited name holds a key: each key has a letter they lack. */
  lemma InheritedNamesHoldNoKey()
    ensures forall k, j :: 0 <= k < |Inherited| && 0 <= j < |TableKeys| ==> !JsText.Contains(Inherited[k].0, TableKeys[j])
  {
    ConstructorHoldsNoKey();
    ProtoHoldsNoKey();
  }

  lemma ConstructorHoldsNoKey()
    ensures forall j :: 0 <= j < |TableKeys| ==> !JsText.Contains("constructor", TableKeys[j])
  {
    var missing := [0, 0, 0, 0, 0, 0, 0, 0, 0, 0, 0, 0, 0, 0, 0, 0, 1, 1, 2];
    forall j | 0 <= j < 19 ensures !JsText.Contains("constructor", TableKeys[j]) {
      assert missing[j] < |TableKeys[j]| && TableKeys[j][missing[j]] !in "constructor";
      JsText.MissingCharNotContained("constructor", TableKeys[j], missing[j]);
    }
  }

  lemma ProtoHoldsNoKey()
    ensures forall j :: 0 <= j < |TableKeys| ==> !JsText.Contains("__proto__", TableKeys[j])
  {
    var lacking := [0, 0, 0, 1, 0, 0, 1, 0, 0, 1, 1, 2, 2, 0, 0, 0, 0, 0, 0];
    forall j | 0 <= j < 19 ensures !JsText.Contains("__proto__", TableKeys[j]) {
      assert lacking[j] < |TableKeys[j]| && TableKeys[j][lacking[j]] !in "__proto__";
      JsText.MissingCharNotContained("__proto__", TableKeys[j], lacking[j]);
    }
  }

  /** The inherited names are plain lowercase file names. */
  lemma InheritedNameShape(k: nat)
    requires k < |Inherited|
    ensures var name := Inherited[k].0;
      && name != [] && '.' !in name && '/' !in name
      && (forall i :: 0 <= i < |name| ==> IconText.IsFileChar(name[i]) && !JsText.IsSpace(name[i]))
      && IconText.NoEdgeDash(name) && IconText.NoDoubleDash(name)
      && ExactIndex(Inherited, name) == Some(k)
  {
  }

  /** A text without a dot ends in no image extension. */
  lemma NoDotNoExt(s: string)
    requires '.' !in s
    ensures !HasImageFileExt(s)
  {
    NoDotNoSuffix(s, ".svg");
    NoDotNoSuffix(s, ".png");
    NoDotNoSuffix(s, ".jpg");
    NoDotNoSuffix(s, ".jpeg");
    NoDotNoSuffix(s, ".webp");
  }

  lemma NoDotNoSuffix(s: string, ext: string)
    requires ext != [] && ext[0] == '.' && '.' !in s
    ensures !JsText.EndsWithIgnoringCase(s, ext)
  {
    if |ext| <= |s| {
      var k := |s| - |ext|;
      assert JsText.Lower(s[k..])[0] == JsText.LowerChar(s[k]);
      assert s[k] in s;
      assert JsText.Lower(ext)[0] == '.';
    }
  }

  /** Both tables declare `TableKeys`. */
  lemma KeysOf(table: IconText.IconTable)
    requires table == ScriptTable || table == ComponentTable
    ensures |table| == |TableKeys| && forall j :: 0 <= j < |table| ==> table[j].0 == TableKeys[j]
  {
    TablesDiffer();
  }

  /** A name that holds no key of a table matches none of its entries. */
  lemma NameMissesTable(table: IconText.IconTable, name: string)
    requires |table| == |TableKeys| && forall j :: 0 <= j < |table| ==> table[j].0 == TableKeys[j]
    requires forall j :: 0 <= j < |TableKeys| ==> !JsText.Contains(name, TableKeys[j])
    ensures ExactIndex(table, name).None?
    ensures Lookup(table, name).None?
  {
    JsText.ContainsItself(name);
    NoKeyNoLookup(table, name);
  }

  /** The facts about a plain lowercase file name that the decision chain looks at. */
  lemma PlainNameShape(name: string)
    requires name != [] && '.' !in name && '/' !in name
    requires forall i :: 0 <= i < |name| ==> IconText.IsFileChar(name[i]) && !JsText.IsSpace(name[i])
    requires IconText.NoEdgeDash(name) && IconText.NoDoubleDash(name)
    ensures JsText.Trim(name) == name && JsText.Lower(name) == name
    ensures !JsText.HasHttpScheme(name) && !JsText.StartsWith(name, IconsDir) && !HasImageFileExt(name)
    ensures IconText.Sanitize(name) == name
  {
    JsText.TrimNoPadding(name);
    NotUrlNorPath(name);
    NoDotNoExt(name);
    LowerFileName(name);
    IconText.SanitizeFixed(name);
  }

  lemma NotUrlNorPath(name: string)
    requires name != [] && '/' !in name
    ensures !JsText.HasHttpScheme(name) && !JsText.StartsWith(name, IconsDir)
  {
    JsText.NoSlashNoScheme(name);
    assert name[0] in name;
  }

  lemma LowerFileName(name: string)
    requires forall i :: 0 <= i < |name| ==> IconText.IsFileChar(name[i])
    ensures JsText.Lower(name) == name
  {
    assert forall i :: 0 <= i < |name| ==> !JsText.IsUpperAscii(name[i]);
    IconText.LowerOfLower(name);
  }

  /** Past the URL and `/icons/` tests, with no key found, the chain ends in the file-name fallback. */
  lemma ResolveFallsBack(table: IconText.IconTable, input: string)
    requires !JsText.HasHttpScheme(input) && !JsText.StartsWith(input, IconsDir)
    requires Lookup(table, JsText.Lower(input)).None?
    ensures Resolve(table, input) == FileFallback(input)
  {
  }

  /** A lowercase name of file characters, without a dot, slash or edge dash, that matches no key falls back to `/icons/<name>.svg`. */
  lemma PlainNameFallsBack(table: IconText.IconTable, name: string)
    requires name != [] && '.' !in name && '/' !in name
    requires forall i :: 0 <= i < |name| ==> IconText.IsFileChar(name[i]) && !JsText.IsSpace(name[i])
    requires IconText.NoEdgeDash(name) && IconText.NoDoubleDash(name)
    requires Lookup(table, name).None?
    ensures JsText.Trim(name) == name && JsText.Lower(name) == name
    ensures PlatformIcon(table, TextArg(name)) == Some(IconsDir + name + ".svg")
  {
    PlainNameShape(name);
    ResolveFallsBack(table, name);
    IconOfText(table, name);
  }

  /** Past the URL and `/icons/` tests, the code as written consults its lookup first. */
  lemma AsWrittenLooksUp(table: IconText.IconTable, input: string)
    requires !JsText.HasHttpScheme(input) && !JsText.StartsWith(input, IconsDir)
    requires LookupAsWritten(table, JsText.Lower(input)).Some?
    ensures ResolveAsWritten(table, input) == IconsDir + LookupAsWritten(table, JsText.Lower(input)).value
  {
  }

  /** As written, a lowercase inherited name missing from the table is answered by the inherited member. */
  lemma InheritedAsWritten(table: IconText.IconTable, name: string, k: nat)
    requires k < |Inherited| && ExactIndex(Inherited, name) == Some(k)
    requires name != [] && !JsText.HasHttpScheme(name) && !JsText.StartsWith(name, IconsDir)
    requires JsText.Trim(name) == name && JsText.Lower(name) == name
    requires ExactIndex(table, name).None?
    ensures PlatformIconAsWritten(table, TextArg(name)) == Some(IconsDir + Inherited[k].1)
  {
    assert LookupAsWritten(table, name) == Some(Inherited[k].1);
    AsWrittenLooksUp(table, name);
  }

  /**
   * As written, `constructor` and `__proto__` are answered by the members the icon table
   * inherits and give paths that name no file (`/icons/function Object() { [native code] }`,
   * `/icons/[object Object]`); with own keys only they reach the fallback `/icons/<name>.svg`.
   */
  lemma InheritedKeys(table: IconText.IconTable, k: nat)
    requires table == ScriptTable || table == ComponentTable
    requires k < |Inherited|
    ensures PlatformIconAsWritten(table, TextArg(Inherited[k].0)) == Some(IconsDir + Inherited[k].1)
    ensures PlatformIcon(table, TextArg(Inherited[k].0)) == Some(IconsDir + Inherited[k].0 + ".svg")
  {
    KeysOf(table);
    InheritedKeysOf(table, k);
  }

  lemma InheritedKeysOf(table: IconText.IconTable, k: nat)
    requires |table| == |TableKeys| && forall j :: 0 <= j < |table| ==> table[j].0 == TableKeys[j]
    requires k < |Inherited|
    ensures PlatformIconAsWritten(table, TextArg(Inherited[k].0)) == Some(IconsDir + Inherited[k].1)
    ensures PlatformIcon(table, TextArg(Inherited[k].0)) == Some(IconsDir + Inherited[k].0 + ".svg")
  {
    var name := Inherited[k].0;
    InheritedMissesTable(table, k);
    InheritedNameShape(k);
    PlainNameFallsBack(table, name);
    InheritedAsWrittenAt(table, k);
  }

  lemma InheritedMissesTable(table: IconText.IconTable, k: nat)
    requires |table| == |TableKeys| && forall j :: 0 <= j < |table| ==> table[j].0 == TableKeys[j]
    requires k < |Inherited|
    ensures ExactIndex(table, Inherited[k].0).None? && Lookup(table, Inherited[k].0).None?
  {
    InheritedNamesHoldNoKey();
    NameMissesTable(table, Inherited[k].0);
  }

  lemma InheritedAsWrittenAt(table: IconText.IconTable, k: nat)
    requires k < |Inherited|
    requires ExactIndex(table, Inherited[k].0).None?
    ensures PlatformIconAsWritten(table, TextArg(Inherited[k].0)) == Some(IconsDir + Inherited[k].1)
  {
    var name := Inherited[k].0;
    InheritedNameShape(k);
    PlainNameShape(name);
    InheritedAsWritten(table, name, k);
  }
}

=== FILE: platforms.dfy ===
/**
 * Platform names and platform lists: the `extractPlatforms` helpers (the shared string variant
 * and the carousel's object variant), the de-duplicated platform lists of the home page and the
 * shared helpers, and the home page's platform filters.
 */
module Platforms {
  import opened Wrappers
  import opened GameModel
  import JsText
  import FirstSeen

  /** `ds.map(f)`. */
  function Names(ds: seq<Descriptor>, f: Descriptor -> string): (r: seq<string>)
    ensures |r| == |ds|
    ensures forall i :: 0 <= i < |ds| ==> r[i] == f(ds[i])
  {
    seq(|ds|, i requires 0 <= i < |ds| => f(ds[i]))
  }

  predicate NonEmpty(s: string) { s != [] }

  // ---------------------------------------------------------------- the string variant

  /** A `platforms` entry: the string itself, or `name || abbreviation || slug || ""`. */
  function DescriptorName(d: Descriptor): string {
    match d
    case Str(s) => s
    case Obj(_, name, abbreviation, slug) => OrEmpty(Or(name, Or(abbreviation, slug)))
  }

  /** A `platform` array entry: the string itself, or `name || ""`. */
  function ListItemName(d: Descriptor): string {
    match d
    case Str(s) => s
    case Obj(_, name, _, _) => OrEmpty(name)
  }

  /** The singular `platform` fallback. */
  function FieldNames(f: PlatformField): (r: seq<string>)
    ensures f.PlatformList? ==> |r| == |f.items|
    ensures f.PlatformObj? ==> |r| == 1
    ensures f.NoPlatform? ==> r == []
  {
    match f
    case NoPlatform => []
    case PlatformList(items) => Names(items, ListItemName)
    case PlatformText(s) => if s == [] then [] else [s]
    case PlatformObj(_, name, abbreviation, _) => [OrEmpty(Or(name, abbreviation))]
  }

  predicate HasPlatforms(g: Game) { g.platforms.Some? && |g.platforms.value| > 0 }

  predicate HasPlatformsNames(g: Game) { g.platformsNames.Some? && |g.platformsNames.value| > 0 }

  /**
   * `extractPlatforms` of the shared helpers and both game-grid components: a non-empty
   * `platforms` array, else a non-empty `platforms_names` array, else `platform`.
   */
  function ExtractNames(game: Option<Game>): (r: seq<string>)
    ensures game.None? ==> r == []
    ensures game.Some? && HasPlatforms(game.value) ==>
      |r| <= |game.value.platforms.value| && forall s :: s in r ==> s != []
  {
    if game.None? then []
    else
      var g := game.value;
      if HasPlatforms(g) then Keep(Names(g.platforms.value, DescriptorName), NonEmpty)
      else if HasPlatformsNames(g) then g.platformsNames.value
      else FieldNames(g.platform)
  }

  /** With a non-empty `platforms` array the names are exactly the non-empty descriptor names, in order. */
  lemma PlatformsBranch(g: Game)
    requires HasPlatforms(g)
    ensures var r := ExtractNames(Some(g)); var ds := g.platforms.value;
      && FirstSeen.IsSubsequence(r, Names(ds, DescriptorName))
      && (forall i :: 0 <= i < |ds| && DescriptorName(ds[i]) != [] ==> DescriptorName(ds[i]) in r)
      && (forall s :: s in r ==> s != [] && exists i :: 0 <= i < |ds| && DescriptorName(ds[i]) == s)
  {
    var ds := g.platforms.value;
    var names := Names(ds, DescriptorName);
    KeepIsSubsequence(names, NonEmpty);
    forall s | s in ExtractNames(Some(g)) ensures exists i :: 0 <= i < |ds| && DescriptorName(ds[i]) == s {
      var i :| 0 <= i < |names| && names[i] == s;
    }
  }

  /** A filter's result is a subsequence of its input. */
  lemma {:induction false} KeepIsSubsequence<T>(s: seq<T>, p: T -> bool)
    ensures FirstSeen.IsSubsequence(Keep(s, p), s)
    decreases |s|
  {
    if s == [] {
    } else {
      var init, last := s[..|s| - 1], s[|s| - 1];
      assert s == init + [last];
      KeepAppend(init, [last], p);
      KeepIsSubsequence(init, p);
      FirstSeen.SubsequenceExtend(Keep(init, p), init, last);
      if p(last) {
        assert Keep([last], p) == [last];
      } else {
        assert Keep([last], p) == [];
        assert Keep(init, p) + [] == Keep(init, p);
      }
    }
  }

  /** An absent or empty `platforms` array falls back to a copy of a non-empty `platforms_names`. */
  lemma NamesBranch(g: Game)
    requires !HasPlatforms(g) && HasPlatformsNames(g)
    ensures ExtractNames(Some(g)) == g.platformsNames.value
  {
  }

  /** Without either array the `platform` property decides; entries of a `platform` array are never dropped, even when empty. */
  lemma FieldBranch(g: Game)
    requires !HasPlatforms(g) && !HasPlatformsNames(g)
    ensures var r := ExtractNames(Some(g));
      && (g.platform.PlatformList? ==>
            |r| == |g.platform.items| && forall i :: 0 <= i < |r| ==> r[i] == ListItemName(g.platform.items[i]))
      && (g.platform.PlatformText? && g.platform.text != [] ==> r == [g.platform.text])
      && (g.platform.PlatformObj? ==> r == [OrEmpty(Or(g.platform.name, g.platform.abbreviation))])
      && (g.platform.NoPlatform? || g.platform == PlatformText([]) ==> r == [])
  {
  }

  const Unnamed: Descriptor := Obj(None, None, None, None)

  lemma NamelessDroppedFromPlatforms()
    ensures ExtractNames(Some(Blank.(platforms := Some([Unnamed, Str("PC")])))) == ["PC"]
  {
    var g := Blank.(platforms := Some([Unnamed, Str("PC")]));
    var names := Names([Unnamed, Str("PC")], DescriptorName);
    assert HasPlatforms(g);
    assert ExtractNames(Some(g)) == Keep(names, NonEmpty);
    assert names == [""] + ["PC"];
    KeepAppend([""], ["PC"], NonEmpty);
  }

  lemma NamelessKeptInPlatformList()
    ensures ExtractNames(Some(Blank.(platform := PlatformList([Unnamed, Str("PC")])))) == ["", "PC"]
  {
    assert Names([Unnamed, Str("PC")], ListItemName) == ["", "PC"];
  }

  /** The same nameless object is dropped in `platforms` but kept as "" in `platform`. */
  lemma EmptyNameKeptOnlyInFieldBranch()
    ensures ExtractNames(Some(Blank.(platforms := Some([Unnamed, Str("PC")])))) == ["PC"]
    ensures ExtractNames(Some(Blank.(platform := PlatformList([Unnamed, Str("PC")])))) == ["", "PC"]
  {
    NamelessDroppedFromPlatforms();
    NamelessKeptInPlatformList();
  }

  // ---------------------------------------------------------------- the filter hook's variant

  /**
   * The platform names the filter hook matches against: a `platforms` array (even empty), else a
   * `platforms_names` array, else a `platform` array or non-empty string; a lone `platform` object gives none.
   */
  function HookNames(g: Game): seq<string> {
    if g.platforms.Some? then Names(g.platforms.value, DescriptorName)
    else if g.platformsNames.Some? then g.platformsNames.value
    else
      match g.platform
      case PlatformList(items) => Names(items, ListItemName)
      case PlatformText(s) => if s == [] then [] else [s]
      case _ => []
  }

  /**
   * How the hook's names relate to `extractPlatforms`: equal up to empty names while `platforms`
   * is non-empty, equal on the other arrays, and empty where `extractPlatforms` reads a lone object.
   */
  lemma HookNamesAgainstExtract(g: Game)
    ensures HasPlatforms(g) ==> Keep(HookNames(g), NonEmpty) == ExtractNames(Some(g))
    ensures g.platforms.None? && HasPlatformsNames(g) ==> HookNames(g) == ExtractNames(Some(g))
    ensures g.platforms.None? && g.platformsNames.None? && !g.platform.PlatformObj? ==>
      HookNames(g) == ExtractNames(Some(g))
    ensures g.platforms.None? && g.platformsNames.None? && g.platform.PlatformObj? ==>
      HookNames(g) == [] && |ExtractNames(Some(g))| == 1
  {
  }

  /** An empty `platforms` array hides `platforms_names` from the hook but not from `extractPlatforms`. */
  lemma EmptyPlatformsArrayHidesNames(g: Game)
    requires g.platforms == Some([]) && HasPlatformsNames(g)
    ensures HookNames(g) == []
    ensures ExtractNames(Some(g)) == g.platformsNames.value != []
  {
  }

  // ---------------------------------------------------------------- the carousel's object variant

  /** A platform as the carousel renders it: `{ id, name }`. */
  datatype PlatformItem = PlatformItem(id: Option<Key>, name: Option<string>)

  /** `String(id || '')`. */
  function IdText(id: Option<Key>): (r: string)
    ensures !KeyTruthy(id) ==> r == []
    ensures KeyTruthy(id) ==> r != []
  {
    if !KeyTruthy(id) then []
    else match id.value
      case Num(n) => JsText.IntToString(n)
      case Text(s) => s
  }

  /** A `platforms` entry: a falsy string is dropped; an object's name falls back to its id. */
  function CarouselEntry(d: Descriptor): Option<PlatformItem> {
    match d
    case Str(s) => if s == [] then None else Some(PlatformItem(None, Some(s)))
    case Obj(id, name, abbreviation, slug) =>
      Some(PlatformItem(id, Some(OrEmpty(Or(name, Or(abbreviation, Or(slug, Some(IdText(id)))))))))
  }

  function CarouselEntries(ds: seq<Descriptor>): (r: seq<PlatformItem>)
    ensures |r| <= |ds|
  {
    if ds == [] then []
    else
      var rest := CarouselEntries(ds[1..]);
      match CarouselEntry(ds[0])
      case Some(item) => [item] + rest
      case None => rest
  }

  function CarouselFieldItem(d: Descriptor): PlatformItem {
    match d
    case Str(s) => PlatformItem(None, Some(s))
    case Obj(id, name, abbreviation, slug) => PlatformItem(id, Or(name, Or(abbreviation, slug)))
  }

  /** `extractPlatforms` of the carousel. */
  function CarouselPlatforms(game: Option<Game>): (r: seq<PlatformItem>)
    ensures game.None? ==> r == []
    ensures game.Some? && HasPlatforms(game.value) ==> |r| <= |game.value.platforms.value|
  {
    if game.None? then []
    else
      var g := game.value;
      if HasPlatforms(g) then CarouselEntries(g.platforms.value)
      else if HasPlatformsNames(g) then
        var ns := g.platformsNames.value;
        seq(|ns|, i requires 0 <= i < |ns| => PlatformItem(None, Some(ns[i])))
      else
        match g.platform
        case PlatformList(items) => seq(|items|, i requires 0 <= i < |items| => CarouselFieldItem(items[i]))
        case PlatformText(s) => if s == [] then [] else [PlatformItem(None, Some(s))]
        case PlatformObj(id, name, abbreviation, slug) => [PlatformItem(id, Or(name, Or(abbreviation, slug)))]
        case NoPlatform => []
  }

  function ItemNames(items: seq<PlatformItem>): (r: seq<string>)
    ensures |r| == |items|
  {
    seq(|items|, i requires 0 <= i < |items| => items[i].name.GetOr([]))
  }

  /** No object descriptor falls back to its id: one with no name, abbreviation or slug also has a falsy id. */
  predicate NoIdFallback(ds: seq<Descriptor>) {
    forall i :: 0 <= i < |ds| && ds[i].Obj? && DescriptorName(ds[i]) == [] ==> !KeyTruthy(ds[i].id)
  }

  /** The names one `platforms` entry contributes to the carousel. */
  function EntryNames(d: Descriptor): seq<string> {
    match CarouselEntry(d)
    case Some(item) => [item.name.GetOr([])]
    case None => []
  }

  lemma ItemNamesCons(ds: seq<Descriptor>)
    requires ds != []
    ensures ItemNames(CarouselEntries(ds)) == EntryNames(ds[0]) + ItemNames(CarouselEntries(ds[1..]))
  {
    var rest := CarouselEntries(ds[1..]);
    match CarouselEntry(ds[0]) {
      case Some(item) =>
        assert ItemNames([item] + rest) == [item.name.GetOr([])] + ItemNames(rest);
      case None =>
    }
  }

  lemma EntryAgrees(d: Descriptor)
    requires d.Obj? && DescriptorName(d) == [] ==> !KeyTruthy(d.id)
    ensures Keep(EntryNames(d), NonEmpty) == Keep([DescriptorName(d)], NonEmpty)
  {
  }

  /**
   * The carousel's names agree with `extractPlatforms` once empty names are dropped, as long as
   * no object needs the id fallback.
   */
  lemma {:induction false} CarouselEntriesAgree(ds: seq<Descriptor>)
    requires NoIdFallback(ds)
    ensures Keep(ItemNames(CarouselEntries(ds)), NonEmpty) == Keep(Names(ds, DescriptorName), NonEmpty)
  {
    if ds != [] {
      var tail := ds[1..];
      NoIdFallbackTail(ds);
      CarouselEntriesAgree(tail);
      ItemNamesCons(ds);
      NamesCons(ds);
      EntryAgrees(ds[0]);
      var mine, theirs := ItemNames(CarouselEntries(tail)), Names(tail, DescriptorName);
      KeepAppend(EntryNames(ds[0]), mine, NonEmpty);
      KeepAppend([DescriptorName(ds[0])], theirs, NonEmpty);
    }
  }

  lemma NoIdFallbackTail(ds: seq<Descriptor>)
    requires ds != [] && NoIdFallback(ds)
    ensures NoIdFallback(ds[1..])
    ensures ds[0].Obj? && DescriptorName(ds[0]) == [] ==> !KeyTruthy(ds[0].id)
  {
    var tail := ds[1..];
    forall i | 0 <= i < |tail| && tail[i].Obj? && DescriptorName(tail[i]) == []
      ensures !KeyTruthy(tail[i].id)
    {
      assert tail[i] == ds[i + 1];
    }
  }

  lemma NamesCons(ds: seq<Descriptor>)
    requires ds != []
    ensures Names(ds, DescriptorName) == [DescriptorName(ds[0])] + Names(ds[1..], DescriptorName)
  {
  }

  /** Only falsy strings leave the carousel's `platforms` entries; everything else yields one item, in order. */
  lemma {:induction false} CarouselEntriesCount(ds: seq<Descriptor>)
    ensures |CarouselEntries(ds)| == |ds| - |Keep(ds, d => d == Str([]))|
  {
    if ds != [] {
      CarouselEntriesCount(ds[1..]);
      assert ds == [ds[0]] + ds[1..];
      KeepAppend([ds[0]], ds[1..], d => d == Str([]));
    }
  }

  /** An object with nothing but a numeric id is named by the id's decimal text. */
  lemma IdFallbackExample()
    ensures CarouselPlatforms(Some(Blank.(platforms := Some([Obj(Some(Num(48)), None, None, None)]))))
      == [PlatformItem(Some(Num(48)), Some("48"))]
  {
    assert JsText.IntToString(4) == "4";
    assert JsText.IntToString(48) == "48";
    assert IdText(Some(Num(48))) == "48";
  }

  // ---------------------------------------------------------------- de-duplicated platform lists

  /** What a platform is de-duplicated by: `name || descriptor`; an object without a name is its own key. */
  datatype PlatformKey = Named(s: string) | Nameless(game: nat, slot: nat)

  /** One entry of some game's `platforms || []`, with where it came from. */
  datatype Entry = Entry(game: nat, slot: nat, descriptor: Descriptor)

  function EntryKey(e: Entry): Option<PlatformKey> {
    match e.descriptor
    case Str(s) => Some(Named(s))
    case Obj(_, name, _, _) => Some(if Truthy(name) then Named(name.value) else Nameless(e.game, e.slot))
  }

  function Row(game: nat, ds: seq<Descriptor>): (r: seq<Entry>)
    ensures |r| == |ds|
    ensures forall j :: 0 <= j < |ds| ==> r[j] == Entry(game, j, ds[j])
  {
    seq(|ds|, j requires 0 <= j < |ds| => Entry(game, j, ds[j]))
  }

  /** Every game's `platforms || []`, in order. */
  function Entries(games: seq<Game>): seq<Entry> {
    if games == [] then []
    else Entries(games[..|games| - 1]) + Row(|games| - 1, PlatformsOrEmpty(games[|games| - 1]))
  }

  lemma {:induction false} EntriesComplete(games: seq<Game>, i: nat, j: nat)
    requires i < |games| && j < |PlatformsOrEmpty(games[i])|
    ensures Entry(i, j, PlatformsOrEmpty(games[i])[j]) in Entries(games)
    decreases |games|
  {
    var n := |games| - 1;
    var row := Row(n, PlatformsOrEmpty(games[n]));
    if i == n {
      assert row[j] in row;
    } else {
      EntriesComplete(games[..n], i, j);
    }
  }

  lemma {:induction false} EntriesSound(games: seq<Game>, e: Entry)
    requires e in Entries(games)
    ensures e.game < |games| && e.slot < |PlatformsOrEmpty(games[e.game])|
    ensures e.descriptor == PlatformsOrEmpty(games[e.game])[e.slot]
    decreases |games|
  {
    var n := |games| - 1;
    var init := games[..n];
    if e in Entries(init) {
      EntriesSound(init, e);
    }
  }

  function Descriptors(es: seq<Entry>): (r: seq<Descriptor>)
    ensures |r| == |es|
  {
    seq(|es|, i requires 0 <= i < |es| => es[i].descriptor)
  }

  /** `uniquePlatforms` of the home page: the first descriptor with each key. */
  function UniquePlatforms(games: seq<Game>): seq<Descriptor> {
    Descriptors(FirstSeen.Dedup(Entries(games), EntryKey))
  }

  /** `getUniquePlatforms` of the shared helpers: the keys themselves, first-seen order. */
  function UniquePlatformKeys(games: seq<Game>): (r: seq<PlatformKey>) {
    var kept := FirstSeen.Dedup(Entries(games), EntryKey);
    FirstSeen.DedupKeys(Entries(games), EntryKey);
    seq(|kept|, i requires 0 <= i < |kept| => EntryKey(kept[i]).value)
  }

  /**
   * The de-duplicated keys: pairwise distinct, one for every platform of every game, each
   * belonging to the first platform with that key.
   */
  lemma UniquePlatformKeysSpec(games: seq<Game>)
    ensures var r := UniquePlatformKeys(games);
      && (forall a, b :: 0 <= a < b < |r| ==> r[a] != r[b])
      && (forall i, j :: 0 <= i < |games| && 0 <= j < |PlatformsOrEmpty(games[i])| ==>
            EntryKey(Entry(i, j, PlatformsOrEmpty(games[i])[j])).value in r)
      && (forall k :: k in r ==> exists e :: e in Entries(games) && EntryKey(e) == Some(k))
  {
    var es := Entries(games);
    var kept := FirstSeen.Dedup(es, EntryKey);
    var r := UniquePlatformKeys(games);
    FirstSeen.DedupDistinctKeys(es, EntryKey);
    FirstSeen.DedupKeys(es, EntryKey);
    forall i, j | 0 <= i < |games| && 0 <= j < |PlatformsOrEmpty(games[i])|
      ensures EntryKey(Entry(i, j, PlatformsOrEmpty(games[i])[j])).value in r
    {
      var e := Entry(i, j, PlatformsOrEmpty(games[i])[j]);
      EntriesComplete(games, i, j);
      var n :| 0 <= n < |es| && es[n] == e;
      assert EntryKey(e).value in FirstSeen.KeysOf(es, EntryKey);
      var m :| 0 <= m < |kept| && EntryKey(kept[m]) == EntryKey(e);
      assert r[m] == EntryKey(e).value;
    }
    forall k | k in r ensures exists e :: e in es && EntryKey(e) == Some(k) {
      var m :| 0 <= m < |r| && r[m] == k;
      assert k in FirstSeen.KeysOf(kept, EntryKey);
    }
  }

  /** The home page's list and the helpers' list agree position by position: each key names its descriptor. */
  lemma UniqueListsAgree(games: seq<Game>)
    ensures var ds := UniquePlatforms(games); var ks := UniquePlatformKeys(games);
      && |ds| == |ks|
      && forall i :: 0 <= i < |ds| ==>
           match ks[i]
           case Named(s) => ds[i] == Str(s) || (ds[i].Obj? && ds[i].name == Some(s) && s != [])
           case Nameless(_, _) => ds[i].Obj? && !Truthy(ds[i].name)
  {
  }

  /** Two copies of a string platform collapse; two objects without a name never do. */
  lemma NamelessObjectsStay()
    ensures var nameless := Obj(None, None, Some("PC"), None);
      var g := Blank.(platforms := Some([Str("PC"), nameless]));
      && UniquePlatformKeys([g, g]) == [Named("PC"), Nameless(0, 1), Nameless(1, 1)]
  {
    var nameless := Obj(None, None, Some("PC"), None);
    var g := Blank.(platforms := Some([Str("PC"), nameless]));
    var es := Entries([g, g]);
    assert [g, g][..1] == [g];
    assert Entries([g]) == Entries([]) + Row(0, [Str("PC"), nameless]);
    assert es == [Entry(0, 0, Str("PC")), Entry(0, 1, nameless), Entry(1, 0, Str("PC")), Entry(1, 1, nameless)];
    var e0, e1, e2, e3 := Entry(0, 0, Str("PC")), Entry(0, 1, nameless), Entry(1, 0, Str("PC")), Entry(1, 1, nameless);
    assert es[..3] == [e0, e1, e2];
    assert es[..3][..2] == [e0, e1];
    assert [e0, e1][..1] == [e0];
    assert [e0][..0] == [];
    assert FirstSeen.Dedup([e0], EntryKey) == [e0];
    assert FirstSeen.FirstOfKey([e0, e1], EntryKey, 1);
    assert FirstSeen.Dedup([e0, e1], EntryKey) == [e0, e1];
    assert !FirstSeen.FirstOfKey([e0, e1, e2], EntryKey, 2) by {
      assert EntryKey([e0, e1, e2][0]) == EntryKey([e0, e1, e2][2]);
    }
    assert FirstSeen.Dedup([e0, e1, e2], EntryKey) == [e0, e1];
    assert FirstSeen.FirstOfKey(es, EntryKey, 3);
    assert FirstSeen.Dedup(es, EntryKey) == [e0, e1, e3];
  }

  // ---------------------------------------------------------------- the home page's platform filters

  /** `(plat.name || plat) === selectedPlatform` for a string selection. */
  predicate NamedAs(d: Descriptor, selected: string) {
    match d
    case Str(s) => s == selected
    case Obj(_, name, _, _) => Truthy(name) && name.value == selected
  }

  predicate HasPlatformNamed(g: Game, selected: string) {
    exists j :: 0 <= j < |PlatformsOrEmpty(g)| && NamedAs(PlatformsOrEmpty(g)[j], selected)
  }

  /** `filteredCarouselGames` and `filteredRestGames`. */
  function FilterByPlatformName(games: seq<Game>, selected: string): seq<Game> {
    if selected == [] then games else Keep(games, g => HasPlatformNamed(g, selected))
  }

  /** `filteredGames`: `Array.includes`, so only a bare string equal to the selection matches. */
  function FilterByIncludes(games: seq<Game>, selected: string): seq<Game> {
    if selected == [] then games else Keep(games, g => Str(selected) in PlatformsOrEmpty(g))
  }

  /** The descriptor is the string `selected`, or an object whose `name` is `selected`. */
  predicate IsOrNamed(d: Descriptor, selected: string) {
    d == Str(selected) || (d.Obj? && d.name == Some(selected))
  }

  /** An empty selection keeps everything; otherwise exactly the games with a platform so named, in order. */
  lemma FilterByPlatformNameSpec(games: seq<Game>, selected: string)
    ensures selected == [] ==> FilterByPlatformName(games, selected) == games
    ensures var r := FilterByPlatformName(games, selected);
      selected != [] ==>
        && FirstSeen.IsSubsequence(r, games)
        && forall g :: g in r <==> g in games && exists j :: 0 <= j < |PlatformsOrEmpty(g)| && IsOrNamed(PlatformsOrEmpty(g)[j], selected)
  {
    if selected != [] {
      KeepIsSubsequence(games, g => HasPlatformNamed(g, selected));
    }
  }

  /** Every game `filteredGames` keeps, the name filter keeps too. */
  lemma IncludesImpliesNamed(games: seq<Game>, selected: string)
    ensures forall g :: g in FilterByIncludes(games, selected) ==> g in FilterByPlatformName(games, selected)
  {
    forall g | g in FilterByIncludes(games, selected) ensures g in FilterByPlatformName(games, selected) {
      if selected != [] {
        var ds := PlatformsOrEmpty(g);
        var j :| 0 <= j < |ds| && ds[j] == Str(selected);
        assert NamedAs(ds[j], selected);
      }
    }
  }

  /** A game whose platforms are objects is found by name but never by `includes`. */
  lemma ObjectPlatformMissedByIncludes()
    ensures var g := Blank.(platforms := Some([Obj(Some(Num(6)), Some("PC"), None, None)]));
      && FilterByPlatformName([g], "PC") == [g]
      && FilterByIncludes([g], "PC") == []
  {
    var g := Blank.(platforms := Some([Obj(Some(Num(6)), Some("PC"), None, None)]));
    assert NamedAs(PlatformsOrEmpty(g)[0], "PC");
  }
}

=== FILE: stablesort.dfy ===
/**
 * `Array.prototype.sort` with a comparator is stable (ECMAScript 2019). The model sorts
 * positions: a position moves ahead of another exactly when its key comes first, and
 * positions with equal keys keep their input order. Keys are integers (release dates)
 * or strings (names, compared in code point order as the stand-in for `localeCompare`).
 */
module StableSort {

  datatype Rank = ByInt(n: int) | ByText(s: string)

  /** Code-unit lexicographic order on strings. */
  predicate TextLess(a: string, b: string) {
    if a == [] then b != []
    else if b == [] then false
    else if a[0] < b[0] then true
    else if a[0] == b[0] then TextLess(a[1..], b[1..])
    else false
  }

  lemma TextLessIrreflexive(a: string)
    ensures !TextLess(a, a)
  {
  }

  lemma TextLessTransitive(a: string, b: string, c: string)
    requires TextLess(a, b) && TextLess(b, c)
    ensures TextLess(a, c)
  {
    if a != [] && b != [] && c != [] && a[0] == b[0] && b[0] == c[0] {
      TextLessTransitive(a[1..], b[1..], c[1..]);
    }
  }

  lemma TextLessTotal(a: string, b: string)
    ensures a == b || TextLess(a, b) || TextLess(b, a)
  {
    if a != [] && b != [] && a[0] == b[0] {
      TextLessTotal(a[1..], b[1..]);
      if a[1..] == b[1..] {
        assert a == [a[0]] + a[1..] && b == [b[0]] + b[1..];
      }
    }
  }

  /** Integers before strings; numeric order among integers, lexicographic among strings. */
  predicate Less(a: Rank, b: Rank) {
    match (a, b)
    case (ByInt(x), ByInt(y)) => x < y
    case (ByInt(_), ByText(_)) => true
    case (ByText(_), ByInt(_)) => false
    case (ByText(x), ByText(y)) => TextLess(x, y)
  }

  /** The comparator's verdict: ascending, or descending when `desc`. */
  predicate Precedes(desc: bool, a: Rank, b: Rank) {
    if desc then Less(b, a) else Less(a, b)
  }

  lemma PrecedesIrreflexive(desc: bool, a: Rank)
    ensures !Precedes(desc, a, a)
  {
    if a.ByText? {
      TextLessIrreflexive(a.s);
    }
  }

  lemma LessTransitive(a: Rank, b: Rank, c: Rank)
    requires Less(a, b) && Less(b, c)
    ensures Less(a, c)
  {
    if a.ByText? && b.ByText? && c.ByText? {
      TextLessTransitive(a.s, b.s, c.s);
    }
  }

  lemma PrecedesTransitive(desc: bool, a: Rank, b: Rank, c: Rank)
    requires Precedes(desc, a, b) && Precedes(desc, b, c)
    ensures Precedes(desc, a, c)
  {
    if desc {
      LessTransitive(c, b, a);
    } else {
      LessTransitive(a, b, c);
    }
  }

  lemma PrecedesTotal(desc: bool, a: Rank, b: Rank)
    ensures a == b || Precedes(desc, a, b) || Precedes(desc, b, a)
  {
    if a.ByText? && b.ByText? {
      TextLessTotal(a.s, b.s);
    }
  }

  // ---------------------------------------------------------------- sorting positions

  predicate InRange<K>(keys: seq<K>, s: seq<nat>) { forall i :: 0 <= i < |s| ==> s[i] < |keys| }

  predicate Increasing(s: seq<nat>) { forall a, b :: 0 <= a < b < |s| ==> s[a] < s[b] }

  /** Position `i` is placed before position `j`: its key comes first, or the keys tie and `i` was earlier. */
  predicate Before(keys: seq<Rank>, desc: bool, i: nat, j: nat) {
    && i < |keys| && j < |keys|
    && (Precedes(desc, keys[i], keys[j]) || (keys[i] == keys[j] && i < j))
  }

  predicate Ordered(keys: seq<Rank>, desc: bool, s: seq<nat>) {
    forall a, b :: 0 <= a < b < |s| ==> Before(keys, desc, s[a], s[b])
  }

  lemma BeforeTransitive(keys: seq<Rank>, desc: bool, i: nat, j: nat, k: nat)
    requires i < |keys| && j < |keys| && k < |keys|
    requires Before(keys, desc, i, j) && Before(keys, desc, j, k)
    ensures Before(keys, desc, i, k)
  {
    if Precedes(desc, keys[i], keys[j]) && Precedes(desc, keys[j], keys[k]) {
      PrecedesTransitive(desc, keys[i], keys[j], keys[k]);
    }
  }

  /** Inserts position `x` before the first position whose key does not come strictly before `x`'s. */
  function Insert(keys: seq<Rank>, desc: bool, x: nat, s: seq<nat>): (r: seq<nat>)
    requires x < |keys| && InRange(keys, s)
    ensures |r| == |s| + 1
    ensures multiset(r) == multiset(s) + multiset{x}
    ensures InRange(keys, r)
  {
    if s == [] then [x]
    else if !Precedes(desc, keys[s[0]], keys[x]) then [x] + s
    else
      assert s == [s[0]] + s[1..];
      [s[0]] + Insert(keys, desc, x, s[1..])
  }

  /** A position that goes before every element of an ordered sequence may lead it. */
  lemma OrderedCons(keys: seq<Rank>, desc: bool, h: nat, t: seq<nat>)
    requires Ordered(keys, desc, t)
    requires forall b :: 0 <= b < |t| ==> Before(keys, desc, h, t[b])
    ensures Ordered(keys, desc, [h] + t)
  {
    var r := [h] + t;
    forall a, b | 0 <= a < b < |r|
      ensures Before(keys, desc, r[a], r[b])
    {
      if a > 0 {
        assert r[a] == t[a - 1] && r[b] == t[b - 1];
      } else {
        assert r[b] == t[b - 1];
      }
    }
  }

  lemma InsertOrdered(keys: seq<Rank>, desc: bool, x: nat, s: seq<nat>)
    requires x < |keys| && InRange(keys, s)
    requires Ordered(keys, desc, s)
    requires forall i :: 0 <= i < |s| ==> x < s[i]
    ensures Ordered(keys, desc, Insert(keys, desc, x, s))
    decreases |s|, 1
  {
    if s == [] {
    } else if !Precedes(desc, keys[s[0]], keys[x]) {
      PrecedesTotal(desc, keys[x], keys[s[0]]);
      assert Before(keys, desc, x, s[0]);
      forall b | 0 <= b < |s|
        ensures Before(keys, desc, x, s[b])
      {
        if b > 0 {
          BeforeTransitive(keys, desc, x, s[0], s[b]);
        }
      }
      OrderedCons(keys, desc, x, s);
    } else {
      InsertOrderedDeep(keys, desc, x, s);
    }
  }

  lemma InsertOrderedDeep(keys: seq<Rank>, desc: bool, x: nat, s: seq<nat>)
    requires x < |keys| && InRange(keys, s)
    requires Ordered(keys, desc, s)
    requires forall i :: 0 <= i < |s| ==> x < s[i]
    requires s != [] && Precedes(desc, keys[s[0]], keys[x])
    ensures Ordered(keys, desc, Insert(keys, desc, x, s))
    decreases |s|, 0
  {
    var tail := s[1..];
    var rest := Insert(keys, desc, x, tail);
    InsertOrdered(keys, desc, x, tail);
    assert Before(keys, desc, s[0], x);
    forall b | 0 <= b < |rest|
      ensures Before(keys, desc, s[0], rest[b])
    {
      assert rest[b] in multiset(rest);
      if rest[b] != x {
        assert rest[b] in multiset(tail);
        var j :| 0 <= j < |tail| && tail[j] == rest[b];
        assert Before(keys, desc, s[0], s[j + 1]);
      }
    }
    OrderedCons(keys, desc, s[0], rest);
  }

  lemma HeadBelowPermutedTail(s: seq<nat>, rest: seq<nat>)
    requires s != [] && Increasing(s) && multiset(rest) == multiset(s[1..])
    ensures forall i :: 0 <= i < |rest| ==> s[0] < rest[i]
  {
    forall i | 0 <= i < |rest| ensures s[0] < rest[i] {
      assert rest[i] in multiset(rest);
      var j :| 0 <= j < |s[1..]| && s[1..][j] == rest[i];
      assert s[j + 1] == rest[i];
    }
  }

  /** Stable sort of increasing positions by their keys. */
  function Sort(keys: seq<Rank>, desc: bool, s: seq<nat>): (r: seq<nat>)
    requires InRange(keys, s) && Increasing(s)
    ensures |r| == |s|
    ensures multiset(r) == multiset(s)
    ensures InRange(keys, r)
    ensures Ordered(keys, desc, r)
  {
    if s == [] then []
    else
      var rest := Sort(keys, desc, s[1..]);
      HeadBelowPermutedTail(s, rest);
      InsertOrdered(keys, desc, s[0], rest);
      assert s == [s[0]] + s[1..];
      Insert(keys, desc, s[0], rest)
  }

  lemma SortMembers(keys: seq<Rank>, desc: bool, s: seq<nat>)
    requires InRange(keys, s) && Increasing(s)
    ensures forall x :: x in Sort(keys, desc, s) <==> x in s
  {
    var r := Sort(keys, desc, s);
    assert forall x :: x in r <==> x in multiset(r);
    assert forall x :: x in s <==> x in multiset(s);
  }

  /** A position placed earlier never has a key that comes strictly later. */
  lemma OrderedKeysMonotone(keys: seq<Rank>, desc: bool, s: seq<nat>, a: int, b: int)
    requires InRange(keys, s) && Ordered(keys, desc, s)
    requires 0 <= a < b < |s|
    ensures !Precedes(desc, keys[s[b]], keys[s[a]])
  {
    assert Before(keys, desc, s[a], s[b]);
    if Precedes(desc, keys[s[b]], keys[s[a]]) {
      if Precedes(desc, keys[s[a]], keys[s[b]]) {
        PrecedesTransitive(desc, keys[s[a]], keys[s[b]], keys[s[a]]);
      }
      PrecedesIrreflexive(desc, keys[s[a]]);
    }
  }

  /** Sorting distinct positions leaves no position twice. */
  lemma SortDistinct(keys: seq<Rank>, desc: bool, s: seq<nat>)
    requires InRange(keys, s) && Increasing(s)
    ensures var r := Sort(keys, desc, s); forall a, b :: 0 <= a < b < |r| ==> r[a] != r[b]
  {
    var r := Sort(keys, desc, s);
    forall a, b | 0 <= a < b < |r| ensures r[a] != r[b] {
      assert Before(keys, desc, r[a], r[b]);
      if r[a] == r[b] {
        PrecedesIrreflexive(desc, keys[r[a]]);
      }
    }
  }

  // ---------------------------------------------------------------- applying positions

  /** `xs` at the given positions. */
  function Pick<T>(xs: seq<T>, ps: seq<nat>): (r: seq<T>)
    requires forall p :: p in ps ==> p < |xs|
    ensures |r| == |ps|
    ensures forall a :: 0 <= a < |ps| ==> ps[a] in ps && r[a] == xs[ps[a]]
  {
    assert forall a :: 0 <= a < |ps| ==> ps[a] in ps;
    seq(|ps|, a requires 0 <= a < |ps| => xs[ps[a]])
  }

  function Upto(n: nat): (r: seq<nat>)
    ensures |r| == n && forall i :: 0 <= i < n ==> r[i] == i
  {
    seq(n, i requires 0 <= i < n => i)
  }

  lemma PickAppend<T>(xs: seq<T>, ps: seq<nat>, qs: seq<nat>)
    requires forall p :: p in ps ==> p < |xs|
    requires forall p :: p in qs ==> p < |xs|
    ensures Pick(xs, ps + qs) == Pick(xs, ps) + Pick(xs, qs)
  {
  }

  lemma RemoveAt(qs: seq<nat>, j: nat)
    requires j < |qs|
    ensures multiset(qs[..j] + qs[j + 1..]) == multiset(qs) - multiset{qs[j]}
  {
    assert qs == qs[..j] + [qs[j]] + qs[j + 1..];
  }

  /** Picking at all positions but one leaves out exactly that one record. */
  lemma PickSplit<T>(xs: seq<T>, left: seq<nat>, x: nat, right: seq<nat>)
    requires forall p :: p in left + [x] + right ==> p < |xs|
    ensures x < |xs| && forall p :: p in left + right ==> p < |xs|
    ensures multiset(Pick(xs, left + [x] + right)) == multiset{xs[x]} + multiset(Pick(xs, left + right))
  {
    assert x in left + [x] + right;
    assert forall p :: p in left ==> p in left + [x] + right;
    assert forall p :: p in right ==> p in left + [x] + right;
    PickAppend(xs, left + [x], right);
    PickAppend(xs, left, [x]);
    PickAppend(xs, left, right);
  }

  /** Dropping position `j` from the positions drops its record from the picked multiset. */
  lemma PickDrop<T>(xs: seq<T>, qs: seq<nat>, j: nat, rest: seq<nat>)
    requires forall p :: p in qs ==> p < |xs|
    requires j < |qs| && rest == qs[..j] + qs[j + 1..]
    ensures qs[j] < |xs| && forall p :: p in rest ==> p < |xs|
    ensures multiset(rest) == multiset(qs) - multiset{qs[j]}
    ensures multiset(Pick(xs, qs)) == multiset{xs[qs[j]]} + multiset(Pick(xs, rest))
  {
    RemoveAt(qs, j);
    assert qs == qs[..j] + [qs[j]] + qs[j + 1..];
    PickSplit(xs, qs[..j], qs[j], qs[j + 1..]);
  }

  /** Picking records at two orderings of the same positions gives the same records. */
  lemma {:induction false} PickPermutation<T>(xs: seq<T>, ps: seq<nat>, qs: seq<nat>)
    requires forall p :: p in ps ==> p < |xs|
    requires forall p :: p in qs ==> p < |xs|
    requires multiset(ps) == multiset(qs)
    ensures multiset(Pick(xs, ps)) == multiset(Pick(xs, qs))
    decreases |ps|
  {
    if ps != [] {
      assert ps[0] in multiset(qs);
      var j :| 0 <= j < |qs| && qs[j] == ps[0];
      var qrest := qs[..j] + qs[j + 1..];
      var prest := ps[..0] + ps[1..];
      PickDrop(xs, qs, j, qrest);
      PickDrop(xs, ps, 0, prest);
      PickPermutation(xs, prest, qrest);
    } else {
      assert |qs| == |multiset(qs)|;
    }
  }
}

=== FILE: wrappers.dfy ===
/** Optional values: the model's stand-in for a JavaScript property that may be absent. */
module Wrappers {

  datatype Option<+T> = None | Some(value: T) {

    /** Returns the wrapped value, or `default` when absent (JavaScript `??`). */
    function GetOr(default: T): T {
      match this
      case Some(v) => v
      case None => default
    }
  }
}
